=== FILE: README.md ===
# GitShuffler in Dafny

GitShuffler replays the files of a repository as a series of commits spread
over a chosen duration and shared among weighted authors. It has two phases.
`Engine.plan` either resumes the manifest saved in the state file or scans the
files. It checks that the schedule is realistic (`RepoAnalyzer.analyze`) and
plans it (`Planner.plan`). Planning shuffles the files and splits them
round-robin into commits (`Chunker.chunk_files`), then gives each commit a
timestamp, an author and a message. `Engine.apply` applies a manifest. It
checks the repository and takes a PID lock file. It then resumes from the
execution ledger (`StateManager`), stages and commits every action through
`GitWrapper`, and checkpoints the ledger after each commit.

This project models that core as pure functions over immutable data. Each
module follows one source file:

| module | file |
|---|---|
| `Common` | shared `Option`, `Result`, Python exceptions, `Flatten` |
| `Text` | the ASCII semantics of `str.lower/strip/join/splitlines`, `str(n)` and `int(s)` |
| `Chunker` | `gitshuffler/core/chunker.py` |
| `TimeUtils` | `gitshuffler/utils/time_utils.py` |
| `RepoAnalyzer` | `gitshuffler/core/repo_analyzer.py` |
| `ConfigParser` | `gitshuffler/utils/config_parser.py` |
| `Planner` | `gitshuffler/core/planner.py` |
| `StateManager` | `gitshuffler/core/state_manager.py` (in `ledger.dfy`) |
| `GitWrapper` | `gitshuffler/utils/git_wrapper.py` |
| `Engine` | `gitshuffler/core/engine.py` |

Everything the code takes from the outside becomes an explicit input:
- Randomness: the shuffled list, the unit draws behind `random.uniform`, and the unit draws behind `random.choices`.
- The clock: timestamps are offsets in seconds from the planning start.
- SHA-256: the function parameter `digest`.
- The file system: the state file, the lock file, and the existence of files.
- Git: each query's standard output, or `None` for a non-zero exit, plus per-index success of `git add` and `git commit`.

`Engine.Apply` returns the exit it takes, and in order every write and every
`git init`, add and commit that succeeds. It also returns the warnings, and
the state and lock files it leaves. Failed git invocations and read-only git
queries are not effects.

Where the shipped code cannot run, the model follows the evident intent:
- `Engine.apply` calls `check_gpg_sign` and `get_head_hash`, but `GitWrapper` defines neither. The gpg setting and both HEAD values are therefore inputs (`World.gpgSign`, `Session.recordedHead`, `Session.currentHead`).
- `apply` reads `saved_state.last_commit_hash`, which `ExecutionState` does not have. The recorded HEAD is an input too. It is consulted only when a record existed before the run: a record `initialize_or_resume` has just written carries no HEAD, so a fresh run never stops as diverged.
- The checkpoint calls `update_progress(i, head_hash, is_complete=...)`, one positional argument too many. It is modelled as `update_progress(i, i == len(manifest) - 1)`.
- `Planner.plan` reads `duration_seconds`, `total_commits` and `mode`, and `RepoAnalyzer.analyze` reads `duration_seconds`. None of these is a field of `ConfigDTO`. They are parameters (`Planner.Schedule`, and the `duration` arguments).

The model keeps Python's negative indexing. A ledger whose `last_applied_index`
is below -1 starts the loop at a negative index. It commits actions from the
tail of the manifest, or raises IndexError below `-len` (`Engine.NegativeStart`).

`Planner.Plan` keeps `plan`'s early return for `num_commits == 0`, but the
branch is never taken. A zero `total_commits` is falsy and falls back to
`max(1, len // 5)`, so the requested count is never 0.

## Model

| member | source | states |
|---|---|---|
| Chunker.ChunkFiles | gitshuffler/core/chunker.py:11-39 | No files give no chunks. Otherwise a count <= 0 is a ValueError. Otherwise there are exactly min(num_chunks, len(files)) chunks, each non-empty, laid out round-robin over the shuffled list, and together they hold every file exactly once |
| Chunker.DistributeRoundRobin | gitshuffler/core/chunker.py:32-37 | The append loop (file i into chunk i % k) builds the reference round-robin split, and no file is lost or duplicated |
| Chunker.RoundRobinShape | gitshuffler/core/chunker.py:30-37 | For k <= n, chunk j holds n/k files plus one for j < n%k, so none is empty. Its t-th file is the file at position j + t*k |
| Chunker.RoundRobinSnoc | gitshuffler/core/chunker.py:35-37 | Adding one more file to the list appends it to chunk len % k and changes no other chunk |
| Chunker.RoundRobinPermutation | gitshuffler/core/chunker.py:14-37 | Every file is included exactly once: the concatenated chunks are a permutation of the input |
| Chunker.StrideGroupSize | gitshuffler/core/chunker.py:35-37 | The number of files the round-robin gives chunk j, in closed form |
| Chunker.StrideIndex | gitshuffler/core/chunker.py:35-37 | The t-th file appended to chunk j is file j + t*k of the shuffled list |
| TimeUtils.ParseDuration | gitshuffler/utils/time_utils.py:6-40 | A ValueError exactly when the lowered, stripped text has no (digits, unit) pair and is not all digits. Otherwise the result is a number of seconds |
| TimeUtils.MatchFront | gitshuffler/utils/time_utils.py:17 | A match at the front of the text is a non-empty run of digits and a unit letter, with a length inside the text |
| TimeUtils.FindAll | gitshuffler/utils/time_utils.py:17 | Every pair found has a non-empty run of digits and one of the units w, d, h, m, s |
| TimeUtils.CaseInsensitive | gitshuffler/utils/time_utils.py:12 | Upper-case input means the same duration as its lower-case form |
| TimeUtils.DigitFreePrefixIgnored | gitshuffler/utils/time_utils.py:17 | Text without digits before a duration adds no pairs and leaves the later pairs as they are |
| TimeUtils.TokenFirst | gitshuffler/utils/time_utils.py:17 | A number, optional whitespace and a unit at the front form one pair, and matching resumes right after the unit |
| TimeUtils.TwoTokens | gitshuffler/utils/time_utils.py:14-17 | "1d2h" and "1d 2h" alike give two pairs, and the total is the sum of both |
| TimeUtils.SeparatedToken | gitshuffler/utils/time_utils.py:17 | A token after digit-free text is the only pair found |
| TimeUtils.LoneToken | gitshuffler/utils/time_utils.py:17 | A single token yields exactly its (value, unit) pair |
| TimeUtils.SingleToken | gitshuffler/utils/time_utils.py:28-40 | "Nu" parses to N times the length of unit u, e.g. "90m" is 5400 seconds |
| TimeUtils.ManyTokens | gitshuffler/utils/time_utils.py:14-40 | Any number of tokens, each a number, optional whitespace and a unit, separated by text without digits, are found as one pair each in order. Their total is the sum of value times unit length |
| TimeUtils.ParseTokens | gitshuffler/utils/time_utils.py:6-40 | Input whose lowered, stripped form is one or more such tokens parses to their total, e.g. "1d 30m" to 88200 seconds |
| TimeUtils.TotalConcat | gitshuffler/utils/time_utils.py:37-38 | The total of two lists of pairs is the sum of their totals |
| TimeUtils.PairsTotal | gitshuffler/utils/time_utils.py:37-38 | Two pairs sum to v1*u1 + v2*u2 seconds |
| TimeUtils.OnePairTotal | gitshuffler/utils/time_utils.py:37-38 | One pair is its value times its unit's length |
| TimeUtils.DigitsHaveNoPair | gitshuffler/utils/time_utils.py:17 | A string made only of digits contains no pair |
| TimeUtils.DigitsAreDays | gitshuffler/utils/time_utils.py:24-25 | A bare number is that many days, in seconds |
| TimeUtils.BlankIsError | gitshuffler/utils/time_utils.py:24-26 | The empty or all-whitespace string is a ValueError |
| TimeUtils.NoDigitsIsError | gitshuffler/utils/time_utils.py:17-26 | Any text without a digit is a ValueError |
| RepoAnalyzer.Trunc | gitshuffler/core/repo_analyzer.py:33 | `int(x)` truncates toward zero: it lies within one of x, on the zero side |
| RepoAnalyzer.Analyze | gitshuffler/core/repo_analyzer.py:10-59 | No files always pass. Otherwise there is a ValueError exactly when the duration is positive and 30 * expected commits exceeds it. A passing run warns exactly when there are more than 10000 files and the duration is under 600 s |
| RepoAnalyzer.DensityIsIntegral | gitshuffler/core/repo_analyzer.py:37-39 | The rate test expected / (duration / 60) > 2 holds exactly when 30 * expected > duration |
| RepoAnalyzer.ExpectedIsFloor | gitshuffler/core/repo_analyzer.py:31-33 | For a day or more, the expected count is floor(duration * max / 86400) |
| RepoAnalyzer.ExpectedCoversWholeDays | gitshuffler/core/repo_analyzer.py:31-33 | The expected count is at least the per-day maximum times the number of whole days |
| RepoAnalyzer.NonPositiveDurationPasses | gitshuffler/core/repo_analyzer.py:37 | A duration <= 0 never raises |
| RepoAnalyzer.ShortRunThreshold | gitshuffler/core/repo_analyzer.py:28-39 | Under a day the run raises exactly when the per-day maximum exceeds duration / 30 |
| ConfigParser.FirstMissing | gitshuffler/utils/config_parser.py:51-53 | The reported field is in the list and absent. No field is reported exactly when every field is present |
| ConfigParser.ParseAuthors | gitshuffler/utils/config_parser.py:59-91 | At least one author. With a non-empty list, the authors are the list's entries in order, all named |
| ConfigParser.Parse | gitshuffler/utils/config_parser.py:28-111 | A missing required key is a MissingField error. Success implies every required key, at least one author, days_active >= 1 and 0 <= min <= max |
| ConfigParser.ParseAcceptsExactly | gitshuffler/utils/config_parser.py:44-99 | `parse` succeeds exactly on objects with the required keys, a valid author source and valid ranges |
| ConfigParser.MissingFieldFirst | gitshuffler/utils/config_parser.py:45-53 | The error names the first missing key in `required_fields` order, before any author check |
| ConfigParser.AuthorListKept | gitshuffler/utils/config_parser.py:63-76 | A successful "authors" list is kept in order with absent weights read as 0.0, and its weights sum to within 0.01 of 1.0 |
| ConfigParser.UnnamedAuthorRejected | gitshuffler/utils/config_parser.py:66-68 | Any author without "name" or "email" is rejected |
| ConfigParser.WeightSumRejected | gitshuffler/utils/config_parser.py:73-76 | Named authors whose weights sum outside [0.99, 1.01] are rejected |
| ConfigParser.SingleAuthorFallback | gitshuffler/utils/config_parser.py:78-91 | Without a list there is one author of weight 1.0: the top-level pair when both are non-empty, else the "default_author" pair |
| ConfigParser.NoAuthorRejected | gitshuffler/utils/config_parser.py:80-88 | No list and no usable name/email pair anywhere is rejected |
| ConfigParser.RangeChecks | gitshuffler/utils/config_parser.py:93-99 | The three range errors, in the order the code checks them |
| ConfigParser.ResultIdentityWithList | gitshuffler/utils/config_parser.py:101-104 | With an author list, the top-level identity is kept when non-empty and otherwise taken from the first author |
| Planner.RequestedCount | gitshuffler/core/planner.py:33-40 | A truthy `total_commits` is used as given. Otherwise max(1, files // 5), which is at least 1 |
| Planner.Sort | gitshuffler/core/planner.py:61 | The sorted list is ordered and a permutation of its input |
| Planner.RandomOffsets | gitshuffler/core/planner.py:56-61 | n offsets, ordered, and a permutation of duration * u over the first n draws |
| Planner.RandomOffsetsInRange | gitshuffler/core/planner.py:58-59 | With draws in [0, 1], every random offset lies in [0, duration] |
| Planner.EvenOffsets | gitshuffler/core/planner.py:62-74 | n offsets in non-decreasing order |
| Planner.EvenOffsetsShape | gitshuffler/core/planner.py:66-74 | One commit sits at 0. A non-positive duration puts all at 0. Otherwise the first is at 0, the last at the duration, with equal steps between |
| Planner.Timestamps | gitshuffler/core/planner.py:55-74 | Any mode gives n ordered offsets; "random" uses the draws, every other mode is even |
| Planner.Weights | gitshuffler/core/planner.py:100 | One weight per author, in order |
| Planner.WeightedChoice | gitshuffler/core/planner.py:99-102 | The pick is an index into the list. It is an error exactly when the weights sum to <= 0 |
| Planner.BisectRightFindsFirstGreater | gitshuffler/core/planner.py:102 | On a sorted range, the bisection returns the first position whose value exceeds x |
| Planner.WeightedChoiceSkipsZeroWeights | gitshuffler/core/planner.py:99-102 | With non-negative weights, an author of weight 0 is never chosen |
| Planner.WeightedChoicePicks | gitshuffler/core/planner.py:99-102 | With non-negative weights and u in [0, 1), the chosen index i has cum[i-1] <= u * total < cum[i], where cum holds the running sums of the weights and cum[-1] is 0 |
| Planner.MessageLayout | gitshuffler/core/planner.py:88-93 | The message starts with "Update N files". For names without line breaks, it has no line break when there are no files. Otherwise it has one more than the number of names listed (at most five), plus one for the "...and N-5 more." remark when there are more than five |
| Planner.MessageDependsOnFirstFive | gitshuffler/core/planner.py:88-93 | Equal file counts and equal first five names give equal messages |
| Planner.ChooseAuthor | gitshuffler/core/planner.py:96-102 | No authors is an IndexError. One author is always chosen. Several authors succeed exactly when their weights sum to more than 0, and otherwise give a ValueError. Any choice is one of the authors |
| Planner.MakeAction | gitshuffler/core/planner.py:86-111 | The action carries the chunk's files and timestamp, and it exists exactly when an author can be chosen |
| Planner.AssignFrom | gitshuffler/core/planner.py:76-84 | Action i gets chunk i and timestamp i, in order. It succeeds exactly when there is nothing left to assign or the authors can be picked from; otherwise it is the IndexError or ValueError of the pick |
| Planner.Actions | gitshuffler/core/planner.py:53-84 | For a non-empty list of chunks, the actions carry exactly the chunks and the mode's timestamps, in order. They succeed exactly when the authors can be picked from |
| Planner.Plan | gitshuffler/core/planner.py:20-84 | No files give an empty manifest. A negative count is a ValueError, and no authors is an IndexError. Weights summing to 0 or less over several authors are a ValueError. Planning succeeds exactly in the remaining cases. Then there are min(count, files) actions. Action i holds chunk i of `chunk_files` and timestamp i of the mode's timestamps. The files, each set non-empty, together are a permutation of the input. Timestamps are non-decreasing, each message describes its own files, each author comes from the config, and the sole author is used when there is one |
| Planner.PlanFacts | gitshuffler/core/planner.py:76-84 | The assigned manifest's files and timestamps are exactly the chunks and timestamps, and each author comes from the list |
| StateManager.Serialize | gitshuffler/core/state_manager.py:22-29 | One entry per action, in order, with every field kept and the timestamp as isoformat text |
| StateManager.Deserialize | gitshuffler/core/state_manager.py:31-39 | One action per entry, in order, with the timestamp parsed back |
| StateManager.DeserializeSerialize | gitshuffler/core/state_manager.py:22-39 | Deserializing a serialized manifest gives the manifest back |
| StateManager.SerializeDeserialize | gitshuffler/core/state_manager.py:22-39 | Serializing deserialized data gives the data back |
| StateManager.SerializeInjective | gitshuffler/core/state_manager.py:41-48 | Manifests that serialize alike are equal, order included, so one hash input stands for one manifest |
| StateManager.Encode | gitshuffler/core/state_manager.py:63-66 | The saved object has exactly the five `ExecutionState` keys |
| StateManager.LoadState | gitshuffler/core/state_manager.py:50-61 | A record loads exactly when the object has the five keys, no others, with their types. A loaded record re-encodes to that object |
| StateManager.LoadSavedState | gitshuffler/core/state_manager.py:50-66 | A saved record loads back unchanged |
| StateManager.SaveLoadedState | gitshuffler/core/state_manager.py:50-66 | Saving a loaded record rewrites the same file |
| StateManager.GetSavedManifest | gitshuffler/core/state_manager.py:68-73 | A manifest is returned exactly when a record loads with non-empty data, and it is that data deserialized |
| StateManager.InitializeOrResume | gitshuffler/core/state_manager.py:75-106 | No record: write a fresh one and start at 0. A hash mismatch is a RuntimeError with the file untouched. A complete record starts at len, otherwise at last_applied_index + 1 |
| StateManager.UpdateProgress | gitshuffler/core/state_manager.py:108-119 | Without a record nothing changes. Otherwise only the index and the completion flag change |
| StateManager.Clear | gitshuffler/core/state_manager.py:121-124 | Afterwards no record and no saved manifest load |
| StateManager.FreshLedger | gitshuffler/core/state_manager.py:83-92 | A new execution writes a ledger for the manifest and starts at 0 |
| StateManager.CheckpointKeepsLedger | gitshuffler/core/state_manager.py:108-119 | The checkpoint after action i keeps the ledger for the same manifest and records index i |
| StateManager.ResumeOnLedger | gitshuffler/core/state_manager.py:94-106 | On a ledger for the manifest, resuming never raises, starts within [0, len], and writes nothing |
| StateManager.SavedManifestReproducesHash | gitshuffler/core/state_manager.py:41-73 | The saved manifest of a ledger is the manifest itself, hashes to the recorded hash, and resumes without error |
| GitWrapper.ExistingAbsentSplit | gitshuffler/utils/git_wrapper.py:52-57 | Every file is either kept or counted missing |
| GitWrapper.FilterMembers | gitshuffler/utils/git_wrapper.py:52-57 | The kept files are exactly the existing ones, and the missing ones exactly the others |
| GitWrapper.BatchesPartition | gitshuffler/utils/git_wrapper.py:67-70 | The batches concatenate back to the list. Each holds 1 to 1000 files, all but the last exactly 1000, and there are none for an empty list |
| GitWrapper.Add | gitshuffler/utils/git_wrapper.py:35-70 | No files give no output. The warnings are those for the missing files, and there is one `git add` per batch of the existing files, in order |
| GitWrapper.FilterExisting | gitshuffler/utils/git_wrapper.py:44-62 | The loop keeps the existing files in order. It warns for the first five missing files, then gives the total when more than five are missing |
| GitWrapper.SplitBatches | gitshuffler/utils/git_wrapper.py:67-70 | The slicing loop yields the batches of 1000 |
| GitWrapper.CommitEnv | gitshuffler/utils/git_wrapper.py:79-88 | Exactly the six variables, with author and committer given the same name, email and date |
| GitWrapper.Commit | gitshuffler/utils/git_wrapper.py:72-96 | A dry run issues no command. Otherwise the command is `commit -m message` |
| GitWrapper.CommitEnvRecovers | gitshuffler/utils/git_wrapper.py:79-88 | The name, email and timestamp can be read back from the environment |
| GitWrapper.CommitEnvInjective | gitshuffler/utils/git_wrapper.py:79-88 | Different identities or dates give different environments |
| GitWrapper.IsClean | gitshuffler/utils/git_wrapper.py:105-120 | Clean exactly when the stripped output is empty or every line, stripped, starts with "??" |
| GitWrapper.CleanIffAllUntracked | gitshuffler/utils/git_wrapper.py:110-120 | For porcelain entries one per line, the tree is clean exactly when every entry is untracked |
| GitWrapper.CurrentBranch | gitshuffler/utils/git_wrapper.py:122-131 | symbolic-ref's output, else rev-parse's output, else "HEAD" |
| GitWrapper.DetachedCases | gitshuffler/utils/git_wrapper.py:133-135 | When both queries fail HEAD counts as detached. Otherwise it is detached exactly when the first answering query prints "HEAD" |
| Text.SplitJoinedLines | gitshuffler/utils/git_wrapper.py:114 | `splitlines` on non-empty lines joined by "\n" gives the lines back |
| Text.StripJoin | gitshuffler/utils/git_wrapper.py:27 | Stripping command output made of visible lines strips only the outer ends of the first and last lines |
| Text.StripAfterPartialStrip | gitshuffler/utils/git_wrapper.py:27 | Stripping is idempotent, including after a one-sided strip |
| Text.NatToStringRoundTrip | gitshuffler/core/planner.py:88 | The count printed in a message reads back as the same number |
| Engine.LongPaths | gitshuffler/core/engine.py:56 | The flagged paths are exactly the input paths longer than 250 characters |
| Engine.LongPathsConcat | gitshuffler/core/engine.py:56 | Flagging keeps input order: the long paths of a + b are those of a followed by those of b |
| Engine.LongPathsCount | gitshuffler/core/engine.py:56-58 | Each long path is flagged as often as it occurs, so the count reported is the number of long entries, duplicates included |
| Engine.DetectCollisions | gitshuffler/core/engine.py:62-71 | The `seen`-map loop reports each path whose lower-case form was seen before, paired with the first path of that form |
| Engine.CollisionsSound | gitshuffler/core/engine.py:66-71 | Each reported pair is two paths equal up to case, the first earlier in the list |
| Engine.NoCollisionsIffDistinct | gitshuffler/core/engine.py:62-73 | No collision is reported exactly when the paths are pairwise distinct up to case |
| Engine.PlanOrResume | gitshuffler/core/engine.py:168-192 | An incomplete record with manifest data resumes that manifest. Otherwise the analyzer's error, or a fresh plan of the scanned files |
| Engine.InterruptedPlanResumes | gitshuffler/core/engine.py:174-184 | After an interrupted apply, `plan` returns the very manifest being applied, and it resumes without a mismatch |
| Engine.CompleteRecordPlansAfresh | gitshuffler/core/engine.py:180-182 | A complete record, or one without data, never resumes |
| Engine.Preflight | gitshuffler/core/engine.py:202-230 | A RuntimeError exactly when git is missing, `git init` fails in a real run, or the tree is dirty in a real run on an existing repository. `git init` runs only in a real run without `.git`. The gpg warning is among the warnings exactly when signing is on |
| Engine.LockNotice | gitshuffler/core/engine.py:232-247 | The run aborts exactly when the lock names a live process. The lock warnings are about the lock only |
| Engine.Loop | gitshuffler/core/engine.py:289-316 | A dry run issues nothing and leaves the ledger, failing only on an index below -len. An error happens only before the end |
| Engine.Apply | gitshuffler/core/engine.py:194-324 | An empty manifest does nothing, and a failed check raises before any write, keeping the gpg warning already printed when git is installed. The gpg warning appears whenever signing is on. Past the lock, the corrupt-state warning appears exactly when the state file exists but does not load. An abort leaves lock and ledger. Every run past the lock writes this PID, ends by removing the lock, and leaves no lock file |
| Engine.Locked | gitshuffler/core/engine.py:249-324 | Once past the lock decision, the lock is written and always removed last |
| Engine.Finish | gitshuffler/core/engine.py:258-324 | The lock removal comes last on every exit, after what was already written. A mismatch refuses with no git work. A run that found no record never stops as diverged |
| Engine.LoopOnLedger | gitshuffler/core/engine.py:289-316 | A real loop from a resume point commits indices i up to the first failing one, in order. It checkpoints each, marks completion exactly when all succeed, and raises RuntimeError otherwise |
| Engine.LoopStep | gitshuffler/core/engine.py:289-316 | A successful index commits that index first, then continues from the next index on the checkpointed ledger, ending with the same ledger and error |
| Engine.LoopHalt | gitshuffler/core/engine.py:293-311 | A failing add or commit stops the loop with a RuntimeError, the ledger untouched and nothing committed |
| Engine.ActionBlock | gitshuffler/core/engine.py:293-316 | One applied action commits exactly its own index |
| Engine.CheckpointFollowsCommit | gitshuffler/core/engine.py:303-316 | In a real run every checkpoint directly follows the commit of the same index, and only the last index is marked complete |
| Engine.NegativeStart | gitshuffler/core/engine.py:289-290 | A negative start takes `manifest[i]` from the tail; below -len it is an IndexError before any work |
| Engine.EmptyManifestTouchesNothing | gitshuffler/core/engine.py:198-200 | An empty manifest runs no git command and writes no lock or ledger |
| Engine.DirtyTreeRaisesBeforeLock | gitshuffler/core/engine.py:224-227 | A dirty tree in a real run raises before the lock is taken |
| Engine.SameRun | gitshuffler/core/engine.py:202-252 | Worlds with the same check verdicts, lock verdict and session give the same run |
| Engine.DetachedHeadOnlyWarns | gitshuffler/core/engine.py:228-230 | A detached HEAD changes nothing but adds the warning |
| Engine.DryRunSkipsChecks | gitshuffler/core/engine.py:217-230 | A dry run ignores the `.git` probe, `git init`, status and branch. Past the lock it only writes the lock, the fresh record when there is none, and removes the lock |
| Engine.DryRunLocked | gitshuffler/core/engine.py:249-316 | A locked dry run issues no git command and keeps an existing record |
| Engine.LiveLockAborts | gitshuffler/core/engine.py:234-243 | A live lock holder aborts with lock and ledger untouched |
| Engine.StaleLockReclaimed | gitshuffler/core/engine.py:244-252 | A stale or corrupt lock is overwritten with a warning, and the run is as if there were none |
| Engine.MismatchRefused | gitshuffler/core/engine.py:258-276 | A record for another manifest is refused. No git work is done, the ledger is unchanged and the lock is released |
| Engine.CompletedLedgerAppliesNothing | gitshuffler/core/engine.py:278-280 | A complete ledger applies nothing and is left as it was |
| Engine.DriftStops | gitshuffler/core/engine.py:262-272 | HEAD moved since the checkpoint of a record that existed before the run: the run stops before any git work and releases the lock |
| Engine.StartOnLedger | gitshuffler/core/engine.py:258-260 | The start index lies in [0, len], the record left is a ledger for the manifest, and a second resume gives the same start |
| Engine.LoopThenResume | gitshuffler/core/engine.py:289-316 | After the loop, the next run resumes exactly at the first action that did not go through |
| Engine.InterruptedApplyResumes | gitshuffler/core/engine.py:258-316 | A real run commits exactly the actions from its start to where the next run resumes, and leaves a ledger. So interrupted runs and reruns apply every action once, in order, provided each rerun passes the pre-lock checks (for example after the index is reset) |

## Left out

- Reading the file system and running git: `GitWrapper.run_command`, `init`, `verify_installed`, `Engine.scan_files` (both definitions; the second replaces the first), `load_config`, and JSON reading and writing. Their outcomes are inputs.
- `ConfigParser.parse` before `json.load` returns: the FileNotFoundError for a missing file and the ValueError for invalid JSON. Parsing starts from the decoded object.
- Informational messages (progress, "Initializing", "Resuming", dry-run banners, error text) and the wording of warnings. Which warnings `apply` prints, in order, is modelled (`Engine.Notice`, including the corrupt-state warning `load_state` prints), and so are the configuration warnings (`GitWrapper.Warning`). `_validate_paths` prints only; the model gives the long paths and collisions it reports.
- Engine.PlanOrResume: returns the manifest only. The corrupt-state warning that `plan` prints twice for a state file that exists but does not load (once from `get_saved_manifest`, once from `load_state`) is not modelled.
- Engine.LockNotice: a lock PID outside the C `int` range makes `os.kill` raise OverflowError, which `apply` does not catch, so the run ends before the lock file is written. The lock's liveness is an input (`LockFile.Held.alive`), so this exception is not modelled.
- Floating point: weights, durations, offsets and the analyzer's rates are exact reals.
- datetime arithmetic: timestamps are second offsets from the planning start, and `isoformat` text is abstract.
- `timedelta` range limits, so a huge duration does not overflow.
- SHA-256 and `json.dumps`: an uninterpreted function `digest` of the serialized manifest.
- Unicode: `str.lower`, `str.strip`, `isdigit`, the `\d` and `\s` classes and `splitlines` are modelled on ASCII only.
- The CPython `random` generator: its outputs are inputs, assumed to have the ranges CPython guarantees.
- The CLI in `gitshuffler/cli.py`, and the lock file's OSError on write.
- StateManager.LoadState: a record with a value of the wrong JSON type is treated as unreadable; Python would build an `ExecutionState` holding it.
- StateManager.LoadState: the exceptions `load_state` does not catch are not modelled. An OSError from `open` (for example when the state path is a directory) and a UnicodeDecodeError for bytes that are not UTF-8 propagate in Python. The file input has no value for them, so the model never raises there.
- ConfigParser.Parse: assumes each present key has the JSON type the parser expects. For example, a JSON null weight, which Python adds and fails on with a TypeError, is not modelled.
- Engine.Apply: the AttributeErrors and TypeError of the shipped code are not modelled; it follows the intended flow described above.
- Engine.Apply: the effects list holds only what succeeds. It omits a failing `git init`, `git add` or `git commit`, and the add batches already staged before a later batch fails. The read-only queries (`git --version`, `status --porcelain`, `symbolic-ref`, `rev-parse`) are not listed either.
- Engine.InterruptedApplyResumes: a failed add or commit leaves files staged in Python, so the next real run's `git status` reports a dirty tree and raises before the lock. The model does not carry that staged index into the next run: the status output is a free input of each run, so the rerun promise holds only for reruns that pass the pre-lock checks.
- Engine.Loop: the printed progress lines and the dry-run echo of `git add` are not modelled.

=== FILE: analyzer.dfy ===
/** `RepoAnalyzer.analyze`: refuses a schedule denser than a person could commit.

    The duration (in seconds) and `commits_per_day_max` are parameters; the
    configuration record has no duration field (see the README). Python's
    `/` is true division and `int()` truncates toward zero; both are written
    out over exact reals, so float rounding is not modelled. */
module RepoAnalyzer {
  import opened Common

  const MaxCommitsPerMinute: int := 2
  /** Above this many files a duration under `ShortRun` seconds draws a warning. */
  const LargeFileCount: int := 10000
  const ShortRun: int := 600

  /** `int(x)`: truncation toward zero. */
  function Trunc(x: real): (n: int)
    ensures x >= 0.0 ==> n as real <= x < n as real + 1.0
    ensures x < 0.0 ==> n as real - 1.0 < x <= n as real
  {
    if x >= 0.0 then x.Floor else -((-x).Floor)
  }

  /** The commit count `analyze` assumes: the per-day maximum for runs under a
      day, else `int(duration / 86400 * max)`. */
  function ExpectedCommits(duration: int, maxPerDay: int): int
  {
    if duration < SecondsPerDay then maxPerDay
    else
      var days := duration as real / SecondsPerDay as real;
      Trunc(days * maxPerDay as real)
  }

  /** `commits_per_minute = expected / (duration / 60)`. */
  function CommitsPerMinute(expected: int, duration: int): real
    requires duration > 0
  {
    expected as real / (duration as real / 60.0)
  }

  /** `analyze(files, config)`: a ValueError for a too aggressive schedule, and
      otherwise whether the stress warning is printed. */
  function Analyze(fileCount: nat, duration: int, maxPerDay: int): (r: Result<bool, PyError>)
    ensures fileCount == 0 ==> r == Ok(false)
    ensures r.Err? <==>
              fileCount > 0 && duration > 0 && 30 * ExpectedCommits(duration, maxPerDay) > duration
    ensures r.Err? ==> r.error == ValueError
    ensures r.Ok? ==> (r.value <==> fileCount > LargeFileCount && duration < ShortRun)
  {
    if fileCount == 0 then Ok(false)
    else
      var expected := ExpectedCommits(duration, maxPerDay);
      assert duration > 0 ==>
               (CommitsPerMinute(expected, duration) > MaxCommitsPerMinute as real <==> 30 * expected > duration) by {
        if duration > 0 { DensityIsIntegral(expected, duration); }
      }
      if duration > 0 && CommitsPerMinute(expected, duration) > MaxCommitsPerMinute as real then
        Err(ValueError)
      else
        Ok(fileCount > LargeFileCount && duration < ShortRun)
  }

  /** The rate test in integers: `expected / (duration / 60) > 2` exactly when
      `30 * expected > duration`. */
  lemma DensityIsIntegral(expected: int, duration: int)
    requires duration > 0
    ensures CommitsPerMinute(expected, duration) > MaxCommitsPerMinute as real <==> 30 * expected > duration
  {
    var d := duration as real;
    var e := expected as real;
    var rate := CommitsPerMinute(expected, duration);
    assert rate * (d / 60.0) == e;
    assert rate == 60.0 * e / d;
    RealRatio(60.0 * e, d, 2.0);
    assert (30 * expected) as real == 30.0 * e;
  }

  /** For positive d: a / d > c exactly when a > c * d. */
  lemma RealRatio(a: real, d: real, c: real)
    requires d > 0.0
    ensures a / d > c <==> a > c * d
  {
    if a / d > c {
      assert a == (a / d) * d;
      assert (a / d) * d > c * d;
    }
    if a > c * d {
      assert a / d > (c * d) / d;
    }
  }

  /** For at least one day and a non-negative maximum the count is the floor of
      the exact product, `floor(duration * max / 86400)`. */
  lemma ExpectedIsFloor(duration: int, maxPerDay: int)
    requires duration >= SecondsPerDay && maxPerDay >= 0
    ensures ExpectedCommits(duration, maxPerDay) == duration * maxPerDay / SecondsPerDay
  {
    var x := duration as real / SecondsPerDay as real * maxPerDay as real;
    var q := duration * maxPerDay / SecondsPerDay;
    var rem := duration * maxPerDay % SecondsPerDay;
    assert duration * maxPerDay == q * SecondsPerDay + rem;
    assert x == (duration * maxPerDay) as real / SecondsPerDay as real;
    assert x == q as real + rem as real / SecondsPerDay as real;
    assert 0.0 <= rem as real / SecondsPerDay as real < 1.0;
    FloorUnique(x, q);
  }

  lemma FloorUnique(x: real, q: int)
    requires q as real <= x < q as real + 1.0
    ensures x.Floor == q
  {
  }

  /** A run of at least one day with a non-negative maximum expects at least the
      per-day maximum times the number of whole days. */
  lemma ExpectedCoversWholeDays(duration: int, maxPerDay: int)
    requires duration >= SecondsPerDay && maxPerDay >= 0
    ensures ExpectedCommits(duration, maxPerDay) >= (duration / SecondsPerDay) * maxPerDay
  {
    ExpectedIsFloor(duration, maxPerDay);
    var days := duration / SecondsPerDay;
    assert duration >= days * SecondsPerDay;
    MulAtLeastBy(duration, days * SecondsPerDay, maxPerDay);
    assert duration * maxPerDay >= (days * maxPerDay) * SecondsPerDay;
    DivAtLeast(duration * maxPerDay, days * maxPerDay, SecondsPerDay);
  }

  lemma MulAtLeastBy(a: int, b: int, c: int)
    requires a >= b && c >= 0
    ensures a * c >= b * c
  {
  }

  lemma DivAtLeast(a: int, q: int, k: int)
    requires k > 0 && a >= q * k
    ensures a / k >= q
  {
    var d, m := a / k, a % k;
    assert a == d * k + m && m < k;
    assert (q - 1) * k == q * k - k;
    if d < q {
      MulAtLeastBy(q - 1, d, k);
    }
  }

  /** A run of zero or negative length is never refused. */
  lemma NonPositiveDurationPasses(fileCount: nat, duration: int, maxPerDay: int)
    requires duration <= 0
    ensures Analyze(fileCount, duration, maxPerDay).Ok?
  {
  }

  /** Under a day the maximum alone decides: more than `duration / 30` commits
      per day is refused. For example 10 commits need at least 300 seconds. */
  lemma ShortRunThreshold(fileCount: nat, duration: int, maxPerDay: int)
    requires fileCount > 0 && 0 < duration < SecondsPerDay
    ensures Analyze(fileCount, duration, maxPerDay).Err? <==> 30 * maxPerDay > duration
  {
  }
}

=== FILE: chunker.dfy ===
/** `Chunker.chunk_files`: round-robin partition of a file list into
    `min(num_chunks, len(files))` non-empty groups.

    The call to `random.shuffle` is replaced by its result: the caller passes
    `shuffled`, any rearrangement of `files` (same multiset). */
module Chunker {
  import opened Common

  type Path = string

  /** Elements at positions j, j+k, j+2k, ... of `s`, in order. */
  function Stride<T>(s: seq<T>, j: nat, k: nat): seq<T>
    requires k > 0
    decreases |s| - j
  {
    if j >= |s| then [] else [s[j]] + Stride(s, j + k, k)
  }

  /** Reference definition of the round-robin split: group j is the stride from j. */
  function RoundRobin<T>(s: seq<T>, k: nat): (r: seq<seq<T>>)
    requires k > 0
    ensures |r| == k
  {
    seq(k, j requires 0 <= j < k => Stride(s, j, k))
  }

  /** Group j of a round-robin split holds s[j], s[j+k], ... in that order, and
      exactly n/k elements plus one more for the first n%k groups. */
  ghost predicate IsRoundRobinSplit<T>(chunks: seq<seq<T>>, s: seq<T>, k: nat)
    requires k > 0
  {
    && |chunks| == k
    && (forall j :: 0 <= j < k ==> |chunks[j]| == GroupSize(|s|, k, j))
    && (forall j, t :: 0 <= j < k && 0 <= t < |chunks[j]| ==>
          Position(j, t, k) < |s| && chunks[j][t] == s[Position(j, t, k)])
  }

  /** n / k, plus one for the first n % k groups. */
  function GroupSize(n: nat, k: nat, j: nat): nat
    requires k > 0
  {
    n / k + (if j < n % k then 1 else 0)
  }

  /** The position of the t-th element of group j: j + t * k. */
  function Position(j: nat, t: nat, k: nat): nat
  {
    j + t * k
  }

  lemma {:induction false} StrideLength<T>(s: seq<T>, j: nat, k: nat)
    requires k > 0
    ensures |Stride(s, j, k)| == if j >= |s| then 0 else (|s| - j - 1) / k + 1
    decreases |s| - j
  {
    if j < |s| {
      StrideLength(s, j + k, k);
      var a := |s| - j - 1;
      if j + k >= |s| {
        DivModUnique(a, k, 0, a);
      } else {
        DivModUnique(a, k, (a - k) / k + 1, (a - k) % k);
      }
    }
  }

  lemma {:induction false} StrideIndex<T>(s: seq<T>, j: nat, k: nat, t: nat)
    requires k > 0 && t < |Stride(s, j, k)|
    ensures j + t * k < |s| && Stride(s, j, k)[t] == s[j + t * k]
    decreases t
  {
    if t > 0 {
      StrideIndex(s, j + k, k, t - 1);
      assert j + k + (t - 1) * k == j + t * k;
    }
  }

  /** Size of group j when k <= n: the quotient, plus one for the first n%k groups. */
  lemma StrideGroupSize<T>(s: seq<T>, j: nat, k: nat)
    requires 0 < k <= |s| && j < k
    ensures |Stride(s, j, k)| == GroupSize(|s|, k, j)
  {
    StrideLength(s, j, k);
    var n := |s|;
    var q, r := n / k, n % k;
    assert n == q * k + r;
    if j < r {
      DivModUnique(n - j - 1, k, q, r - j - 1);
    } else {
      assert q >= 1 by {
        if q == 0 {
          assert false;
        }
      }
      assert n - j - 1 == (q - 1) * k + (r - j - 1 + k);
      DivModUnique(n - j - 1, k, q - 1, r - j - 1 + k);
    }
  }

  lemma RoundRobinShape<T>(s: seq<T>, k: nat)
    requires 0 < k <= |s|
    ensures IsRoundRobinSplit(RoundRobin(s, k), s, k)
    ensures forall j :: 0 <= j < k ==> |RoundRobin(s, k)[j]| > 0
  {
    var r := RoundRobin(s, k);
    forall j | 0 <= j < k
      ensures |r[j]| == GroupSize(|s|, k, j) && |r[j]| > 0
    {
      StrideGroupSize(s, j, k);
      QuotientPositive(|s|, k);
    }
    forall j, t | 0 <= j < k && 0 <= t < |r[j]|
      ensures Position(j, t, k) < |s| && r[j][t] == s[Position(j, t, k)]
    {
      StrideIndex(s, j, k, t);
    }
  }

  lemma QuotientPositive(n: nat, k: nat)
    requires 0 < k <= n
    ensures forall j :: GroupSize(n, k, j) >= 1
  {
  }

  /** Appending x to s appends it to exactly the stride that reaches position |s|. */
  lemma {:induction false} StrideSnoc<T>(s: seq<T>, x: T, j: nat, k: nat)
    requires k > 0
    ensures Stride(s + [x], j, k)
         == Stride(s, j, k) + (if j <= |s| && (|s| - j) % k == 0 then [x] else [])
    decreases |s| - j
  {
    var s' := s + [x];
    if j < |s| {
      StrideSnoc(s, x, j + k, k);
      assert s'[j] == s[j];
      if j + k <= |s| {
        DivModUnique(|s| - j, k, (|s| - j - k) / k + 1, (|s| - j - k) % k);
      } else {
        DivModUnique(|s| - j, k, 0, |s| - j);
      }
    } else if j == |s| {
      assert Stride(s', j + k, k) == [];
    }
  }

  /** Position n lies on the stride from j < k exactly when j == n % k. */
  lemma StrideReaches(n: nat, j: nat, k: nat)
    requires j < k
    ensures (j <= n && (n - j) % k == 0) <==> j == n % k
  {
    if j <= n && (n - j) % k == 0 {
      DivModUnique(n, k, (n - j) / k, j);
    }
    if j == n % k {
      DivModUnique(n - j, k, n / k, 0);
    }
  }

  /** The round-robin split of s + [x] is that of s with x appended to group |s| % k. */
  lemma RoundRobinSnoc<T>(s: seq<T>, x: T, k: nat)
    requires k > 0
    ensures RoundRobin(s + [x], k)
         == RoundRobin(s, k)[|s| % k := RoundRobin(s, k)[|s| % k] + [x]]
  {
    var a := RoundRobin(s + [x], k);
    var b := RoundRobin(s, k)[|s| % k := RoundRobin(s, k)[|s| % k] + [x]];
    forall j | 0 <= j < k
      ensures a[j] == b[j]
    {
      StrideSnoc(s, x, j, k);
      StrideReaches(|s|, j, k);
    }
  }

  /** Every element lands in exactly one group: the flattened split is a permutation. */
  lemma {:induction false} RoundRobinPermutation<T>(s: seq<T>, k: nat)
    requires k > 0
    ensures multiset(Flatten(RoundRobin(s, k))) == multiset(s)
    decreases |s|
  {
    if |s| == 0 {
      var r := RoundRobin(s, k);
      assert forall j :: 0 <= j < k ==> r[j] == [];
      FlattenEmpties(r);
    } else {
      var p, x := s[..|s| - 1], s[|s| - 1];
      assert s == p + [x];
      RoundRobinPermutation(p, k);
      RoundRobinSnoc(p, x, k);
      FlattenUpdateMultiset(RoundRobin(p, k), |p| % k, x);
    }
  }

  lemma {:induction false} FlattenEmpties<T>(r: seq<seq<T>>)
    requires forall j :: 0 <= j < |r| ==> r[j] == []
    ensures Flatten(r) == []
    decreases |r|
  {
    if |r| > 0 {
      FlattenEmpties(r[1..]);
    }
  }

  /** `chunk_files(files, num_chunks)` with the shuffle supplied as `shuffled`.
      Empty input gives no chunks whatever the count; otherwise a count <= 0 is a
      ValueError; otherwise `min(num_chunks, len(files))` non-empty round-robin
      groups of the shuffled list whose concatenation is a permutation of `files`. */
  function ChunkFiles(files: seq<Path>, numChunks: int, shuffled: seq<Path>)
    : (r: Result<seq<seq<Path>>, PyError>)
    requires multiset(shuffled) == multiset(files)
    ensures |files| == 0 ==> r == Ok([])
    ensures |files| > 0 && numChunks <= 0 ==> r == Err(ValueError)
    ensures |files| > 0 && numChunks > 0 ==>
              && r.Ok?
              && |r.value| == Min(numChunks, |files|)
              && IsRoundRobinSplit(r.value, shuffled, Min(numChunks, |files|))
              && (forall j :: 0 <= j < |r.value| ==> |r.value[j]| > 0)
    ensures r.Ok? ==> multiset(Flatten(r.value)) == multiset(files)
  {
    if |files| == 0 then Ok([])
    else if numChunks <= 0 then Err(ValueError)
    else
      var k := Min(numChunks, |shuffled|);
      assert |shuffled| == |files| by {
        assert |multiset(shuffled)| == |multiset(files)|;
      }
      RoundRobinShape(shuffled, k);
      RoundRobinPermutation(shuffled, k);
      Ok(RoundRobin(shuffled, k))
  }

  /** The loop of `chunk_files` (one pass appending element i to group i % k)
      computes the round-robin split. */
  method DistributeRoundRobin(shuffled: seq<Path>, k: nat) returns (chunks: seq<seq<Path>>)
    requires k > 0
    ensures chunks == RoundRobin(shuffled, k)
    ensures multiset(Flatten(chunks)) == multiset(shuffled)
  {
    chunks := seq(k, _ => []);
    assert chunks == RoundRobin(shuffled[..0], k);
    var i := 0;
    while i < |shuffled|
      invariant 0 <= i <= |shuffled|
      invariant chunks == RoundRobin(shuffled[..i], k)
    {
      var c := i % k;
      assert shuffled[..i + 1] == shuffled[..i] + [shuffled[i]];
      RoundRobinSnoc(shuffled[..i], shuffled[i], k);
      chunks := chunks[c := chunks[c] + [shuffled[i]]];
      i := i + 1;
    }
    assert shuffled[..i] == shuffled;
    RoundRobinPermutation(shuffled, k);
  }
}

=== FILE: common.dfy ===
/** Shared datatypes and sequence helpers used by every module of the model. */
module Common {

  /** Python's `None` / a present value. */
  datatype Option<+T> = None | Some(value: T)

  /** A return value or a raised exception. */
  datatype Result<+T, +E> = Ok(value: T) | Err(error: E)

  /** The Python exception classes the modelled code raises. */
  datatype PyError = ValueError | RuntimeError | IndexError

  /** Seconds in a day, as `parse_duration` and the analyzer both use it. */
  const SecondsPerDay: nat := 86400

  function Min(a: int, b: int): int { if a <= b then a else b }

  function Max(a: int, b: int): int { if a >= b then a else b }

  /** Concatenation of a list of lists, front to back. */
  function Flatten<T>(xss: seq<seq<T>>): seq<T>
  {
    if |xss| == 0 then [] else xss[0] + Flatten(xss[1..])
  }

  lemma {:induction false} FlattenConcat<T>(a: seq<seq<T>>, b: seq<seq<T>>)
    ensures Flatten(a + b) == Flatten(a) + Flatten(b)
    decreases |a|
  {
    if |a| == 0 {
      assert a + b == b;
    } else {
      assert (a + b)[1..] == a[1..] + b;
      FlattenConcat(a[1..], b);
    }
  }

  lemma FlattenSnoc<T>(a: seq<seq<T>>, x: seq<T>)
    ensures Flatten(a + [x]) == Flatten(a) + x
  {
    FlattenConcat(a, [x]);
    assert Flatten([x]) == x + Flatten([x][1..]);
  }

  /** Appending one element to group j adds exactly that element to the flattened multiset. */
  lemma {:induction false} FlattenUpdateMultiset<T>(cs: seq<seq<T>>, j: nat, x: T)
    requires j < |cs|
    ensures multiset(Flatten(cs[j := cs[j] + [x]])) == multiset(Flatten(cs)) + multiset{x}
    decreases |cs|
  {
    var cs' := cs[j := cs[j] + [x]];
    if j == 0 {
      assert cs'[1..] == cs[1..];
    } else {
      assert cs'[1..] == cs[1..][j - 1 := cs[1..][j - 1] + [x]];
      FlattenUpdateMultiset(cs[1..], j - 1, x);
    }
  }

  lemma MulAtLeast(d: int, k: int)
    requires d >= 1 && k > 0
    ensures d * k >= k
  {
  }

  /** Euclidean division is determined by any quotient/remainder pair. */
  lemma DivModUnique(a: int, k: int, q: int, r: int)
    requires k > 0 && 0 <= r < k && a == q * k + r
    ensures a / k == q && a % k == r
  {
    var q', r' := a / k, a % k;
    var d := q - q';
    assert d * k == r' - r by {
      assert a == q' * k + r';
      assert q * k - q' * k == (q - q') * k;
    }
    if d >= 1 {
      MulAtLeast(d, k);
    } else if d <= -1 {
      MulAtLeast(-d, k);
    }
  }
}

=== FILE: config.dfy ===
/** `ConfigParser.parse` after `json.load`: validation of the decoded
    configuration object into a `ConfigDTO`.

    The decoded object is given as `RawConfig`, one optional field per key the
    parser reads (`None` is an absent key). Field values are assumed to have the
    JSON types the parser expects; weights are exact reals. */
module ConfigParser {
  import opened Common

  datatype AuthorDTO = AuthorDTO(name: string, email: string, weight: real)

  datatype ConfigDTO = ConfigDTO(
    repoPath: string,
    authorName: string,
    authorEmail: string,
    daysActive: int,
    commitsPerDayMin: int,
    commitsPerDayMax: int,
    startDate: string,
    filePatterns: seq<string>,
    authors: seq<AuthorDTO>)

  /** One object of the "authors" list. */
  datatype RawAuthor = RawAuthor(name: Option<string>, email: Option<string>, weight: Option<real>)

  /** The "default_author" object. */
  datatype RawPerson = RawPerson(name: Option<string>, email: Option<string>)

  /** The decoded top-level object. For "author_name"/"author_email", `None` also
      stands for a JSON null (both read through `dict.get`). */
  datatype RawConfig = RawConfig(
    repoPath: Option<string>,
    daysActive: Option<int>,
    commitsPerDayMin: Option<int>,
    commitsPerDayMax: Option<int>,
    startDate: Option<string>,
    filePatterns: Option<seq<string>>,
    authorName: Option<string>,
    authorEmail: Option<string>,
    authors: Option<seq<RawAuthor>>,
    defaultAuthor: Option<RawPerson>)

  /** The ValueErrors `parse` raises, one per message. */
  datatype ConfigError =
    | MissingField(field: string)
    | AuthorWithoutNameOrEmail
    | WeightSumOutOfRange
    | NoAuthorSource
    | DaysActiveTooSmall
    | NegativeMinimum
    | MaximumBelowMinimum

  const RequiredFields: seq<string> :=
    ["repo_path", "days_active", "commits_per_day_min", "commits_per_day_max", "start_date", "file_patterns"]

  /** `field in data` for the keys the parser requires. */
  predicate Has(raw: RawConfig, field: string)
  {
    if field == "repo_path" then raw.repoPath.Some?
    else if field == "days_active" then raw.daysActive.Some?
    else if field == "commits_per_day_min" then raw.commitsPerDayMin.Some?
    else if field == "commits_per_day_max" then raw.commitsPerDayMax.Some?
    else if field == "start_date" then raw.startDate.Some?
    else if field == "file_patterns" then raw.filePatterns.Some?
    else false
  }

  predicate HasRequired(raw: RawConfig)
  {
    && raw.repoPath.Some? && raw.daysActive.Some? && raw.commitsPerDayMin.Some?
    && raw.commitsPerDayMax.Some? && raw.startDate.Some? && raw.filePatterns.Some?
  }

  /** The first field of `fields` missing from `raw`, scanning in order. */
  function FirstMissing(raw: RawConfig, fields: seq<string>): (r: Option<string>)
    ensures r.Some? ==> r.value in fields && !Has(raw, r.value)
    ensures r.Some? ==> exists i :: 0 <= i < |fields| && fields[i] == r.value
                                    && forall j :: 0 <= j < i ==> Has(raw, fields[j])
    ensures r.None? <==> forall i :: 0 <= i < |fields| ==> Has(raw, fields[i])
  {
    if |fields| == 0 then None
    else if !Has(raw, fields[0]) then Some(fields[0])
    else
      var rest := FirstMissing(raw, fields[1..]);
      if rest.Some? then
        ghost var i :| 0 <= i < |fields[1..]| && fields[1..][i] == rest.value
                       && forall j :: 0 <= j < i ==> Has(raw, fields[1..][j]);
        assert fields[i + 1] == rest.value;
        rest
      else rest
  }

  /** Python truthiness of an optional string: present and non-empty. */
  predicate Truthy(s: Option<string>) { s.Some? && s.value != "" }

  /** `"authors" in data and data["authors"]`. */
  predicate UsesAuthorList(raw: RawConfig)
  {
    raw.authors.Some? && |raw.authors.value| > 0
  }

  /** Exact sum of the weights, absent weights counting 0.0 (`a.get("weight", 0.0)`). */
  function WeightSum(list: seq<RawAuthor>): real
  {
    if |list| == 0 then 0.0
    else (if list[0].weight.Some? then list[0].weight.value else 0.0) + WeightSum(list[1..])
  }

  function ToAuthor(a: RawAuthor): AuthorDTO
    requires a.name.Some? && a.email.Some?
  {
    AuthorDTO(a.name.value, a.email.value, if a.weight.Some? then a.weight.value else 0.0)
  }

  predicate Named(a: RawAuthor) { a.name.Some? && a.email.Some? }

  /** The author-name/email pair after the single-author fallback: the top-level
      values, replaced as a PAIR by "default_author" when either is falsy. */
  function ResolvedDefault(raw: RawConfig): (Option<string>, Option<string>)
  {
    if (!Truthy(raw.authorName) || !Truthy(raw.authorEmail)) && raw.defaultAuthor.Some? then
      (raw.defaultAuthor.value.name, raw.defaultAuthor.value.email)
    else (raw.authorName, raw.authorEmail)
  }

  /** The author list `parse` builds, or the error it raises while building it. */
  function ParseAuthors(raw: RawConfig): (r: Result<seq<AuthorDTO>, ConfigError>)
    ensures r.Ok? ==> |r.value| >= 1
    ensures UsesAuthorList(raw) && r.Ok? ==>
              |r.value| == |raw.authors.value|
              && forall i :: 0 <= i < |r.value| ==>
                   Named(raw.authors.value[i]) && r.value[i] == ToAuthor(raw.authors.value[i])
  {
    if UsesAuthorList(raw) then
      var list := raw.authors.value;
      if exists i :: 0 <= i < |list| && !Named(list[i]) then Err(AuthorWithoutNameOrEmail)
      else if !(0.99 <= WeightSum(list) <= 1.01) then Err(WeightSumOutOfRange)
      else Ok(seq(|list|, i requires 0 <= i < |list| => ToAuthor(list[i])))
    else
      var (name, email) := ResolvedDefault(raw);
      if !Truthy(name) || !Truthy(email) then Err(NoAuthorSource)
      else Ok([AuthorDTO(name.value, email.value, 1.0)])
  }

  /** `ConfigParser.parse` on a decoded object. */
  function Parse(raw: RawConfig): (r: Result<ConfigDTO, ConfigError>)
    ensures !HasRequired(raw) ==> r.Err? && r.error.MissingField?
    ensures r.Ok? ==> HasRequired(raw)
    ensures r.Ok? ==> |r.value.authors| >= 1
    ensures r.Ok? ==> r.value.daysActive >= 1 && 0 <= r.value.commitsPerDayMin <= r.value.commitsPerDayMax
  {
    var missing := FirstMissing(raw, RequiredFields);
    if missing.Some? then
      Err(MissingField(missing.value))
    else
      assert forall i :: 0 <= i < |RequiredFields| ==> Has(raw, RequiredFields[i]);
      assert Has(raw, RequiredFields[0]) && Has(raw, RequiredFields[1]) && Has(raw, RequiredFields[2]);
      assert Has(raw, RequiredFields[3]) && Has(raw, RequiredFields[4]) && Has(raw, RequiredFields[5]);
      match ParseAuthors(raw)
      case Err(e) => Err(e)
      case Ok(authors) =>
        if raw.daysActive.value < 1 then Err(DaysActiveTooSmall)
        else if raw.commitsPerDayMin.value < 0 then Err(NegativeMinimum)
        else if raw.commitsPerDayMax.value < raw.commitsPerDayMin.value then Err(MaximumBelowMinimum)
        else
          var name := if UsesAuthorList(raw) then raw.authorName else ResolvedDefault(raw).0;
          var email := if UsesAuthorList(raw) then raw.authorEmail else ResolvedDefault(raw).1;
          Ok(ConfigDTO(
            raw.repoPath.value,
            if Truthy(name) then name.value else authors[0].name,
            if Truthy(email) then email.value else authors[0].email,
            raw.daysActive.value,
            raw.commitsPerDayMin.value,
            raw.commitsPerDayMax.value,
            raw.startDate.value,
            raw.filePatterns.value,
            authors))
  }

  /** Declarative statement of which decoded objects `parse` accepts. */
  ghost predicate Acceptable(raw: RawConfig)
  {
    && HasRequired(raw)
    && (if UsesAuthorList(raw) then
          && (forall i :: 0 <= i < |raw.authors.value| ==> Named(raw.authors.value[i]))
          && 0.99 <= WeightSum(raw.authors.value) <= 1.01
        else
          || (Truthy(raw.authorName) && Truthy(raw.authorEmail))
          || (raw.defaultAuthor.Some? && Truthy(raw.defaultAuthor.value.name)
                                      && Truthy(raw.defaultAuthor.value.email)))
    && raw.daysActive.value >= 1
    && raw.commitsPerDayMin.value >= 0
    && raw.commitsPerDayMax.value >= raw.commitsPerDayMin.value
  }

  /** `parse` succeeds exactly on the acceptable objects. */
  lemma ParseAcceptsExactly(raw: RawConfig)
    ensures Parse(raw).Ok? <==> Acceptable(raw)
  {
  }

  /** A missing required key is reported before anything about authors, and the
      key reported is the first missing one in the order of `required_fields`. */
  lemma MissingFieldFirst(raw: RawConfig, k: nat)
    requires k < |RequiredFields| && !Has(raw, RequiredFields[k])
    requires forall j :: 0 <= j < k ==> Has(raw, RequiredFields[j])
    ensures Parse(raw) == Err(MissingField(RequiredFields[k]))
  {
    var m := FirstMissing(raw, RequiredFields);
    var i :| 0 <= i < |RequiredFields| && RequiredFields[i] == m.value
             && forall j :: 0 <= j < i ==> Has(raw, RequiredFields[j]);
    assert i == k;
  }

  /** With a non-empty "authors" list the result keeps the list's order and
      entries, absent weights read as 0.0, and the weights sum to 1.0 within 0.01. */
  lemma AuthorListKept(raw: RawConfig)
    requires UsesAuthorList(raw) && Parse(raw).Ok?
    ensures |Parse(raw).value.authors| == |raw.authors.value|
    ensures forall i :: 0 <= i < |raw.authors.value| ==>
              var a := raw.authors.value[i];
              && a.name.Some? && a.email.Some?
              && Parse(raw).value.authors[i]
                 == AuthorDTO(a.name.value, a.email.value, if a.weight.Some? then a.weight.value else 0.0)
    ensures 0.99 <= WeightSum(raw.authors.value) <= 1.01
  {
  }

  /** An author without "name" or "email" is an error once the required keys are present. */
  lemma UnnamedAuthorRejected(raw: RawConfig, i: nat)
    requires HasRequired(raw) && UsesAuthorList(raw)
    requires i < |raw.authors.value| && !Named(raw.authors.value[i])
    ensures Parse(raw) == Err(AuthorWithoutNameOrEmail)
  {
  }

  /** A weight sum outside [0.99, 1.01] is an error once every author is named. */
  lemma WeightSumRejected(raw: RawConfig)
    requires HasRequired(raw) && UsesAuthorList(raw)
    requires forall i :: 0 <= i < |raw.authors.value| ==> Named(raw.authors.value[i])
    requires !(0.99 <= WeightSum(raw.authors.value) <= 1.01)
    ensures Parse(raw) == Err(WeightSumOutOfRange)
  {
  }

  /** Without an author list the result has one author of weight 1.0: the
      top-level pair when both are non-empty, otherwise the "default_author" pair. */
  lemma SingleAuthorFallback(raw: RawConfig)
    requires !UsesAuthorList(raw) && Parse(raw).Ok?
    ensures var c := Parse(raw).value;
            && |c.authors| == 1 && c.authors[0].weight == 1.0
            && c.authors[0].name != "" && c.authors[0].email != ""
            && c.authorName == c.authors[0].name && c.authorEmail == c.authors[0].email
            && (Truthy(raw.authorName) && Truthy(raw.authorEmail) ==>
                  c.authors[0].name == raw.authorName.value && c.authors[0].email == raw.authorEmail.value)
            && (!(Truthy(raw.authorName) && Truthy(raw.authorEmail)) ==>
                  && raw.defaultAuthor.Some?
                  && Some(c.authors[0].name) == raw.defaultAuthor.value.name
                  && Some(c.authors[0].email) == raw.defaultAuthor.value.email)
  {
  }

  /** No author list and no usable name/email pair anywhere is an error. */
  lemma NoAuthorRejected(raw: RawConfig)
    requires HasRequired(raw) && !UsesAuthorList(raw)
    requires !(Truthy(raw.authorName) && Truthy(raw.authorEmail))
    requires !(raw.defaultAuthor.Some? && Truthy(raw.defaultAuthor.value.name)
                                       && Truthy(raw.defaultAuthor.value.email))
    ensures Parse(raw) == Err(NoAuthorSource)
  {
  }

  /** The numeric range checks, in the order they are made, after the author checks. */
  lemma RangeChecks(raw: RawConfig)
    requires HasRequired(raw) && ParseAuthors(raw).Ok?
    ensures raw.daysActive.value < 1 ==> Parse(raw) == Err(DaysActiveTooSmall)
    ensures raw.daysActive.value >= 1 && raw.commitsPerDayMin.value < 0 ==>
              Parse(raw) == Err(NegativeMinimum)
    ensures raw.daysActive.value >= 1 && raw.commitsPerDayMin.value >= 0
            && raw.commitsPerDayMax.value < raw.commitsPerDayMin.value ==>
              Parse(raw) == Err(MaximumBelowMinimum)
  {
  }

  /** With an author list, the top-level "author_name"/"author_email" are kept when
      non-empty and otherwise taken from the first author. */
  lemma ResultIdentityWithList(raw: RawConfig)
    requires UsesAuthorList(raw) && Parse(raw).Ok?
    ensures var c := Parse(raw).value;
            && c.authorName == (if Truthy(raw.authorName) then raw.authorName.value else c.authors[0].name)
            && c.authorEmail == (if Truthy(raw.authorEmail) then raw.authorEmail.value else c.authors[0].email)
  {
  }
}

=== FILE: engine.dfy ===
/** `Engine`: the path checks run after scanning, the choice between resuming a
    saved manifest and planning afresh, and the `apply` coordinator.

    `apply` is a state machine over an abstract `World`: whether git is
    installed, the `.git` probe, the outputs of the git queries, the lock file,
    the state file, and per-action outcome oracles for `git add` and
    `git commit`. Its result is the exit taken, the writes and the successful
    `git init`, add and commit commands in the order they happen, the warnings,
    and the lock and state files afterwards. Failed git commands and read-only
    queries are not effects.

    `apply` follows the intended flow where the shipped code cannot run:
    `check_gpg_sign` and `get_head_hash` are not defined on `GitWrapper` (an
    AttributeError there), so the gpg setting and both HEAD values are oracles;
    `ExecutionState` has no `last_commit_hash` (an AttributeError when the
    integrity check reads it), so the recorded HEAD is an oracle too; and the
    checkpoint passes three arguments to the two-parameter `update_progress`
    (a TypeError), so it is modelled as `update_progress(i, i == len - 1)`. */
module Engine {
  import opened Common
  import opened Text
  import opened Planner
  import opened StateManager
  import opened ConfigParser
  import GitWrapper
  import RepoAnalyzer

  // ---------------------------------------------------------------------------
  // _validate_paths

  const MaxPathLength: nat := 250

  /** The paths flagged as longer than 250 characters, in input order. */
  function LongPaths(files: seq<string>): (r: seq<string>)
    ensures forall p :: p in r <==> p in files && |p| > MaxPathLength
    ensures |r| <= |files|
  {
    if |files| == 0 then []
    else
      var init, last := files[..|files| - 1], files[|files| - 1];
      assert files == init + [last];
      LongPaths(init) + Flagged(last)
  }

  /** The one-path case: [p] when p is too long, else nothing. */
  function Flagged(p: string): seq<string>
  {
    if |p| > MaxPathLength then [p] else []
  }

  /** Flagging keeps input order: the long paths of a concatenation are those of
      its first part followed by those of its second. */
  lemma {:induction false} LongPathsConcat(a: seq<string>, b: seq<string>)
    ensures LongPaths(a + b) == LongPaths(a) + LongPaths(b)
    decreases |b|
  {
    if |b| == 0 {
      assert a + b == a;
    } else {
      var init, last := b[..|b| - 1], b[|b| - 1];
      assert b == init + [last];
      assert a + b == (a + init) + [last];
      var x, y, z := LongPaths(a), LongPaths(init), Flagged(last);
      calc {
        LongPaths(a + b);
        LongPaths((a + init) + [last]);
        { LongPathsSnoc(a + init, last); }
        LongPaths(a + init) + z;
        { LongPathsConcat(a, init); }
        (x + y) + z;
        x + (y + z);
        { LongPathsSnoc(init, last); }
        x + LongPaths(b);
      }
    }
  }

  /** Flagging keeps duplicates: a long path is reported as many times as it
      occurs, and `len(long_paths)` counts every occurrence. */
  lemma {:induction false} LongPathsCount(files: seq<string>)
    ensures forall p :: multiset(LongPaths(files))[p] == if |p| > MaxPathLength then multiset(files)[p] else 0
    decreases |files|
  {
    if |files| > 0 {
      var init, last := files[..|files| - 1], files[|files| - 1];
      assert files == init + [last];
      LongPathsSnoc(init, last);
      LongPathsCount(init);
      assert multiset(files) == multiset(init) + multiset{last};
      assert multiset(LongPaths(files)) == multiset(LongPaths(init)) + multiset(Flagged(last));
    }
  }

  lemma LongPathsSnoc(s: seq<string>, p: string)
    ensures LongPaths(s + [p]) == LongPaths(s) + Flagged(p)
  {
    var t := s + [p];
    assert t[..|t| - 1] == s && t[|t| - 1] == p;
  }

  /** Some path before position j has the same lower-case form as files[j]. */
  predicate TwinBefore(files: seq<string>, j: nat)
    requires j < |files|
  {
    exists k :: 0 <= k < j && Lower(files[k]) == Lower(files[j])
  }

  /** The first position at or after `from` whose path lowers to `key`. */
  function FirstWithLower(files: seq<string>, key: string, from: nat): (i: nat)
    requires exists k :: from <= k < |files| && Lower(files[k]) == key
    ensures from <= i < |files| && Lower(files[i]) == key
    ensures forall k :: from <= k < i ==> Lower(files[k]) != key
    decreases |files| - from
  {
    if Lower(files[from]) == key then from else FirstWithLower(files, key, from + 1)
  }

  /** The collisions among the first j paths: for each path whose lower-case form
      was seen before, the pair (first path seen with that form, this path). */
  function CollisionsUpTo(files: seq<string>, j: nat): seq<(string, string)>
    requires j <= |files|
  {
    if j == 0 then []
    else
      CollisionsUpTo(files, j - 1)
      + (if TwinBefore(files, j - 1)
         then [(files[FirstWithLower(files, Lower(files[j - 1]), 0)], files[j - 1])]
         else [])
  }

  function Collisions(files: seq<string>): seq<(string, string)>
  {
    CollisionsUpTo(files, |files|)
  }

  /** The case-collision loop of `_validate_paths`, with its `seen` map. */
  method DetectCollisions(files: seq<string>) returns (collisions: seq<(string, string)>)
    ensures collisions == Collisions(files)
  {
    var seen: map<string, string> := map[];
    collisions := [];
    var j := 0;
    while j < |files|
      invariant 0 <= j <= |files|
      invariant SeenFirsts(files, j, seen)
      invariant collisions == CollisionsUpTo(files, j)
    {
      var lower := Lower(files[j]);
      SeenStep(files, j, seen);
      if lower in seen {
        collisions := collisions + [(seen[lower], files[j])];
      } else {
        seen := seen[lower := files[j]];
      }
      j := j + 1;
    }
  }

  /** `seen` maps the lower-case form of each of the first j paths to the first
      path with that form. */
  ghost predicate SeenFirsts(files: seq<string>, j: nat, seen: map<string, string>)
    requires j <= |files|
  {
    && (forall key :: key in seen <==> exists k :: 0 <= k < j && Lower(files[k]) == key)
    && (forall key :: key in seen ==> seen[key] == files[FirstWithLower(files, key, 0)])
  }

  /** One turn of the collision loop keeps `SeenFirsts` and extends the
      collisions by the pair for path j, if any. */
  lemma SeenStep(files: seq<string>, j: nat, seen: map<string, string>)
    requires j < |files| && SeenFirsts(files, j, seen)
    ensures var lower := Lower(files[j]);
            && (lower in seen ==>
                  && SeenFirsts(files, j + 1, seen)
                  && CollisionsUpTo(files, j + 1) == CollisionsUpTo(files, j) + [(seen[lower], files[j])])
            && (lower !in seen ==>
                  && SeenFirsts(files, j + 1, seen[lower := files[j]])
                  && CollisionsUpTo(files, j + 1) == CollisionsUpTo(files, j))
  {
    var lower := Lower(files[j]);
    if lower in seen {
      assert TwinBefore(files, j);
    } else {
      assert !TwinBefore(files, j);
      assert FirstWithLower(files, lower, 0) == j;
    }
  }

  /** Each reported pair is two paths equal up to case, the first one earlier. */
  lemma {:induction false} CollisionsSound(files: seq<string>, j: nat)
    requires j <= |files|
    ensures forall c :: c in CollisionsUpTo(files, j) ==>
              Lower(c.0) == Lower(c.1)
              && exists a, b :: 0 <= a < b < j && files[a] == c.0 && files[b] == c.1
  {
    if j > 0 {
      CollisionsSound(files, j - 1);
      if TwinBefore(files, j - 1) {
        var a := FirstWithLower(files, Lower(files[j - 1]), 0);
        assert a < j - 1;
      }
    }
  }

  /** No collision is reported exactly when the paths are distinct up to case. */
  lemma {:induction false} NoCollisionsIffDistinct(files: seq<string>, j: nat)
    requires j <= |files|
    ensures CollisionsUpTo(files, j) == [] <==>
              forall a, b :: 0 <= a < b < j ==> Lower(files[a]) != Lower(files[b])
  {
    if j > 0 {
      NoCollisionsIffDistinct(files, j - 1);
      if TwinBefore(files, j - 1) {
        assert |CollisionsUpTo(files, j)| > 0;
      }
    }
  }

  // ---------------------------------------------------------------------------
  // plan: resume or plan afresh

  /** `Engine.plan` after the config is loaded: the saved manifest when the state
      file holds an incomplete record with non-empty manifest data; otherwise the
      analyzer's verdict on the scanned files, then a fresh plan. The run's
      duration, `total_commits` and `mode` are parameters (they are not fields of
      `ConfigDTO`). */
  function PlanOrResume(f: StateFile, cfg: ConfigDTO, files: seq<string>, duration: int,
                        totalCommits: Option<int>, mode: string, d: Draws)
    : (r: Result<seq<CommitAction>, PyError>)
    requires ValidDraws(files, d)
    ensures Resumes(f) ==> r.Ok? && Serialize(r.value) == LoadState(f).value.manifestData && |r.value| > 0
    ensures !Resumes(f) && RepoAnalyzer.Analyze(|files|, duration, cfg.commitsPerDayMax).Err? ==>
              r == Err(ValueError)
    ensures !Resumes(f) && RepoAnalyzer.Analyze(|files|, duration, cfg.commitsPerDayMax).Ok? ==>
              r == Plan(files, Schedule(duration as real, totalCommits, mode, cfg.authors), d)
  {
    if Resumes(f) then Ok(GetSavedManifest(f).value)
    else
      match RepoAnalyzer.Analyze(|files|, duration, cfg.commitsPerDayMax)
      case Err(e) => Err(e)
      case Ok(_) => Plan(files, Schedule(duration as real, totalCommits, mode, cfg.authors), d)
  }

  /** `if saved_manifest and state and not state.is_complete`. */
  predicate Resumes(f: StateFile)
  {
    GetSavedManifest(f).Some? && LoadState(f).Some? && !LoadState(f).value.isComplete
  }

  /** After an interruption the next `plan` hands back the very manifest being
      applied, without scanning, and resuming it raises nothing. */
  lemma InterruptedPlanResumes(f: StateFile, m: seq<CommitAction>, digest: seq<SerializedAction> -> string,
                               cfg: ConfigDTO, files: seq<string>, duration: int,
                               totalCommits: Option<int>, mode: string, d: Draws)
    requires LedgerFor(f, m, digest) && |m| > 0 && !LoadState(f).value.isComplete
    requires ValidDraws(files, d)
    ensures PlanOrResume(f, cfg, files, duration, totalCommits, mode, d) == Ok(m)
    ensures InitializeOrResume(f, m, digest).start.Ok?
  {
    SavedManifestReproducesHash(f, m, digest);
  }

  /** A complete record, or one without manifest data, never resumes. */
  lemma CompleteRecordPlansAfresh(f: StateFile)
    requires LoadState(f).Some? && (LoadState(f).value.isComplete || |LoadState(f).value.manifestData| == 0)
    ensures !Resumes(f)
  {
  }

  // ---------------------------------------------------------------------------
  // apply: the world and the run

  /** The lock file: absent, holding no integer, or holding a PID whose process
      is or is not alive (the answer of `os.kill(pid, 0)`). */
  datatype LockFile = NoLock | Unparsable | Held(pid: int, alive: bool)

  /** What the run after the lock decision depends on: the state file, this
      process's PID, the HEAD recorded at the last checkpoint and the current
      one, and whether git accepts the add and the commit of loop index i. */
  datatype Session = Session(
    ledger: StateFile,
    ownPid: int,
    recordedHead: Option<string>,
    currentHead: Option<string>,
    addOk: int -> bool,
    commitOk: int -> bool)

  /** Everything `apply` observes. `None` for a git query is a non-zero exit. */
  datatype World = World(
    gitInstalled: bool,
    gpgSign: bool,
    repoExists: bool,
    initOk: bool,
    status: Option<string>,
    symbolicRef: Option<string>,
    revParse: Option<string>,
    lock: LockFile,
    session: Session)

  /** How `apply` ends. */
  datatype Exit =
    | NothingToApply
    | AlreadyRunning
    | ResumeRefused
    | Diverged
    | AlreadyApplied
    | Done
    | Raised(error: PyError)

  /** What `apply` does to the outside, in order: writes, and the git commands
      that succeed. */
  datatype Effect =
    | GitInit
    | LockWritten(pid: int)
    | LedgerWritten(file: StateFile)
    | Staged(index: int, files: seq<string>)
    | Committed(index: int, command: GitWrapper.GitCommand)
    | Checkpointed(index: int, complete: bool)
    | LockRemoved

  /** The warnings `apply` prints, in the order they appear. */
  datatype Notice = GpgSigning | DetachedHead | StaleLock(pid: int) | CorruptLock | CorruptState

  /** The gpg warning, printed once git is known to be installed. */
  function GpgNotes(w: World): seq<Notice>
  {
    if w.gpgSign then [GpgSigning] else []
  }

  /** A state file that exists but does not load: `load_state` warns and ignores it. */
  predicate Corrupt(f: StateFile)
  {
    !f.Missing? && LoadState(f).None?
  }

  /** The warning `initialize_or_resume` prints through `load_state`. */
  function StateNotes(f: StateFile): seq<Notice>
  {
    if Corrupt(f) then [CorruptState] else []
  }

  /** The exit, the effects in order, and the state and lock files afterwards. */
  datatype Run = Run(exit: Exit, effects: seq<Effect>, ledger: StateFile, lock: LockFile)

  /** A run with the warnings it printed. */
  datatype Outcome = Outcome(run: Run, notices: seq<Notice>)

  /** `git status --porcelain` reports a clean tree (see `GitWrapper.IsClean`). */
  predicate CleanStatus(stdout: string)
  {
    Strip(stdout) == "" || GitWrapper.AllUntracked(SplitLines(Strip(stdout)))
  }

  /** The checks before the lock: git installed, the gpg warning, then `git init`
      for a missing repository in a real run, or the clean-tree check (which
      raises) and the detached-HEAD warning for an existing one in a real run.
      A dry run skips both. Ok carries the effects so far and the warnings. */
  function Preflight(w: World, dryRun: bool): (r: Result<(seq<Effect>, seq<Notice>), PyError>)
    ensures r.Err? ==> r.error == RuntimeError
    ensures r.Ok? ==> r.value.0 == (if !w.repoExists && !dryRun then [GitInit] else [])
    ensures r.Ok? ==> (GpgSigning in r.value.1 <==> w.gpgSign) && CorruptState !in r.value.1
    ensures r.Err? <==> !w.gitInstalled
                        || (!w.repoExists && !dryRun && !w.initOk)
                        || (w.repoExists && !dryRun && (w.status.None? || !CleanStatus(w.status.value)))
  {
    if !w.gitInstalled then Err(RuntimeError)
    else
      var gpg := GpgNotes(w);
      if !w.repoExists then
        if dryRun then Ok(([], gpg))
        else if w.initOk then Ok(([GitInit], gpg))
        else Err(RuntimeError)
      else if dryRun then Ok(([], gpg))
      else
        match w.status
        case None => Err(RuntimeError)
        case Some(out) =>
          if !CleanStatus(out) then Err(RuntimeError)
          else if GitWrapper.IsDetached(w.symbolicRef, w.revParse) then Ok(([], gpg + [DetachedHead]))
          else Ok(([], gpg))
  }

  /** The lock decision: a live holder aborts; a stale or corrupt lock is
      overwritten with a warning. */
  function LockNotice(lock: LockFile): (r: Option<seq<Notice>>)
    ensures r.None? <==> lock.Held? && lock.alive
    ensures r.Some? ==> GpgSigning !in r.value && CorruptState !in r.value
  {
    match lock
    case NoLock => Some([])
    case Unparsable => Some([CorruptLock])
    case Held(pid, alive) => if alive then None else Some([StaleLock(pid)])
  }

  /** `if saved_state and saved_state.last_commit_hash`, then `if current_head
      and current_head != ...`: history moved since the last checkpoint. */
  predicate Drift(recorded: Option<string>, current: Option<string>)
  {
    recorded.Some? && recorded.value != "" && current.Some? && current.value != "" && current.value != recorded.value
  }

  /** Python's `manifest[i]` for -len <= i < len. */
  function ActionAt(m: seq<CommitAction>, i: int): CommitAction
    requires -|m| <= i < |m|
  {
    if i < 0 then m[|m| + i] else m[i]
  }

  /** The `git commit` command for an action in a real run. */
  function CommitCommand(a: CommitAction): GitWrapper.GitCommand
  {
    GitWrapper.Commit(a.message, a.authorName, a.authorEmail, a.timestamp, false).value
  }

  /** The loop's outcome: its effects, the state file after it, and the error
      that stopped it, if any. */
  datatype LoopRun = LoopRun(effects: seq<Effect>, ledger: StateFile, error: Option<PyError>)

  /** `for i in range(start_index, len(manifest))`: add (real runs), commit
      (a dry run only prints), then the checkpoint (real runs). A failing git
      command raises RuntimeError; an index below -len is an IndexError. */
  function Loop(addOk: int -> bool, commitOk: int -> bool, m: seq<CommitAction>, dryRun: bool, i: int, f: StateFile)
    : (r: LoopRun)
    ensures dryRun ==> r.effects == [] && r.ledger == f
    ensures dryRun ==> (r.error.Some? <==> i < -|m| && i < |m|)
    ensures r.error.Some? ==> i < |m|
    decreases |m| - i
  {
    if i >= |m| then LoopRun([], f, None)
    else if i < -|m| then LoopRun([], f, Some(IndexError))
    else
      var a := ActionAt(m, i);
      if dryRun then Loop(addOk, commitOk, m, dryRun, i + 1, f)
      else if !addOk(i) then LoopRun([], f, Some(RuntimeError))
      else if !commitOk(i) then LoopRun([Staged(i, a.files)], f, Some(RuntimeError))
      else
        var f' := UpdateProgress(f, i, i == |m| - 1);
        var rest := Loop(addOk, commitOk, m, dryRun, i + 1, f');
        LoopRun(ActionBlock(i, a, |m|) + rest.effects, rest.ledger, rest.error)
  }

  /** `Engine.apply(manifest, dry_run)`. */
  function Apply(w: World, m: seq<CommitAction>, dryRun: bool, digest: seq<SerializedAction> -> string): (o: Outcome)
    ensures |m| == 0 ==> o == Outcome(Run(NothingToApply, [], w.session.ledger, w.lock), [])
    ensures Preflight(w, dryRun).Err? && |m| > 0 ==> o.run == Run(Raised(RuntimeError), [], w.session.ledger, w.lock)
    ensures Preflight(w, dryRun).Err? && |m| > 0 ==> o.notices == if w.gitInstalled then GpgNotes(w) else []
    ensures |m| > 0 && w.gitInstalled && w.gpgSign ==> GpgSigning in o.notices
    ensures |m| > 0 && Preflight(w, dryRun).Ok? && LockNotice(w.lock).Some? ==>
              (CorruptState in o.notices <==> Corrupt(w.session.ledger))
    ensures o.run.exit == AlreadyRunning ==> o.run.lock == w.lock && o.run.ledger == w.session.ledger
    ensures |m| > 0 && Preflight(w, dryRun).Ok? && o.run.exit != AlreadyRunning ==>
              && o.run.lock == NoLock
              && |o.run.effects| > 0 && o.run.effects[|o.run.effects| - 1] == LockRemoved
              && LockWritten(w.session.ownPid) in o.run.effects
  {
    if |m| == 0 then Outcome(Run(NothingToApply, [], w.session.ledger, w.lock), [])
    else
      match Preflight(w, dryRun)
      case Err(e) => Outcome(Run(Raised(e), [], w.session.ledger, w.lock), if w.gitInstalled then GpgNotes(w) else [])
      case Ok((pre, notes)) =>
        match LockNotice(w.lock)
        case None => Outcome(Run(AlreadyRunning, pre, w.session.ledger, w.lock), notes)
        case Some(lockNotes) =>
          Outcome(Locked(w.session, m, dryRun, digest, pre), notes + lockNotes + StateNotes(w.session.ledger))
  }

  /** The run once the lock decision lets it proceed: the lock is written, then
      `initialize_or_resume`, the drift check and the loop; the lock is removed
      on every exit. */
  function Locked(s: Session, m: seq<CommitAction>, dryRun: bool, digest: seq<SerializedAction> -> string,
                  pre: seq<Effect>): (r: Run)
    requires |m| > 0
    ensures r.exit != AlreadyRunning && r.lock == NoLock
    ensures |r.effects| > 0 && r.effects[|r.effects| - 1] == LockRemoved
    ensures LockWritten(s.ownPid) in r.effects
  {
    var resume := InitializeOrResume(s.ledger, m, digest);
    var written := Acquired(s, pre, resume);
    var r := Finish(s, m, dryRun, resume, written);
    assert r.effects[..|written|][|pre|] == LockWritten(s.ownPid);
    r
  }

  /** The effects up to the lock write and the fresh record, if one is written. */
  function Acquired(s: Session, pre: seq<Effect>, resume: Resume): (e: seq<Effect>)
    ensures |e| > |pre| && e[..|pre|] == pre && e[|pre|] == LockWritten(s.ownPid)
  {
    pre + [LockWritten(s.ownPid)] + (if LoadState(s.ledger).None? then [LedgerWritten(resume.file)] else [])
  }

  /** Everything after the lock is taken; the lock is removed on every exit. */
  function Finish(s: Session, m: seq<CommitAction>, dryRun: bool, resume: Resume, written: seq<Effect>): (r: Run)
    requires |m| > 0
    ensures r.exit != AlreadyRunning && r.lock == NoLock
    ensures |r.effects| > 0 && r.effects[|r.effects| - 1] == LockRemoved
    ensures |r.effects| > |written| && r.effects[..|written|] == written
    ensures resume.start.Err? ==> r == Run(ResumeRefused, written + [LockRemoved], resume.file, NoLock)
    ensures LoadState(s.ledger).None? ==> r.exit != Diverged
  {
    match resume.start
    case Err(_) => Run(ResumeRefused, written + [LockRemoved], resume.file, NoLock)
    case Ok(start) =>
      if LoadState(s.ledger).Some? && Drift(s.recordedHead, s.currentHead) then
        Run(Diverged, written + [LockRemoved], resume.file, NoLock)
      else if start >= |m| then
        Run(AlreadyApplied, written + [LockRemoved], resume.file, NoLock)
      else
        var lr := Loop(s.addOk, s.commitOk, m, dryRun, start, resume.file);
        var exit := if lr.error.Some? then Raised(lr.error.value) else Done;
        Run(exit, written + lr.effects + [LockRemoved], lr.ledger, NoLock)
  }

  // ---------------------------------------------------------------------------
  // apply: properties

  /** The loop indices whose commit was issued, in order. */
  function CommittedIndices(effects: seq<Effect>): seq<int>
  {
    if |effects| == 0 then []
    else (if effects[0].Committed? then [effects[0].index] else []) + CommittedIndices(effects[1..])
  }

  lemma {:induction false} CommittedIndicesConcat(a: seq<Effect>, b: seq<Effect>)
    ensures CommittedIndices(a + b) == CommittedIndices(a) + CommittedIndices(b)
    decreases |a|
  {
    if |a| > 0 {
      assert (a + b)[0] == a[0];
      assert (a + b)[1..] == a[1..] + b;
      CommittedIndicesConcat(a[1..], b);
    } else {
      assert a + b == b;
    }
  }

  /** The integers i, i + 1, ..., k - 1. */
  function Range(i: int, k: int): (r: seq<int>)
    requires i <= k
    ensures |r| == k - i && forall t :: 0 <= t < |r| ==> r[t] == i + t
  {
    seq(k - i, t requires 0 <= t < k - i => i + t)
  }

  /** Nothing reached git or the checkpoints. */
  predicate NoGitWork(effects: seq<Effect>)
  {
    forall t :: 0 <= t < |effects| ==> !effects[t].Staged? && !effects[t].Committed? && !effects[t].Checkpointed?
  }

  /** The first index from i on whose add or commit fails, or n if none does. */
  function StopAt(addOk: int -> bool, commitOk: int -> bool, i: int, n: int): (k: int)
    requires i <= n
    ensures i <= k <= n
    ensures forall j :: i <= j < k ==> addOk(j) && commitOk(j)
    ensures k < n ==> !(addOk(k) && commitOk(k))
    decreases n - i
  {
    if i == n then n
    else if !(addOk(i) && commitOk(i)) then i
    else StopAt(addOk, commitOk, i + 1, n)
  }

  /** What the loop leaves after a real run from i on a ledger for m, where k is
      the first index whose add or commit fails: the record ends at index k - 1,
      complete exactly when every action went through, still a ledger for m, and
      the commits issued are those of i, i + 1, ..., k - 1. */
  ghost predicate LoopEndsAt(r: LoopRun, m: seq<CommitAction>, digest: seq<SerializedAction> -> string, i: int, k: int)
    requires i <= k
  {
    && LedgerFor(r.ledger, m, digest)
    && LoadState(r.ledger).value.lastAppliedIndex == k - 1
    && (LoadState(r.ledger).value.isComplete <==> k == |m|)
    && (r.error.Some? <==> k < |m|)
    && (r.error.Some? ==> r.error.value == RuntimeError)
    && CommittedIndices(r.effects) == Range(i, k)
  }

  /** A real run of the loop from a resume point of a ledger: actions i up to the
      first failure are committed in increasing order (see `LoopEndsAt`). */
  lemma {:induction false} LoopOnLedger(addOk: int -> bool, commitOk: int -> bool, m: seq<CommitAction>,
                                       digest: seq<SerializedAction> -> string, i: int, f: StateFile)
    requires 0 <= i < |m|
    requires LedgerFor(f, m, digest) && LoadState(f).value.lastAppliedIndex == i - 1
    ensures LoopEndsAt(Loop(addOk, commitOk, m, false, i, f), m, digest, i, StopAt(addOk, commitOk, i, |m|))
    decreases |m| - i, 1
  {
    if addOk(i) && commitOk(i) {
      LoopOnLedgerStep(addOk, commitOk, m, digest, i, f);
    } else {
      LoopHalt(addOk, commitOk, m, i, f);
      assert StopAt(addOk, commitOk, i, |m|) == i;
    }
  }

  lemma {:induction false} LoopOnLedgerStep(addOk: int -> bool, commitOk: int -> bool, m: seq<CommitAction>,
                                           digest: seq<SerializedAction> -> string, i: int, f: StateFile)
    requires 0 <= i < |m| && addOk(i) && commitOk(i)
    requires LedgerFor(f, m, digest) && LoadState(f).value.lastAppliedIndex == i - 1
    ensures LoopEndsAt(Loop(addOk, commitOk, m, false, i, f), m, digest, i, StopAt(addOk, commitOk, i, |m|))
    decreases |m| - i, 0
  {
    var f' := UpdateProgress(f, i, i == |m| - 1);
    CheckpointKeepsLedger(f, m, digest, i);
    LoopStep(addOk, commitOk, m, i, f);
    var rest := Loop(addOk, commitOk, m, false, i + 1, f');
    if i + 1 < |m| {
      LoopOnLedger(addOk, commitOk, m, digest, i + 1, f');
      assert StopAt(addOk, commitOk, i, |m|) == StopAt(addOk, commitOk, i + 1, |m|);
      RangeCons(i, StopAt(addOk, commitOk, i + 1, |m|));
    } else {
      assert rest == LoopRun([], f', None);
      assert StopAt(addOk, commitOk, i, |m|) == |m|;
      RangeCons(i, |m|);
    }
  }

  /** The loop at an index whose add and commit succeed: that action's block,
      then the loop from the next index on the checkpointed record. */
  lemma LoopStep(addOk: int -> bool, commitOk: int -> bool, m: seq<CommitAction>, i: int, f: StateFile)
    requires 0 <= i < |m| && addOk(i) && commitOk(i)
    ensures var rest := Loop(addOk, commitOk, m, false, i + 1, UpdateProgress(f, i, i == |m| - 1));
            var r := Loop(addOk, commitOk, m, false, i, f);
            && r.ledger == rest.ledger && r.error == rest.error
            && CommittedIndices(r.effects) == [i] + CommittedIndices(rest.effects)
  {
    var rest := Loop(addOk, commitOk, m, false, i + 1, UpdateProgress(f, i, i == |m| - 1));
    CommittedIndicesConcat(ActionBlock(i, ActionAt(m, i), |m|), rest.effects);
  }

  /** The loop at an index whose add or commit fails: it stops there with a
      RuntimeError, the record untouched and nothing committed. */
  lemma LoopHalt(addOk: int -> bool, commitOk: int -> bool, m: seq<CommitAction>, i: int, f: StateFile)
    requires 0 <= i < |m| && !(addOk(i) && commitOk(i))
    ensures var r := Loop(addOk, commitOk, m, false, i, f);
            r.ledger == f && r.error == Some(RuntimeError) && CommittedIndices(r.effects) == []
  {
    var r := Loop(addOk, commitOk, m, false, i, f);
    if addOk(i) {
      assert r.effects == [Staged(i, ActionAt(m, i).files)];
      assert r.effects[1..] == [];
    }
  }

  lemma RangeCons(i: int, k: int)
    requires i < k
    ensures Range(i, k) == [i] + Range(i + 1, k)
  {
  }

  /** The effects of one applied action in a real run. */
  function ActionBlock(i: int, a: CommitAction, n: int): (e: seq<Effect>)
    ensures CommittedIndices(e) == [i]
  {
    var staged, committed, checkpoint := Staged(i, a.files), Committed(i, CommitCommand(a)), Checkpointed(i, i == n - 1);
    CommittedIndicesConcat([staged], [committed]);
    CommittedIndicesConcat([staged] + [committed], [checkpoint]);
    assert CommittedIndices([staged]) == [] by { assert [staged][1..] == []; }
    assert CommittedIndices([committed]) == [i] by { assert [committed][1..] == []; }
    assert CommittedIndices([checkpoint]) == [] by { assert [checkpoint][1..] == []; }
    [staged] + [committed] + [checkpoint]
  }

  /** Position t of e is a checkpoint that directly follows the commit of the
      same index, and it is marked complete exactly for index n - 1. */
  predicate CheckpointAfterCommit(e: seq<Effect>, t: int, n: int)
    requires 0 <= t < |e| && e[t].Checkpointed?
  {
    1 <= t && e[t - 1].Committed? && e[t - 1].index == e[t].index && (e[t].complete <==> e[t].index == n - 1)
  }

  /** Every checkpoint of e directly follows the commit of its index. */
  predicate CheckpointsFollowCommits(e: seq<Effect>, n: int)
  {
    forall t :: 0 <= t < |e| && e[t].Checkpointed? ==> CheckpointAfterCommit(e, t, n)
  }

  /** In a real run each checkpoint comes right after the commit of the same index,
      and only the checkpoint of the last index marks the run complete. */
  lemma {:induction false} CheckpointFollowsCommit(addOk: int -> bool, commitOk: int -> bool,
                                                  m: seq<CommitAction>, i: int, f: StateFile)
    ensures CheckpointsFollowCommits(Loop(addOk, commitOk, m, false, i, f).effects, |m|)
    decreases |m| - i
  {
    var e := Loop(addOk, commitOk, m, false, i, f).effects;
    if -|m| <= i < |m| && addOk(i) && commitOk(i) {
      var f' := UpdateProgress(f, i, i == |m| - 1);
      var a := ActionAt(m, i);
      CheckpointFollowsCommit(addOk, commitOk, m, i + 1, f');
      BlockKeepsCheckpoints(i, a, |m|, Loop(addOk, commitOk, m, false, i + 1, f').effects);
    } else if -|m| <= i < |m| && addOk(i) {
      assert e == [Staged(i, ActionAt(m, i).files)];
    }
  }

  lemma BlockKeepsCheckpoints(i: int, a: CommitAction, n: int, rest: seq<Effect>)
    requires CheckpointsFollowCommits(rest, n)
    ensures CheckpointsFollowCommits(ActionBlock(i, a, n) + rest, n)
  {
    var block := ActionBlock(i, a, n);
    assert block == [Staged(i, a.files), Committed(i, CommitCommand(a)), Checkpointed(i, i == n - 1)];
    var e := block + rest;
    forall t | 0 <= t < |e| && e[t].Checkpointed?
      ensures CheckpointAfterCommit(e, t, n)
    {
      if t < 3 {
        assert e[t] == block[t] && e[1] == block[1];
      } else {
        var u := t - 3;
        assert e[t] == rest[u];
        assert CheckpointAfterCommit(rest, u, n);
        assert e[t - 1] == rest[u - 1];
      }
    }
  }

  /** A start index below zero (a record whose index is below -1) applies the
      actions from the tail first, as Python's negative indexing does; one below
      -len raises IndexError before anything is applied. */
  lemma NegativeStart(addOk: int -> bool, commitOk: int -> bool, m: seq<CommitAction>, i: int, f: StateFile)
    requires i < 0 && |m| > 0
    ensures i < -|m| ==> Loop(addOk, commitOk, m, false, i, f) == LoopRun([], f, Some(IndexError))
    ensures -|m| <= i && addOk(i) && commitOk(i) ==>
              var e := Loop(addOk, commitOk, m, false, i, f).effects;
              |e| >= 2 && e[0] == Staged(i, m[|m| + i].files) && e[1] == Committed(i, CommitCommand(m[|m| + i]))
  {
  }

  /** An empty manifest returns before any git call, lock write or ledger write. */
  lemma EmptyManifestTouchesNothing(w: World, dryRun: bool, digest: seq<SerializedAction> -> string)
    ensures var r := Apply(w, [], dryRun, digest).run;
            r.effects == [] && r.ledger == w.session.ledger && r.lock == w.lock && r.exit == NothingToApply
  {
  }

  /** In a real run on an existing repository a dirty tree raises before the lock
      is taken: nothing is written. */
  lemma DirtyTreeRaisesBeforeLock(w: World, m: seq<CommitAction>, digest: seq<SerializedAction> -> string)
    requires |m| > 0 && w.gitInstalled && w.repoExists
    requires w.status.Some? && !CleanStatus(w.status.value)
    ensures Apply(w, m, false, digest).run == Run(Raised(RuntimeError), [], w.session.ledger, w.lock)
  {
  }

  /** Past the checks and the lock decision, the run is the one `Locked` gives. */
  lemma ApplyIsLocked(w: World, m: seq<CommitAction>, dryRun: bool, digest: seq<SerializedAction> -> string)
    requires |m| > 0 && Preflight(w, dryRun).Ok? && LockNotice(w.lock).Some?
    ensures Apply(w, m, dryRun, digest).run == Locked(w.session, m, dryRun, digest, Preflight(w, dryRun).value.0)
  {
  }

  /** Two worlds that agree on the checks' verdicts and on the session give the
      same run. */
  lemma SameRun(w1: World, w2: World, m: seq<CommitAction>, dryRun: bool, digest: seq<SerializedAction> -> string)
    requires Preflight(w1, dryRun).Ok? <==> Preflight(w2, dryRun).Ok?
    requires Preflight(w1, dryRun).Ok? ==> Preflight(w1, dryRun).value.0 == Preflight(w2, dryRun).value.0
    requires LockNotice(w1.lock).None? <==> LockNotice(w2.lock).None?
    requires !(|m| > 0 && Preflight(w1, dryRun).Ok? && LockNotice(w1.lock).Some?) ==> w1.lock == w2.lock
    requires w1.session == w2.session
    ensures Apply(w1, m, dryRun, digest).run == Apply(w2, m, dryRun, digest).run
  {
    if |m| > 0 && Preflight(w1, dryRun).Ok? && LockNotice(w1.lock).Some? {
      ApplyIsLocked(w1, m, dryRun, digest);
      ApplyIsLocked(w2, m, dryRun, digest);
    }
  }

  /** A detached HEAD only adds a warning: the run is otherwise the same. */
  lemma DetachedHeadOnlyWarns(w: World, m: seq<CommitAction>, dryRun: bool, digest: seq<SerializedAction> -> string,
                              symbolicRef: Option<string>, revParse: Option<string>)
    ensures Apply(w, m, dryRun, digest).run
         == Apply(w.(symbolicRef := symbolicRef, revParse := revParse), m, dryRun, digest).run
    ensures |m| > 0 && !dryRun && w.repoExists && Preflight(w, dryRun).Ok?
            && GitWrapper.IsDetached(w.symbolicRef, w.revParse)
            ==> DetachedHead in Apply(w, m, dryRun, digest).notices
  {
    SameRun(w, w.(symbolicRef := symbolicRef, revParse := revParse), m, dryRun, digest);
  }

  /** A dry run skips the repository checks: the `.git` probe, `git init` and the
      status and branch queries do not matter. Past the lock decision it writes
      the lock, the fresh record when there is none, and removes the lock:
      git is never asked to change anything and an existing record is kept. */
  lemma DryRunSkipsChecks(w: World, m: seq<CommitAction>, digest: seq<SerializedAction> -> string,
                          repoExists: bool, initOk: bool, status: Option<string>,
                          symbolicRef: Option<string>, revParse: Option<string>)
    ensures Apply(w, m, true, digest).run
         == Apply(w.(repoExists := repoExists, initOk := initOk, status := status,
                     symbolicRef := symbolicRef, revParse := revParse), m, true, digest).run
    ensures |m| > 0 && w.gitInstalled && LockNotice(w.lock).Some? ==>
              var r := Apply(w, m, true, digest).run;
              var unsaved := LoadState(w.session.ledger).None?;
              && r.effects == [LockWritten(w.session.ownPid)]
                              + (if unsaved then [LedgerWritten(SaveState(FreshState(digest, m)))] else [])
                              + [LockRemoved]
              && r.ledger == (if unsaved then SaveState(FreshState(digest, m)) else w.session.ledger)
  {
    SameRun(w, w.(repoExists := repoExists, initOk := initOk, status := status,
                  symbolicRef := symbolicRef, revParse := revParse), m, true, digest);
    if |m| > 0 && w.gitInstalled && LockNotice(w.lock).Some? {
      ApplyIsLocked(w, m, true, digest);
      DryRunLocked(w.session, m, digest);
    }
  }

  lemma DryRunLocked(s: Session, m: seq<CommitAction>, digest: seq<SerializedAction> -> string)
    requires |m| > 0
    ensures var r := Locked(s, m, true, digest, []);
            var unsaved := LoadState(s.ledger).None?;
            && r.effects == [LockWritten(s.ownPid)]
                            + (if unsaved then [LedgerWritten(SaveState(FreshState(digest, m)))] else [])
                            + [LockRemoved]
            && r.ledger == (if unsaved then SaveState(FreshState(digest, m)) else s.ledger)
  {
    var resume := InitializeOrResume(s.ledger, m, digest);
    var written := Acquired(s, [], resume);
    assert [] + [LockWritten(s.ownPid)] == [LockWritten(s.ownPid)];
    var r := Finish(s, m, true, resume, written);
    if resume.start.Ok? && !(LoadState(s.ledger).Some? && Drift(s.recordedHead, s.currentHead)) && resume.start.value < |m| {
      assert r.effects == written + [] + [LockRemoved];
    }
  }

  /** A live lock holder aborts the run before the lock, the ledger or any git
      command beyond `git init`. */
  lemma LiveLockAborts(w: World, m: seq<CommitAction>, dryRun: bool, digest: seq<SerializedAction> -> string)
    requires |m| > 0 && Preflight(w, dryRun).Ok? && w.lock.Held? && w.lock.alive
    ensures Apply(w, m, dryRun, digest).run
         == Run(AlreadyRunning, if !w.repoExists && !dryRun then [GitInit] else [], w.session.ledger, w.lock)
  {
  }

  /** A stale or unparsable lock is taken over: apart from the warning the run is
      the one without a lock file, which writes its own PID and removes it. */
  lemma StaleLockReclaimed(w: World, m: seq<CommitAction>, dryRun: bool, digest: seq<SerializedAction> -> string)
    requires w.lock == Unparsable || (w.lock.Held? && !w.lock.alive)
    requires |m| > 0 && Preflight(w, dryRun).Ok?
    ensures Apply(w, m, dryRun, digest).run == Apply(w.(lock := NoLock), m, dryRun, digest).run
    ensures var r := Apply(w, m, dryRun, digest).run;
            r.exit != AlreadyRunning && r.lock == NoLock && LockWritten(w.session.ownPid) in r.effects
    ensures (w.lock == Unparsable ==> CorruptLock in Apply(w, m, dryRun, digest).notices)
            && (w.lock.Held? ==> StaleLock(w.lock.pid) in Apply(w, m, dryRun, digest).notices)
  {
    SameRun(w, w.(lock := NoLock), m, dryRun, digest);
    ApplyIsLocked(w, m, dryRun, digest);
  }

  /** A record for another manifest is refused: no add, commit or checkpoint, the
      state file is left as it was and the lock is released. */
  lemma MismatchRefused(w: World, m: seq<CommitAction>, dryRun: bool, digest: seq<SerializedAction> -> string)
    requires |m| > 0 && Preflight(w, dryRun).Ok? && LockNotice(w.lock).Some?
    requires LoadState(w.session.ledger).Some?
    requires LoadState(w.session.ledger).value.manifestHash != ManifestHash(digest, m)
    ensures var r := Apply(w, m, dryRun, digest).run;
            r.exit == ResumeRefused && r.ledger == w.session.ledger && r.lock == NoLock && NoGitWork(r.effects)
  {
    ApplyIsLocked(w, m, dryRun, digest);
    var pre := Preflight(w, dryRun).value.0;
    var resume := InitializeOrResume(w.session.ledger, m, digest);
    var written := Acquired(w.session, pre, resume);
    assert Locked(w.session, m, dryRun, digest, pre) == Finish(w.session, m, dryRun, resume, written);
    AcquiredIsNoGitWork(w.session, pre, resume);
    NoGitWorkAppend(written, [LockRemoved]);
  }

  /** A completed ledger applies nothing. */
  lemma CompletedLedgerAppliesNothing(w: World, m: seq<CommitAction>, dryRun: bool, digest: seq<SerializedAction> -> string)
    requires |m| > 0 && Preflight(w, dryRun).Ok? && LockNotice(w.lock).Some?
    requires LedgerFor(w.session.ledger, m, digest) && LoadState(w.session.ledger).value.isComplete
    ensures var r := Apply(w, m, dryRun, digest).run;
            (r.exit == AlreadyApplied || r.exit == Diverged) && r.ledger == w.session.ledger && r.lock == NoLock
            && NoGitWork(r.effects)
  {
    ApplyIsLocked(w, m, dryRun, digest);
    var pre := Preflight(w, dryRun).value.0;
    var resume := InitializeOrResume(w.session.ledger, m, digest);
    ResumeOnLedger(w.session.ledger, m, digest);
    var written := Acquired(w.session, pre, resume);
    assert Locked(w.session, m, dryRun, digest, pre) == Finish(w.session, m, dryRun, resume, written);
    assert resume.start == Ok(|m|);
    AcquiredIsNoGitWork(w.session, pre, resume);
    NoGitWorkAppend(written, [LockRemoved]);
  }

  /** HEAD moved since the checkpoint of a record that existed before the run:
      the run stops before the loop. */
  lemma DriftStops(w: World, m: seq<CommitAction>, dryRun: bool, digest: seq<SerializedAction> -> string)
    requires |m| > 0 && Preflight(w, dryRun).Ok? && LockNotice(w.lock).Some?
    requires LoadState(w.session.ledger).Some?
    requires InitializeOrResume(w.session.ledger, m, digest).start.Ok?
    requires Drift(w.session.recordedHead, w.session.currentHead)
    ensures var r := Apply(w, m, dryRun, digest).run;
            r.exit == Diverged && r.lock == NoLock && NoGitWork(r.effects)
            && r.ledger == InitializeOrResume(w.session.ledger, m, digest).file
  {
    ApplyIsLocked(w, m, dryRun, digest);
    var pre := Preflight(w, dryRun).value.0;
    var resume := InitializeOrResume(w.session.ledger, m, digest);
    var written := Acquired(w.session, pre, resume);
    assert Locked(w.session, m, dryRun, digest, pre) == Finish(w.session, m, dryRun, resume, written);
    AcquiredIsNoGitWork(w.session, pre, resume);
    NoGitWorkAppend(written, [LockRemoved]);
  }

  lemma AcquiredIsNoGitWork(s: Session, pre: seq<Effect>, resume: Resume)
    requires pre == [] || pre == [GitInit]
    ensures NoGitWork(Acquired(s, pre, resume))
  {
  }

  lemma NoGitWorkAppend(a: seq<Effect>, b: seq<Effect>)
    requires NoGitWork(a) && NoGitWork(b)
    ensures NoGitWork(a + b)
  {
    forall t | 0 <= t < |a + b|
      ensures !(a + b)[t].Staged? && !(a + b)[t].Committed? && !(a + b)[t].Checkpointed?
    {
      if t < |a| {
        assert (a + b)[t] == a[t];
      } else {
        assert (a + b)[t] == b[t - |a|];
      }
    }
  }

  /** The first index a run starts from, on no record or on a ledger for m, and
      the record it leaves at that point. */
  lemma StartOnLedger(f: StateFile, m: seq<CommitAction>, digest: seq<SerializedAction> -> string)
    requires |m| > 0 && (LoadState(f).None? || LedgerFor(f, m, digest))
    ensures var resume := InitializeOrResume(f, m, digest);
            && resume.start.Ok? && 0 <= resume.start.value <= |m|
            && LedgerFor(resume.file, m, digest)
            && (resume.start.value < |m| ==> LoadState(resume.file).value.lastAppliedIndex == resume.start.value - 1)
            && InitializeOrResume(resume.file, m, digest).start == resume.start
  {
    if LoadState(f).None? {
      FreshLedger(f, m, digest);
    } else {
      ResumeOnLedger(f, m, digest);
    }
    ResumeOnLedger(InitializeOrResume(f, m, digest).file, m, digest);
  }

  /** Once the loop has run from a resume point, the next run resumes at the
      first action that did not go through. */
  lemma LoopThenResume(addOk: int -> bool, commitOk: int -> bool, m: seq<CommitAction>,
                       digest: seq<SerializedAction> -> string, i: int, f: StateFile)
    requires 0 <= i < |m|
    requires LedgerFor(f, m, digest) && LoadState(f).value.lastAppliedIndex == i - 1
    ensures var r := Loop(addOk, commitOk, m, false, i, f);
            && LedgerFor(r.ledger, m, digest)
            && InitializeOrResume(r.ledger, m, digest).start == Ok(StopAt(addOk, commitOk, i, |m|))
            && CommittedIndices(r.effects) == Range(i, StopAt(addOk, commitOk, i, |m|))
            && (r.error.None? <==> StopAt(addOk, commitOk, i, |m|) == |m|)
  {
    LoopOnLedger(addOk, commitOk, m, digest, i, f);
    ResumeOnLedger(Loop(addOk, commitOk, m, false, i, f).ledger, m, digest);
  }

  /** A real run that starts from no record or from a ledger for m commits exactly
      the actions from where it starts to where the next run will resume, and
      leaves a ledger for m behind: an interrupted run followed by a rerun that
      passes the pre-lock checks applies every action once, in order. */
  lemma InterruptedApplyResumes(w: World, m: seq<CommitAction>, digest: seq<SerializedAction> -> string)
    requires |m| > 0 && Preflight(w, false).Ok? && LockNotice(w.lock).Some?
    requires LoadState(w.session.ledger).None? || LedgerFor(w.session.ledger, m, digest)
    ensures InitializeOrResume(w.session.ledger, m, digest).start.Ok?
    ensures var r := Apply(w, m, false, digest).run;
            var s0 := InitializeOrResume(w.session.ledger, m, digest).start.value;
            var s1 := InitializeOrResume(r.ledger, m, digest).start;
            && LedgerFor(r.ledger, m, digest)
            && s1.Ok? && s0 <= s1.value
            && CommittedIndices(r.effects) == Range(s0, s1.value)
            && (r.exit == Done ==> s1.value == |m|)
            && (r.exit.Raised? ==> s1.value < |m|)
  {
    ApplyIsLocked(w, m, false, digest);
    StartOnLedger(w.session.ledger, m, digest);
    LockedOnLedger(w.session, m, digest, Preflight(w, false).value.0);
  }

  /** `InterruptedApplyResumes` once the lock is taken. */
  lemma LockedOnLedger(s: Session, m: seq<CommitAction>, digest: seq<SerializedAction> -> string, pre: seq<Effect>)
    requires |m| > 0 && (pre == [] || pre == [GitInit])
    requires InitializeOrResume(s.ledger, m, digest).start.Ok?
    requires var resume := InitializeOrResume(s.ledger, m, digest);
             && 0 <= resume.start.value <= |m|
             && LedgerFor(resume.file, m, digest)
             && (resume.start.value < |m| ==> LoadState(resume.file).value.lastAppliedIndex == resume.start.value - 1)
             && InitializeOrResume(resume.file, m, digest).start == resume.start
    ensures var r := Locked(s, m, false, digest, pre);
            var s0 := InitializeOrResume(s.ledger, m, digest).start.value;
            var s1 := InitializeOrResume(r.ledger, m, digest).start;
            && LedgerFor(r.ledger, m, digest)
            && s1.Ok? && s0 <= s1.value
            && CommittedIndices(r.effects) == Range(s0, s1.value)
            && (r.exit == Done ==> s1.value == |m|)
            && (r.exit.Raised? ==> s1.value < |m|)
  {
    var resume := InitializeOrResume(s.ledger, m, digest);
    var written := Acquired(s, pre, resume);
    assert CommittedIndices(written) == [] by {
      AcquiredIsNoGitWork(s, pre, resume);
      NoCommitsIn(written);
    }
    FinishOnLedger(s, m, digest, resume, written);
  }

  /** The part of `InterruptedApplyResumes` after the lock is taken. */
  lemma FinishOnLedger(s: Session, m: seq<CommitAction>, digest: seq<SerializedAction> -> string,
                       resume: Resume, written: seq<Effect>)
    requires |m| > 0 && resume.start.Ok? && 0 <= resume.start.value <= |m|
    requires LedgerFor(resume.file, m, digest)
    requires resume.start.value < |m| ==> LoadState(resume.file).value.lastAppliedIndex == resume.start.value - 1
    requires InitializeOrResume(resume.file, m, digest).start == resume.start
    requires CommittedIndices(written) == []
    ensures var r := Finish(s, m, false, resume, written);
            var s0 := resume.start.value;
            var s1 := InitializeOrResume(r.ledger, m, digest).start;
            && LedgerFor(r.ledger, m, digest)
            && s1.Ok? && s0 <= s1.value
            && CommittedIndices(r.effects) == Range(s0, s1.value)
            && (r.exit == Done ==> s1.value == |m|)
            && (r.exit.Raised? ==> s1.value < |m|)
  {
    var s0 := resume.start.value;
    var r := Finish(s, m, false, resume, written);
    assert CommittedIndices([LockRemoved]) == [] by {
      NoCommitsIn([LockRemoved]);
    }
    if (LoadState(s.ledger).Some? && Drift(s.recordedHead, s.currentHead)) || s0 >= |m| {
      assert r.effects == written + [LockRemoved];
      CommittedIndicesConcat(written, [LockRemoved]);
    } else {
      var lr := Loop(s.addOk, s.commitOk, m, false, s0, resume.file);
      LoopThenResume(s.addOk, s.commitOk, m, digest, s0, resume.file);
      assert r.effects == written + lr.effects + [LockRemoved];
      CommittedIndicesConcat(written + lr.effects, [LockRemoved]);
      CommittedIndicesConcat(written, lr.effects);
    }
  }

  lemma {:induction false} NoCommitsIn(e: seq<Effect>)
    requires forall t :: 0 <= t < |e| ==> !e[t].Committed?
    ensures CommittedIndices(e) == []
  {
    if |e| > 0 {
      NoCommitsIn(e[1..]);
    }
  }
}

=== FILE: gitwrapper.dfy ===
/** The pure parts of `GitWrapper`: which files `add` stages and in which
    batches, the command and environment `commit` runs, how `is_clean` reads
    `git status --porcelain`, and the branch fallbacks behind `is_detached`.

    Git itself is not modelled. A command is the argument list after `git` and
    the variables added to the environment; a query's result is its standard
    output, or `None` when git exits non-zero (`run_command` then raises a
    RuntimeError). File existence is the predicate `present`. */
module GitWrapper {
  import opened Common
  import opened Text
  import opened StateManager

  /** A value put into a command's environment; dates are `isoformat` text. */
  datatype EnvValue = Str(s: string) | Date(iso: IsoText)

  /** `git <args>` run with `env` added to the inherited environment. */
  datatype GitCommand = GitCommand(args: seq<string>, env: map<string, EnvValue>)

  /** The warnings `add` prints: one per missing file (at most five), then the total. */
  datatype Warning = MissingFile(path: string) | MissingTotal(count: nat)

  const BatchSize: nat := 1000
  const ListedMissing: nat := 5

  // ---------------------------------------------------------------------------
  // add

  /** The files of `files` that exist, in their original order. */
  function Existing(files: seq<string>, present: string -> bool): (r: seq<string>)
    decreases |files|
  {
    if |files| == 0 then []
    else
      var last := files[|files| - 1];
      var init := files[..|files| - 1];
      assert files == init + [last];
      Existing(init, present) + (if present(last) then [last] else [])
  }

  /** The files of `files` that do not exist, in their original order. */
  function Absent(files: seq<string>, present: string -> bool): (r: seq<string>)
    decreases |files|
  {
    if |files| == 0 then []
    else
      var last := files[|files| - 1];
      var init := files[..|files| - 1];
      assert files == init + [last];
      Absent(init, present) + (if present(last) then [] else [last])
  }

  /** Every file is either kept or reported missing. */
  lemma {:induction false} ExistingAbsentSplit(files: seq<string>, present: string -> bool)
    ensures |Existing(files, present)| + |Absent(files, present)| == |files|
    decreases |files|
  {
    if |files| > 0 {
      ExistingAbsentSplit(files[..|files| - 1], present);
    }
  }

  /** The kept files are exactly the existing ones, the reported ones exactly
      the missing ones. */
  lemma {:induction false} FilterMembers(files: seq<string>, present: string -> bool)
    ensures forall f :: f in Existing(files, present) <==> f in files && present(f)
    ensures forall f :: f in Absent(files, present) <==> f in files && !present(f)
    decreases |files|
  {
    if |files| > 0 {
      var init, last := files[..|files| - 1], files[|files| - 1];
      assert files == init + [last];
      FilterMembers(init, present);
    }
  }

  /** Consecutive slices of at most `BatchSize` files, front to back. */
  function Batches(s: seq<string>): (bs: seq<seq<string>>)
    decreases |s|
  {
    if |s| == 0 then []
    else
      var k := Min(BatchSize, |s|);
      [s[..k]] + Batches(s[k..])
  }

  /** The batches concatenate back to the list; each is non-empty and holds at
      most `BatchSize` files, and every batch but the last holds exactly that many. */
  lemma {:induction false} BatchesPartition(s: seq<string>)
    ensures Flatten(Batches(s)) == s
    ensures forall i :: 0 <= i < |Batches(s)| ==> 0 < |Batches(s)[i]| <= BatchSize
    ensures forall i :: 0 <= i < |Batches(s)| - 1 ==> |Batches(s)[i]| == BatchSize
    ensures |Batches(s)| == 0 <==> |s| == 0
    decreases |s|
  {
    if |s| > 0 {
      var k := Min(BatchSize, |s|);
      BatchesPartition(s[k..]);
      var bs := Batches(s);
      assert bs[1..] == Batches(s[k..]);
      assert s == s[..k] + s[k..];
      if k < BatchSize {
        assert Batches(s[k..]) == [];
      }
    }
  }

  /** What `add` prints for the missing files: the first five by name, and a
      total exactly when more than five are missing. */
  function MissingWarnings(missing: seq<string>): seq<Warning>
  {
    seq(Min(ListedMissing, |missing|), i requires 0 <= i < Min(ListedMissing, |missing|) => MissingFile(missing[i]))
    + (if |missing| > ListedMissing then [MissingTotal(|missing|)] else [])
  }

  function AddCommand(batch: seq<string>): GitCommand
  {
    GitCommand(["add"] + batch, map[])
  }

  /** `add(files)`: the warnings printed and the `git add` commands issued, in order. */
  method Add(files: seq<string>, present: string -> bool)
    returns (warnings: seq<Warning>, commands: seq<GitCommand>)
    ensures |files| == 0 ==> warnings == [] && commands == []
    ensures warnings == MissingWarnings(Absent(files, present))
    ensures |commands| == |Batches(Existing(files, present))|
    ensures forall i :: 0 <= i < |commands| ==> commands[i] == AddCommand(Batches(Existing(files, present))[i])
  {
    if |files| == 0 {
      return [], [];
    }
    var valid;
    valid, warnings := FilterExisting(files, present);
    if |valid| == 0 {
      return warnings, [];
    }
    var batches := SplitBatches(valid);
    commands := seq(|batches|, b requires 0 <= b < |batches| => AddCommand(batches[b]));
  }

  lemma FilterSnoc(files: seq<string>, i: nat, present: string -> bool)
    requires i < |files|
    ensures Existing(files[..i + 1], present) == Existing(files[..i], present) + (if present(files[i]) then [files[i]] else [])
    ensures Absent(files[..i + 1], present) == Absent(files[..i], present) + (if present(files[i]) then [] else [files[i]])
  {
    assert files[..i + 1][..i] == files[..i];
  }

  /** The filtering loop of `add`: the existing files and the warnings for the others. */
  method FilterExisting(files: seq<string>, present: string -> bool)
    returns (valid: seq<string>, warnings: seq<Warning>)
    ensures valid == Existing(files, present)
    ensures warnings == MissingWarnings(Absent(files, present))
  {
    valid := [];
    var missing: seq<string> := [];
    var listed: seq<Warning> := [];
    var i := 0;
    while i < |files|
      invariant 0 <= i <= |files|
      invariant valid == Existing(files[..i], present)
      invariant missing == Absent(files[..i], present)
      invariant ListsFirstMissing(listed, missing)
    {
      var f := files[i];
      FilterSnoc(files, i, present);
      if present(f) {
        valid := valid + [f];
      } else {
        ListedStep(listed, missing, f);
        missing := missing + [f];
        if |missing| <= ListedMissing {
          listed := listed + [MissingFile(f)];
        }
      }
      i := i + 1;
    }
    assert files[..i] == files;
    warnings := listed + (if |missing| > ListedMissing then [MissingTotal(|missing|)] else []);
    ListedComplete(listed, missing);
  }

  /** `listed` warns about the first `ListedMissing` missing files, in order. */
  predicate ListsFirstMissing(listed: seq<Warning>, missing: seq<string>)
  {
    && |listed| == Min(ListedMissing, |missing|)
    && forall k :: 0 <= k < |listed| ==> listed[k] == MissingFile(missing[k])
  }

  lemma ListedStep(listed: seq<Warning>, missing: seq<string>, f: string)
    requires ListsFirstMissing(listed, missing)
    ensures ListsFirstMissing(listed + (if |missing| + 1 <= ListedMissing then [MissingFile(f)] else []), missing + [f])
  {
  }

  lemma ListedComplete(listed: seq<Warning>, missing: seq<string>)
    requires ListsFirstMissing(listed, missing)
    ensures listed + (if |missing| > ListedMissing then [MissingTotal(|missing|)] else []) == MissingWarnings(missing)
  {
  }

  /** The batching loop of `add`: slices `valid[j:j + 1000]` for j = 0, 1000, ... */
  method SplitBatches(valid: seq<string>) returns (batches: seq<seq<string>>)
    ensures batches == Batches(valid)
  {
    batches := [];
    var j := 0;
    while j < |valid|
      invariant 0 <= j <= |valid|
      invariant batches + Batches(valid[j..]) == Batches(valid)
    {
      var k := Min(j + BatchSize, |valid|);
      assert Batches(valid[j..]) == [valid[j..k]] + Batches(valid[k..]) by {
        assert valid[j..][..k - j] == valid[j..k];
        assert valid[j..][k - j..] == valid[k..];
      }
      batches := batches + [valid[j..k]];
      j := k;
    }
    assert Batches(valid[j..]) == [];
  }

  // ---------------------------------------------------------------------------
  // commit

  const EnvKeys: set<string> := {
    "GIT_AUTHOR_NAME", "GIT_AUTHOR_EMAIL", "GIT_AUTHOR_DATE",
    "GIT_COMMITTER_NAME", "GIT_COMMITTER_EMAIL", "GIT_COMMITTER_DATE"}

  /** The environment `commit` sets: author and committer get the same name,
      email and date. */
  function CommitEnv(authorName: string, authorEmail: string, timestamp: real): (env: map<string, EnvValue>)
    ensures env.Keys == EnvKeys
    ensures env["GIT_AUTHOR_NAME"] == env["GIT_COMMITTER_NAME"]
    ensures env["GIT_AUTHOR_EMAIL"] == env["GIT_COMMITTER_EMAIL"]
    ensures env["GIT_AUTHOR_DATE"] == env["GIT_COMMITTER_DATE"]
  {
    var date := Date(IsoFormat(timestamp));
    map["GIT_AUTHOR_NAME" := Str(authorName), "GIT_AUTHOR_EMAIL" := Str(authorEmail),
        "GIT_AUTHOR_DATE" := date,
        "GIT_COMMITTER_NAME" := Str(authorName), "GIT_COMMITTER_EMAIL" := Str(authorEmail),
        "GIT_COMMITTER_DATE" := date]
  }

  /** `commit(...)`: the `git commit -m message` command, or none in a dry run. */
  function Commit(message: string, authorName: string, authorEmail: string, timestamp: real, dryRun: bool)
    : (c: Option<GitCommand>)
    ensures c.None? <==> dryRun
    ensures c.Some? ==> c.value.args == ["commit", "-m", message]
                        && c.value.env == CommitEnv(authorName, authorEmail, timestamp)
  {
    if dryRun then None
    else Some(GitCommand(["commit", "-m", message], CommitEnv(authorName, authorEmail, timestamp)))
  }

  /** The identity and date of the commit can be read back from its environment. */
  lemma CommitEnvRecovers(authorName: string, authorEmail: string, timestamp: real)
    ensures var env := CommitEnv(authorName, authorEmail, timestamp);
            && env["GIT_COMMITTER_NAME"] == Str(authorName)
            && env["GIT_COMMITTER_EMAIL"] == Str(authorEmail)
            && env["GIT_COMMITTER_DATE"].Date?
            && FromIsoFormat(env["GIT_COMMITTER_DATE"].iso) == timestamp
  {
  }

  /** Different identities or dates give different environments. */
  lemma CommitEnvInjective(n1: string, e1: string, t1: real, n2: string, e2: string, t2: real)
    requires CommitEnv(n1, e1, t1) == CommitEnv(n2, e2, t2)
    ensures n1 == n2 && e1 == e2 && t1 == t2
  {
    CommitEnvRecovers(n1, e1, t1);
    CommitEnvRecovers(n2, e2, t2);
  }

  // ---------------------------------------------------------------------------
  // is_clean

  /** Every line, stripped, starts with "??" (an untracked entry). */
  predicate AllUntracked(lines: seq<string>)
  {
    forall i :: 0 <= i < |lines| ==> StartsWith(Strip(lines[i]), "??")
  }

  /** `is_clean()` on the raw standard output of `git status --porcelain`. */
  method IsClean(stdout: string) returns (clean: bool)
    ensures clean <==> Strip(stdout) == "" || AllUntracked(SplitLines(Strip(stdout)))
  {
    var output := Strip(stdout);
    if output == "" {
      return true;
    }
    var lines := SplitLines(output);
    var i := 0;
    while i < |lines|
      invariant 0 <= i <= |lines|
      invariant AllUntracked(lines[..i])
    {
      if !StartsWith(Strip(lines[i]), "??") {
        assert !AllUntracked(lines);
        return false;
      }
      assert lines[..i + 1] == lines[..i] + [lines[i]];
      i := i + 1;
    }
    assert lines[..i] == lines;
    return true;
  }

  /** For porcelain entries printed one per line (each visible and free of line
      breaks), the tree counts as clean exactly when every entry is untracked. */
  lemma CleanIffAllUntracked(entries: seq<string>)
    requires |entries| > 0
    requires forall k :: 0 <= k < |entries| ==> NoLineBreak(entries[k]) && Visible(entries[k])
    ensures (Strip(Join(entries, "\n")) == "" || AllUntracked(SplitLines(Strip(Join(entries, "\n")))))
            <==> AllUntracked(entries)
  {
    var trimmed := StripEnds(entries);
    StripJoin(entries);
    forall k | 0 <= k < |trimmed|
      ensures NoLineBreak(trimmed[k]) && |trimmed[k]| > 0 && Strip(trimmed[k]) == Strip(entries[k])
    {
      StripEndsEntries(entries, k);
    }
    SplitJoinedLines(trimmed);
    assert Strip(Join(entries, "\n")) != "" by {
      assert |trimmed[0]| > 0;
      JoinStartsWithFirst(trimmed, "\n");
    }
  }

  // ---------------------------------------------------------------------------
  // current_branch / is_detached

  /** `current_branch()`: the output of `git symbolic-ref --short HEAD`, else that
      of `git rev-parse --abbrev-ref HEAD`, else "HEAD". */
  function CurrentBranch(symbolicRef: Option<string>, revParse: Option<string>): (b: string)
    ensures symbolicRef.Some? ==> b == Strip(symbolicRef.value)
    ensures symbolicRef.None? && revParse.Some? ==> b == Strip(revParse.value)
    ensures symbolicRef.None? && revParse.None? ==> b == "HEAD"
  {
    if symbolicRef.Some? then Strip(symbolicRef.value)
    else if revParse.Some? then Strip(revParse.value)
    else "HEAD"
  }

  /** `is_detached()`. */
  predicate IsDetached(symbolicRef: Option<string>, revParse: Option<string>)
  {
    CurrentBranch(symbolicRef, revParse) == "HEAD"
  }

  /** When both queries fail HEAD counts as detached; when symbolic-ref names a
      branch other than "HEAD" it does not; when symbolic-ref fails (a detached
      HEAD) the answer is rev-parse's, which git prints as "HEAD" there. */
  lemma DetachedCases(symbolicRef: Option<string>, revParse: Option<string>)
    ensures symbolicRef.None? && revParse.None? ==> IsDetached(symbolicRef, revParse)
    ensures symbolicRef.Some? ==> (IsDetached(symbolicRef, revParse) <==> Strip(symbolicRef.value) == "HEAD")
    ensures symbolicRef.None? && revParse.Some? ==>
              (IsDetached(symbolicRef, revParse) <==> Strip(revParse.value) == "HEAD")
  {
  }
}

=== FILE: ledger.dfy ===
/** `StateManager`: the execution ledger that lets an interrupted `apply` resume.

    The state file is abstract: missing, unreadable (not JSON, or not a JSON
    object), or a JSON object given as a map from key to typed value. SHA-256 over
    `json.dumps(..., sort_keys=True)` is the function parameter `digest`, applied
    to the ordered serialized manifest. `datetime.isoformat` is `IsoText`, whose
    one field is the instant it denotes, so `fromisoformat` inverts it. */
module StateManager {
  import opened Common
  import opened Planner

  /** The text `isoformat()` produces for an instant (an offset in seconds). */
  datatype IsoText = IsoText(instant: real)

  function IsoFormat(t: real): IsoText { IsoText(t) }

  function FromIsoFormat(s: IsoText): real { s.instant }

  /** One entry of `manifest_data`: an action with its timestamp as text. */
  datatype SerializedAction = SerializedAction(
    authorName: string,
    authorEmail: string,
    timestamp: IsoText,
    files: seq<string>,
    message: string)

  /** `_serialize_manifest`: one entry per action, in manifest order. */
  function Serialize(m: seq<CommitAction>): (data: seq<SerializedAction>)
    ensures |data| == |m|
    ensures forall i :: 0 <= i < |m| ==>
              && data[i].authorName == m[i].authorName
              && data[i].authorEmail == m[i].authorEmail
              && data[i].timestamp == IsoFormat(m[i].timestamp)
              && data[i].files == m[i].files
              && data[i].message == m[i].message
  {
    seq(|m|, i requires 0 <= i < |m| =>
      SerializedAction(m[i].authorName, m[i].authorEmail, IsoFormat(m[i].timestamp), m[i].files, m[i].message))
  }

  /** `_deserialize_manifest`. */
  function Deserialize(data: seq<SerializedAction>): (m: seq<CommitAction>)
    ensures |m| == |data|
    ensures forall i :: 0 <= i < |data| ==>
              && m[i].authorName == data[i].authorName
              && m[i].authorEmail == data[i].authorEmail
              && IsoFormat(m[i].timestamp) == data[i].timestamp
              && m[i].files == data[i].files
              && m[i].message == data[i].message
  {
    seq(|data|, i requires 0 <= i < |data| =>
      CommitAction(data[i].authorName, data[i].authorEmail, FromIsoFormat(data[i].timestamp),
                   data[i].files, data[i].message))
  }

  lemma DeserializeSerialize(m: seq<CommitAction>)
    ensures Deserialize(Serialize(m)) == m
  {
  }

  lemma SerializeDeserialize(data: seq<SerializedAction>)
    ensures Serialize(Deserialize(data)) == data
  {
  }

  /** Order matters: manifests with the same serialization are the same manifest. */
  lemma SerializeInjective(a: seq<CommitAction>, b: seq<CommitAction>)
    requires Serialize(a) == Serialize(b)
    ensures a == b
  {
    DeserializeSerialize(a);
    DeserializeSerialize(b);
  }

  /** `_compute_manifest_hash`: a digest of the ordered serialized list. */
  function ManifestHash(digest: seq<SerializedAction> -> string, m: seq<CommitAction>): string
  {
    digest(Serialize(m))
  }

  datatype ExecutionState = ExecutionState(
    manifestHash: string,
    lastAppliedIndex: int,
    totalCommits: int,
    isComplete: bool,
    manifestData: seq<SerializedAction>)

  /** A JSON value of one of the kinds the state file holds. */
  datatype JsonValue = JStr(str: string) | JInt(num: int) | JBool(flag: bool) | JActions(actions: seq<SerializedAction>)

  /** The state file: absent; present but invalid JSON or a JSON value other than
      an object (a JSONDecodeError or a TypeError, both caught); or an object. A
      file that cannot be opened or is not UTF-8 is not modelled. */
  datatype StateFile = Missing | Unreadable | Object(fields: map<string, JsonValue>)

  const StateKeys: set<string> :=
    {"manifest_hash", "last_applied_index", "total_commits", "is_complete", "manifest_data"}

  /** `asdict(state)`: the object `save_state` writes. */
  function Encode(s: ExecutionState): (fields: map<string, JsonValue>)
    ensures fields.Keys == StateKeys
  {
    map["manifest_hash" := JStr(s.manifestHash),
        "last_applied_index" := JInt(s.lastAppliedIndex),
        "total_commits" := JInt(s.totalCommits),
        "is_complete" := JBool(s.isComplete),
        "manifest_data" := JActions(s.manifestData)]
  }

  predicate WellTyped(fields: map<string, JsonValue>)
  {
    && "manifest_hash" in fields && fields["manifest_hash"].JStr?
    && "last_applied_index" in fields && fields["last_applied_index"].JInt?
    && "total_commits" in fields && fields["total_commits"].JInt?
    && "is_complete" in fields && fields["is_complete"].JBool?
    && "manifest_data" in fields && fields["manifest_data"].JActions?
  }

  /** `load_state`: `ExecutionState(**data)` succeeds exactly when the object has
      the five keys and no other (a missing or an extra key is a TypeError, which
      is reported and gives None, as are a missing file, invalid JSON and a JSON
      value other than an object). */
  function LoadState(f: StateFile): (r: Option<ExecutionState>)
    ensures r.Some? <==> f.Object? && f.fields.Keys == StateKeys && WellTyped(f.fields)
    ensures r.Some? ==> Encode(r.value) == f.fields
  {
    match f
    case Object(fields) =>
      if fields.Keys == StateKeys && WellTyped(fields) then
        var s := ExecutionState(fields["manifest_hash"].str, fields["last_applied_index"].num,
                                fields["total_commits"].num, fields["is_complete"].flag,
                                fields["manifest_data"].actions);
        assert Encode(s).Keys == fields.Keys;
        Some(s)
      else None
    case _ => None
  }

  /** `save_state`: the file afterwards holds `asdict(state)`. */
  function SaveState(s: ExecutionState): StateFile
  {
    Object(Encode(s))
  }

  /** What is saved loads back unchanged. */
  lemma LoadSavedState(s: ExecutionState)
    ensures LoadState(SaveState(s)) == Some(s)
  {
    var r := LoadState(SaveState(s));
    assert r.Some?;
    assert Encode(r.value)["manifest_hash"] == Encode(s)["manifest_hash"];
    assert Encode(r.value)["last_applied_index"] == Encode(s)["last_applied_index"];
    assert Encode(r.value)["total_commits"] == Encode(s)["total_commits"];
    assert Encode(r.value)["is_complete"] == Encode(s)["is_complete"];
    assert Encode(r.value)["manifest_data"] == Encode(s)["manifest_data"];
  }

  /** Saving a record that was just loaded writes the same file back. */
  lemma SaveLoadedState(f: StateFile)
    requires LoadState(f).Some?
    ensures SaveState(LoadState(f).value) == f
  {
  }

  /** `get_saved_manifest`: the saved manifest when a record loads and its
      `manifest_data` is non-empty. */
  function GetSavedManifest(f: StateFile): (r: Option<seq<CommitAction>>)
    ensures r.Some? <==> LoadState(f).Some? && |LoadState(f).value.manifestData| > 0
    ensures r.Some? ==> Serialize(r.value) == LoadState(f).value.manifestData
  {
    var s := LoadState(f);
    if s.Some? && |s.value.manifestData| > 0 then
      SerializeDeserialize(s.value.manifestData);
      Some(Deserialize(s.value.manifestData))
    else None
  }

  /** The record `initialize_or_resume` writes for a new execution of `m`. */
  function FreshState(digest: seq<SerializedAction> -> string, m: seq<CommitAction>): ExecutionState
  {
    ExecutionState(ManifestHash(digest, m), -1, |m|, false, Serialize(m))
  }

  /** The result of `initialize_or_resume` and the state file after it. */
  datatype Resume = Resume(start: Result<int, PyError>, file: StateFile)

  /** `initialize_or_resume(manifest)`: the index of the first action to apply. */
  function InitializeOrResume(f: StateFile, m: seq<CommitAction>, digest: seq<SerializedAction> -> string)
    : (r: Resume)
    ensures LoadState(f).None? ==> r == Resume(Ok(0), SaveState(FreshState(digest, m)))
    ensures LoadState(f).Some? ==> r.file == f
    ensures LoadState(f).Some? ==>
              (r.start.Err? <==> LoadState(f).value.manifestHash != ManifestHash(digest, m))
    ensures r.start.Err? ==> r.start.error == RuntimeError
    ensures LoadState(f).Some? && r.start.Ok? ==>
              r.start.value == if LoadState(f).value.isComplete then |m|
                               else LoadState(f).value.lastAppliedIndex + 1
  {
    var currentHash := ManifestHash(digest, m);
    match LoadState(f)
    case None => Resume(Ok(0), SaveState(FreshState(digest, m)))
    case Some(saved) =>
      if saved.manifestHash != currentHash then Resume(Err(RuntimeError), f)
      else if saved.isComplete then Resume(Ok(|m|), f)
      else Resume(Ok(saved.lastAppliedIndex + 1), f)
  }

  /** `update_progress(index, is_complete)`: without a loadable record nothing
      happens; otherwise only the index and the completion flag change. */
  function UpdateProgress(f: StateFile, index: int, isComplete: bool): (f': StateFile)
    ensures LoadState(f).None? ==> f' == f
    ensures LoadState(f).Some? ==>
              LoadState(f') == Some(LoadState(f).value.(lastAppliedIndex := index, isComplete := isComplete))
  {
    match LoadState(f)
    case None => f
    case Some(saved) =>
      var s := saved.(lastAppliedIndex := index, isComplete := isComplete);
      LoadSavedState(s);
      SaveState(s)
  }

  /** `clear()`: the state file is gone. */
  function Clear(f: StateFile): (f': StateFile)
    ensures LoadState(f').None? && GetSavedManifest(f').None?
  {
    Missing
  }

  // ---------------------------------------------------------------------------
  // The ledger invariant

  /** A record for `m` as `initialize_or_resume` and `update_progress` keep it:
      the hash and data of `m`, its length, an index from -1 to |m| - 1, and the
      completion flag only at the last index. */
  ghost predicate LedgerFor(f: StateFile, m: seq<CommitAction>, digest: seq<SerializedAction> -> string)
  {
    && LoadState(f).Some?
    && var s := LoadState(f).value;
    && s.manifestHash == ManifestHash(digest, m)
    && s.totalCommits == |m|
    && s.manifestData == Serialize(m)
    && -1 <= s.lastAppliedIndex < |m|
    && (s.isComplete ==> s.lastAppliedIndex == |m| - 1)
  }

  /** A new execution establishes the invariant and starts at 0. */
  lemma FreshLedger(f: StateFile, m: seq<CommitAction>, digest: seq<SerializedAction> -> string)
    requires LoadState(f).None?
    ensures LedgerFor(InitializeOrResume(f, m, digest).file, m, digest)
    ensures InitializeOrResume(f, m, digest).start == Ok(0)
  {
    LoadSavedState(FreshState(digest, m));
  }

  /** The checkpoint after action i, `update_progress(i, i == len - 1)`, keeps the invariant. */
  lemma CheckpointKeepsLedger(f: StateFile, m: seq<CommitAction>, digest: seq<SerializedAction> -> string, i: nat)
    requires LedgerFor(f, m, digest) && i < |m|
    ensures LedgerFor(UpdateProgress(f, i, i == |m| - 1), m, digest)
    ensures LoadState(UpdateProgress(f, i, i == |m| - 1)).value.lastAppliedIndex == i
  {
  }

  /** On a ledger for m, resuming never raises and starts where the last
      checkpoint left off: at |m| when complete, else one past the index. */
  lemma ResumeOnLedger(f: StateFile, m: seq<CommitAction>, digest: seq<SerializedAction> -> string)
    requires LedgerFor(f, m, digest)
    ensures InitializeOrResume(f, m, digest).start.Ok?
    ensures 0 <= InitializeOrResume(f, m, digest).start.value <= |m|
    ensures InitializeOrResume(f, m, digest).file == f
  {
  }

  /** The saved manifest of a ledger is the manifest it was written for, so
      resuming with it reproduces the saved hash and does not raise. */
  lemma SavedManifestReproducesHash(f: StateFile, m: seq<CommitAction>, digest: seq<SerializedAction> -> string)
    requires LedgerFor(f, m, digest) && |m| > 0
    ensures GetSavedManifest(f) == Some(m)
    ensures ManifestHash(digest, GetSavedManifest(f).value) == LoadState(f).value.manifestHash
    ensures InitializeOrResume(f, GetSavedManifest(f).value, digest).start.Ok?
  {
    SerializeInjective(GetSavedManifest(f).value, m);
  }
}

=== FILE: planner.dfy ===
/** `Planner.plan` and `Planner._add_action`: from a file list and a schedule to
    an ordered manifest of `CommitAction`s.

    Timestamps are offsets in seconds from the (abstract) planning start `now`.
    The random draws are parameters (`Draws`): the shuffle's result, the unit
    draws behind `random.uniform(0, duration)` (which computes `duration * u`),
    and the unit draws behind `random.choices` (one per action). */
module Planner {
  import opened Common
  import opened Text
  import Chunker
  import opened ConfigParser

  datatype CommitAction = CommitAction(
    authorName: string,
    authorEmail: string,
    timestamp: real,
    files: seq<string>,
    message: string)

  /** What `plan` reads from its config. `duration_seconds`, `total_commits` and
      `mode` are read by planner.py but are not fields of `ConfigDTO`; they are
      explicit inputs here. `totalCommits` is `None` for a missing value. */
  datatype Schedule = Schedule(
    durationSeconds: real,
    totalCommits: Option<int>,
    mode: string,
    authors: seq<AuthorDTO>)

  /** Results of the random calls `plan` makes. */
  datatype Draws = Draws(shuffled: seq<string>, timeUnits: seq<real>, authorUnits: seq<real>)

  /** The draws a run of `plan` on `files` can produce: a rearrangement of the
      files, and enough unit draws (`random.random()` lies in [0, 1)). */
  predicate ValidDraws(files: seq<string>, d: Draws)
  {
    && multiset(d.shuffled) == multiset(files)
    && |d.timeUnits| >= |files| && |d.authorUnits| >= |files|
    && (forall i :: 0 <= i < |d.timeUnits| ==> 0.0 <= d.timeUnits[i] <= 1.0)
    && (forall i :: 0 <= i < |d.authorUnits| ==> 0.0 <= d.authorUnits[i] < 1.0)
  }

  // ---------------------------------------------------------------------------
  // Commit count

  /** `total_commits` when truthy (present and non-zero), else one commit per five
      files but at least one. */
  function RequestedCount(fileCount: nat, totalCommits: Option<int>): (c: int)
    ensures totalCommits.Some? && totalCommits.value != 0 ==> c == totalCommits.value
    ensures (totalCommits.None? || totalCommits.value == 0) ==> c >= 1 && c == Max(1, fileCount / 5)
  {
    if totalCommits.Some? && totalCommits.value != 0 then totalCommits.value
    else Max(1, fileCount / 5)
  }

  // ---------------------------------------------------------------------------
  // Timestamps

  predicate NonDecreasing(s: seq<real>)
  {
    forall i, j :: 0 <= i <= j < |s| ==> s[i] <= s[j]
  }

  /** Inserts x into a sorted list, before the first element not below it. */
  function Insert(x: real, s: seq<real>): (r: seq<real>)
    requires NonDecreasing(s)
    ensures NonDecreasing(r)
    ensures multiset(r) == multiset(s) + multiset{x}
    ensures |r| == |s| + 1
  {
    if |s| == 0 then [x]
    else if x <= s[0] then
      ConsSorted(x, s);
      [x] + s
    else
      var rest := Insert(x, s[1..]);
      InsertStep(x, s, rest);
      [s[0]] + rest
  }

  /** Putting the head of a sorted list back in front of x inserted into its tail. */
  lemma InsertStep(x: real, s: seq<real>, rest: seq<real>)
    requires NonDecreasing(s) && |s| > 0 && s[0] < x
    requires NonDecreasing(rest) && multiset(rest) == multiset(s[1..]) + multiset{x}
    ensures NonDecreasing([s[0]] + rest)
    ensures multiset([s[0]] + rest) == multiset(s) + multiset{x}
  {
    assert s == [s[0]] + s[1..];
    if |rest| > 0 {
      assert rest[0] in multiset(rest);
      if rest[0] != x {
        assert rest[0] in multiset(s[1..]);
        var k :| 0 <= k < |s[1..]| && s[1..][k] == rest[0];
        assert s[0] <= s[k + 1];
      }
    }
    ConsSorted(s[0], rest);
  }

  /** A value no greater than the head of a sorted list keeps it sorted in front. */
  lemma ConsSorted(a: real, s: seq<real>)
    requires NonDecreasing(s) && (|s| > 0 ==> a <= s[0])
    ensures NonDecreasing([a] + s)
  {
    var r := [a] + s;
    forall i, j | 0 <= i <= j < |r|
      ensures r[i] <= r[j]
    {
      if i == 0 && j > 0 {
        assert r[j] == s[j - 1] && s[0] <= s[j - 1];
      }
    }
  }

  /** `list.sort()` on exact reals: the sorted rearrangement. */
  function Sort(s: seq<real>): (r: seq<real>)
    ensures NonDecreasing(r)
    ensures multiset(r) == multiset(s)
    ensures |r| == |s|
  {
    if |s| == 0 then []
    else
      assert s == [s[0]] + s[1..];
      Insert(s[0], Sort(s[1..]))
  }

  /** Offsets of `random` mode: `duration * u` for each of the first n unit draws, sorted. */
  function RandomOffsets(duration: real, n: nat, units: seq<real>): (ts: seq<real>)
    requires |units| >= n
    ensures |ts| == n && NonDecreasing(ts)
    ensures multiset(ts) == multiset(seq(n, i requires 0 <= i < n => duration * units[i]))
  {
    Sort(seq(n, i requires 0 <= i < n => duration * units[i]))
  }

  /** Offsets of `even` mode: one action at 0; otherwise i * step with
      step = duration / (n - 1) when duration > 0, else 0. */
  function EvenOffsets(duration: real, n: nat): (ts: seq<real>)
    requires n >= 1
    ensures |ts| == n && NonDecreasing(ts)
  {
    if n == 1 then [0.0]
    else
      var step := if duration > 0.0 then duration / ((n - 1) as real) else 0.0;
      var ts := seq(n, i requires 0 <= i < n => (i as real) * step);
      assert forall i, j :: 0 <= i <= j < n ==> ts[i] <= ts[j] by {
        forall i, j | 0 <= i <= j < n
          ensures ts[i] <= ts[j]
        {
          MulMonotone(i as real, j as real, step);
        }
      }
      ts
  }

  lemma MulMonotone(a: real, b: real, c: real)
    requires a <= b && c >= 0.0
    ensures a * c <= b * c
  {
  }

  /** Any mode other than "random" is spaced evenly. */
  function Timestamps(mode: string, duration: real, n: nat, units: seq<real>): (ts: seq<real>)
    requires n >= 1 && |units| >= n
    ensures |ts| == n && NonDecreasing(ts)
  {
    if mode == "random" then RandomOffsets(duration, n, units) else EvenOffsets(duration, n)
  }

  lemma ScaledUnitInRange(duration: real, u: real)
    requires duration >= 0.0 && 0.0 <= u <= 1.0
    ensures 0.0 <= duration * u <= duration
  {
    MulMonotone(u, 1.0, duration);
    MulMonotone(0.0, u, duration);
  }

  /** In random mode with a non-negative duration every offset lies in [0, duration]. */
  lemma RandomOffsetsInRange(duration: real, n: nat, units: seq<real>)
    requires |units| >= n && duration >= 0.0
    requires forall i :: 0 <= i < |units| ==> 0.0 <= units[i] <= 1.0
    ensures forall i :: 0 <= i < n ==> 0.0 <= RandomOffsets(duration, n, units)[i] <= duration
  {
    var raw := seq(n, i requires 0 <= i < n => duration * units[i]);
    assert forall x :: x in raw ==> 0.0 <= x <= duration by {
      forall j | 0 <= j < n
        ensures 0.0 <= raw[j] <= duration
      {
        var u := units[j];
        ScaledUnitInRange(duration, u);
        assert 0.0 <= duration * u <= duration;
        assert raw[j] == duration * u;
      }
    }
    var ts := RandomOffsets(duration, n, units);
    forall i | 0 <= i < n
      ensures 0.0 <= ts[i] <= duration
    {
      assert ts[i] in multiset(ts);
      assert ts[i] in raw;
    }
  }

  /** Even mode: a single action sits at the start; otherwise the first sits at the
      start, the last at start + duration, and consecutive gaps are all
      duration / (n - 1); a duration <= 0 puts every action at the start. */
  lemma EvenOffsetsShape(duration: real, n: nat)
    requires n >= 1
    ensures n == 1 ==> EvenOffsets(duration, n) == [0.0]
    ensures duration <= 0.0 ==> forall i :: 0 <= i < n ==> EvenOffsets(duration, n)[i] == 0.0
    ensures n > 1 && duration > 0.0 ==>
              && EvenOffsets(duration, n)[0] == 0.0
              && EvenOffsets(duration, n)[n - 1] == duration
              && forall i :: 0 <= i < n - 1 ==>
                   EvenOffsets(duration, n)[i + 1] - EvenOffsets(duration, n)[i] == duration / ((n - 1) as real)
  {
    if n > 1 && duration > 0.0 {
      var ts := EvenOffsets(duration, n);
      var step := duration / ((n - 1) as real);
      assert ts[n - 1] == ((n - 1) as real) * step;
      forall i | 0 <= i < n - 1
        ensures ts[i + 1] - ts[i] == step
      {
        assert ts[i + 1] == ((i + 1) as real) * step;
        assert ts[i] == (i as real) * step;
      }
    }
  }

  // ---------------------------------------------------------------------------
  // Author choice: `random.choices(authors, weights=..., k=1)[0]`

  /** Left-to-right sum. */
  function SumReal(s: seq<real>): real
  {
    if |s| == 0 then 0.0 else SumReal(s[..|s| - 1]) + s[|s| - 1]
  }

  /** `itertools.accumulate(weights)`: entry i is the sum of the first i + 1 weights. */
  function Cumulative(ws: seq<real>): (cum: seq<real>)
    ensures |cum| == |ws|
  {
    seq(|ws|, i requires 0 <= i < |ws| => SumReal(ws[..i + 1]))
  }

  /** Each running sum adds its own weight to the previous one. */
  lemma CumulativeAt(ws: seq<real>, i: nat)
    requires i < |ws|
    ensures Cumulative(ws)[i] == (if i == 0 then 0.0 else Cumulative(ws)[i - 1]) + ws[i]
  {
    var p := ws[..i + 1];
    assert p[..|p| - 1] == ws[..i];
    if i == 0 {
      assert SumReal(p[..|p| - 1]) == 0.0;
    }
  }

  /** `bisect.bisect_right(a, x, lo, hi)`, the binary search as CPython runs it. */
  function BisectRight(a: seq<real>, x: real, lo: nat, hi: nat): (i: nat)
    requires lo <= hi <= |a|
    ensures lo <= i <= hi
    decreases hi - lo
  {
    if lo < hi then
      var mid := (lo + hi) / 2;
      if x < a[mid] then BisectRight(a, x, lo, mid) else BisectRight(a, x, mid + 1, hi)
    else lo
  }

  predicate SortedOn(a: seq<real>, lo: nat, hi: nat)
    requires lo <= hi <= |a|
  {
    forall i, j :: lo <= i <= j < hi ==> a[i] <= a[j]
  }

  /** On a sorted range, bisect_right finds the first element greater than x
      (or hi when there is none). */
  lemma {:induction false} BisectRightFindsFirstGreater(a: seq<real>, x: real, lo: nat, hi: nat)
    requires lo <= hi <= |a| && SortedOn(a, lo, hi)
    ensures var i := BisectRight(a, x, lo, hi);
            && (forall j :: lo <= j < i ==> a[j] <= x)
            && (i < hi ==> x < a[i])
    decreases hi - lo
  {
    if lo < hi {
      var mid := (lo + hi) / 2;
      if x < a[mid] {
        BisectRightFindsFirstGreater(a, x, lo, mid);
      } else {
        BisectRightFindsFirstGreater(a, x, mid + 1, hi);
      }
    }
  }

  function Weights(authors: seq<AuthorDTO>): (ws: seq<real>)
    ensures |ws| == |authors|
    ensures forall i :: 0 <= i < |authors| ==> ws[i] == authors[i].weight
  {
    seq(|authors|, i requires 0 <= i < |authors| => authors[i].weight)
  }

  /** `random.choices(population, weights)` for one pick with unit draw u: a
      ValueError when the weights total <= 0, else
      `bisect_right(cum_weights, u * total, 0, n - 1)`. */
  function WeightedChoice(ws: seq<real>, u: real): (r: Result<nat, PyError>)
    requires |ws| > 0
    ensures r.Ok? ==> r.value < |ws|
    ensures r.Err? <==> Cumulative(ws)[|ws| - 1] <= 0.0
  {
    var cum := Cumulative(ws);
    var total := cum[|ws| - 1];
    if total <= 0.0 then Err(ValueError)
    else Ok(BisectRight(cum, Threshold(u, total), 0, |ws| - 1))
  }

  lemma {:induction false} CumulativeMonotone(ws: seq<real>)
    requires forall i :: 0 <= i < |ws| ==> ws[i] >= 0.0
    ensures SortedOn(Cumulative(ws), 0, |ws|)
    ensures forall i :: 0 <= i < |ws| ==> Cumulative(ws)[i] >= 0.0
  {
    var cum := Cumulative(ws);
    forall i | 0 <= i < |ws|
      ensures cum[i] >= 0.0
    {
      CumulativeAtLeastZero(ws, i);
    }
    forall i, j | 0 <= i <= j < |ws|
      ensures cum[i] <= cum[j]
    {
      CumulativeStep(ws, i, j);
    }
  }

  lemma {:induction false} CumulativeAtLeastZero(ws: seq<real>, i: nat)
    requires i < |ws| && forall k :: 0 <= k < |ws| ==> ws[k] >= 0.0
    ensures Cumulative(ws)[i] >= 0.0
    decreases i
  {
    CumulativeAt(ws, i);
    if i > 0 {
      CumulativeAtLeastZero(ws, i - 1);
    }
  }

  lemma {:induction false} CumulativeStep(ws: seq<real>, i: nat, j: nat)
    requires i <= j < |ws| && forall k :: 0 <= k < |ws| ==> ws[k] >= 0.0
    ensures Cumulative(ws)[i] <= Cumulative(ws)[j]
    decreases j - i
  {
    if i < j {
      CumulativeStep(ws, i, j - 1);
      CumulativeAt(ws, j);
    }
  }

  /** The point `random() * total` that bisect_right looks up. */
  function Threshold(u: real, total: real): real { u * total }

  lemma UnitScaleBelow(u: real, total: real)
    requires 0.0 <= u < 1.0 && total > 0.0
    ensures 0.0 <= Threshold(u, total) < total
  {
  }

  /** With non-negative weights, a unit draw in [0, 1) never picks a zero-weight
      author: e.g. weights [1.0, 0.0] always pick the first. */
  lemma WeightedChoiceSkipsZeroWeights(ws: seq<real>, u: real)
    requires |ws| > 0 && forall i :: 0 <= i < |ws| ==> ws[i] >= 0.0
    requires 0.0 <= u < 1.0
    requires WeightedChoice(ws, u).Ok?
    ensures ws[WeightedChoice(ws, u).value] > 0.0
  {
    var cum := Cumulative(ws);
    WeightedChoicePicks(ws, u);
    IncrementPositive(ws, WeightedChoice(ws, u).value, Threshold(u, cum[|ws| - 1]));
  }

  /** The pick is the author whose slice of the cumulative weights holds the
      point u * total: cum[i-1] <= u * total < cum[i], with cum[-1] read as 0. */
  lemma WeightedChoicePicks(ws: seq<real>, u: real)
    requires |ws| > 0 && forall i :: 0 <= i < |ws| ==> ws[i] >= 0.0
    requires 0.0 <= u < 1.0
    requires WeightedChoice(ws, u).Ok?
    ensures var cum := Cumulative(ws);
            var i := WeightedChoice(ws, u).value;
            var x := Threshold(u, cum[|ws| - 1]);
            0.0 <= x && x < cum[i] && (i > 0 ==> cum[i - 1] <= x)
  {
    var cum := Cumulative(ws);
    var total := cum[|ws| - 1];
    UnitScaleBelow(u, total);
    CumulativeMonotone(ws);
    PickedAboveThreshold(cum, Threshold(u, total), |ws|);
  }

  /** An index i with cum[i-1] <= x < cum[i] (or x < cum[0] for i = 0) and x >= 0
      has a positive weight. */
  lemma IncrementPositive(ws: seq<real>, i: nat, x: real)
    requires i < |ws| && 0.0 <= x < Cumulative(ws)[i]
    requires i > 0 ==> Cumulative(ws)[i - 1] <= x
    ensures ws[i] > 0.0
  {
    CumulativeAt(ws, i);
  }

  /** bisect_right over cum[..n-1] for 0 <= x < cum[n-1] lands on an i with
      cum[i-1] <= x < cum[i], so a strictly positive increment. */
  lemma PickedAboveThreshold(cum: seq<real>, x: real, n: nat)
    requires 0 < n == |cum| && SortedOn(cum, 0, n) && 0.0 <= x < cum[n - 1]
    ensures var i := BisectRight(cum, x, 0, n - 1);
            x < cum[i] && (i > 0 ==> cum[i - 1] <= x)
  {
    assert SortedOn(cum, 0, n - 1);
    BisectRightFindsFirstGreater(cum, x, 0, n - 1);
  }

  // ---------------------------------------------------------------------------
  // Commit message

  /** `_add_action`'s message: "Update N files", then the first five names, then a
      remark on the rest. */
  function Message(files: seq<string>): string
  {
    var n := |files|;
    "Update " + NatToString(n) + " files"
    + if n > 0 then
        "\n\n- " + Join(files[..Min(5, n)], "\n- ")
        + (if n > 5 then "\n...and " + NatToString(n - 5) + " more." else "")
      else ""
  }

  /** "Update N files". */
  function Header(n: nat): string { "Update " + NatToString(n) + " files" }

  /** The listing of the first five names and the remark on the rest; empty without files. */
  function Details(files: seq<string>): string
  {
    var n := |files|;
    if n > 0 then
      "\n\n- " + Join(files[..Min(5, n)], "\n- ")
      + (if n > 5 then "\n...and " + NatToString(n - 5) + " more." else "")
    else ""
  }

  lemma DecimalHasNoNewline(n: nat)
    ensures Count(NatToString(n), '\n') == 0
  {
    var d := NatToString(n);
    assert forall i :: 0 <= i < |d| ==> d[i] != '\n';
    CountAbsent(d, '\n');
  }

  lemma HeaderCount(n: nat)
    ensures Count("Update " + NatToString(n) + " files", '\n') == 0
  {
    DecimalHasNoNewline(n);
    CountConcat("Update " + NatToString(n), " files", '\n');
    CountConcat("Update ", NatToString(n), '\n');
    CountAbsent("Update ", '\n');
    CountAbsent(" files", '\n');
  }

  lemma ListingCount(listed: seq<string>)
    requires |listed| > 0 && forall i :: 0 <= i < |listed| ==> '\n' !in listed[i]
    ensures Count("\n\n- " + Join(listed, "\n- "), '\n') == |listed| + 1
  {
    LiteralCounts();
    var j := Join(listed, "\n- ");
    CountJoin(listed, "\n- ", '\n');
    SumCountsZero(listed, '\n');
    assert Count(j, '\n') == |listed| - 1;
    CountConcat("\n\n- ", j, '\n');
  }

  lemma RemarkCount(rest: nat)
    ensures Count("\n...and " + NatToString(rest) + " more.", '\n') == 1
  {
    LiteralCounts();
    DecimalHasNoNewline(rest);
    CountConcat("\n...and " + NatToString(rest), " more.", '\n');
    CountConcat("\n...and ", NatToString(rest), '\n');
    CountAbsent(" more.", '\n');
  }

  /** Line breaks in the fixed parts of the message. */
  lemma LiteralCounts()
    ensures Count("\n- ", '\n') == 1 && Count("\n\n- ", '\n') == 2
    ensures Count("\n...and ", '\n') == 1
  {
    CountAbsent("- ", '\n');
    CountAbsent("...and ", '\n');
    assert "\n- "[1..] == "- ";
    assert "\n\n- "[1..] == "\n- ";
    assert "\n...and "[1..] == "...and ";
  }

  /** The message names the file count in its first words, and its line breaks
      are exactly: a blank line, one per listed name after the first, and one
      before the "...and N-5 more." remark, which appears exactly when N > 5. */
  lemma MessageLayout(files: seq<string>)
    requires forall i :: 0 <= i < |files| ==> '\n' !in files[i]
    ensures StartsWith(Message(files), "Update " + NatToString(|files|) + " files")
    ensures Count(Message(files), '\n')
         == if |files| == 0 then 0 else Min(5, |files|) + 1 + (if |files| > 5 then 1 else 0)
  {
    var head := Header(|files|);
    assert Message(files) == head + Details(files);
    HeaderCount(|files|);
    DetailsCount(files);
    CountConcat(head, Details(files), '\n');
    assert Message(files)[..|head|] == head;
  }

  lemma DetailsCount(files: seq<string>)
    requires forall i :: 0 <= i < |files| ==> '\n' !in files[i]
    ensures Count(Details(files), '\n')
         == if |files| == 0 then 0 else Min(5, |files|) + 1 + (if |files| > 5 then 1 else 0)
  {
    var n := |files|;
    if n > 0 {
      var listed := files[..Min(5, n)];
      var body := "\n\n- " + Join(listed, "\n- ");
      var tail := if n > 5 then "\n...and " + NatToString(n - 5) + " more." else "";
      assert Details(files) == body + tail;
      ListingCount(listed);
      if n > 5 {
        RemarkCount(n - 5);
      }
      CountConcat(body, tail, '\n');
    }
  }

  /** Two actions with the same number of files and the same first five names get
      the same message. */
  lemma MessageDependsOnFirstFive(a: seq<string>, b: seq<string>)
    requires |a| == |b| && a[..Min(5, |a|)] == b[..Min(5, |b|)]
    ensures Message(a) == Message(b)
  {
  }

  // ---------------------------------------------------------------------------
  // Actions and the plan

  /** An author list `_add_action` can pick from: a single author, or several
      whose weights sum to more than zero. */
  predicate AuthorsUsable(authors: seq<AuthorDTO>)
  {
    |authors| == 1 || (|authors| > 1 && Cumulative(Weights(authors))[|authors| - 1] > 0.0)
  }

  /** `_add_action`: `authors_list[0]` (an IndexError for an empty list), replaced
      by a weighted pick when there is more than one author. */
  function ChooseAuthor(authors: seq<AuthorDTO>, u: real): (r: Result<AuthorDTO, PyError>)
    ensures |authors| == 0 ==> r == Err(IndexError)
    ensures |authors| == 1 ==> r == Ok(authors[0])
    ensures r.Ok? ==> r.value in authors
    ensures r.Ok? <==> AuthorsUsable(authors)
    ensures |authors| > 1 && r.Err? ==> r.error == ValueError
  {
    if |authors| == 0 then Err(IndexError)
    else if |authors| == 1 then Ok(authors[0])
    else
      match WeightedChoice(Weights(authors), u)
      case Err(e) => Err(e)
      case Ok(i) => Ok(authors[i])
  }

  /** The action `_add_action` appends for one chunk. */
  function MakeAction(files: seq<string>, timestamp: real, authors: seq<AuthorDTO>, u: real)
    : (r: Result<CommitAction, PyError>)
    ensures r.Ok? ==> r.value.files == files && r.value.timestamp == timestamp
                      && r.value.message == Message(files)
    ensures r.Ok? <==> ChooseAuthor(authors, u).Ok?
  {
    match ChooseAuthor(authors, u)
    case Err(e) => Err(e)
    case Ok(a) => Ok(CommitAction(a.name, a.email, timestamp, files, Message(files)))
  }

  /** Assigns chunk i and timestamp i to action i, for i from `from` on; the first
      failing author pick raises. */
  function AssignFrom(chunks: seq<seq<string>>, ts: seq<real>, authors: seq<AuthorDTO>,
                      units: seq<real>, from: nat): (r: Result<seq<CommitAction>, PyError>)
    requires from <= |chunks| == |ts| <= |units|
    ensures r.Ok? ==> |r.value| == |chunks| - from
    ensures r.Ok? ==> forall i :: from <= i < |chunks| ==>
              MakeAction(chunks[i], ts[i], authors, units[i]) == Ok(r.value[i - from])
    ensures r.Ok? <==> from == |chunks| || AuthorsUsable(authors)
    ensures r.Err? ==> r.error == if |authors| == 0 then IndexError else ValueError
    decreases |chunks| - from
  {
    if from == |chunks| then Ok([])
    else
      match MakeAction(chunks[from], ts[from], authors, units[from])
      case Err(e) => Err(e)
      case Ok(a) =>
        match AssignFrom(chunks, ts, authors, units, from + 1)
        case Err(e) => Err(e)
        case Ok(rest) => Ok([a] + rest)
  }

  function ActionFiles(m: seq<CommitAction>): (fs: seq<seq<string>>)
    ensures |fs| == |m| && forall i :: 0 <= i < |m| ==> fs[i] == m[i].files
  {
    seq(|m|, i requires 0 <= i < |m| => m[i].files)
  }

  function ActionTimes(m: seq<CommitAction>): (ts: seq<real>)
    ensures |ts| == |m| && forall i :: 0 <= i < |m| ==> ts[i] == m[i].timestamp
  {
    seq(|m|, i requires 0 <= i < |m| => m[i].timestamp)
  }

  /** `Planner.plan(file_list)`. */
  function Plan(files: seq<string>, sch: Schedule, d: Draws): (r: Result<seq<CommitAction>, PyError>)
    requires ValidDraws(files, d)
    ensures |files| == 0 ==> r == Ok([])
    ensures |files| > 0 && RequestedCount(|files|, sch.totalCommits) < 0 ==> r == Err(ValueError)
    ensures |files| > 0 && |sch.authors| == 0 && RequestedCount(|files|, sch.totalCommits) > 0 ==>
              r == Err(IndexError)
    ensures r.Ok? && |files| > 0 ==> |r.value| == Min(RequestedCount(|files|, sch.totalCommits), |files|)
    ensures r.Ok? ==> multiset(Flatten(ActionFiles(r.value))) == multiset(files)
    ensures r.Ok? ==> forall i :: 0 <= i < |r.value| ==> |r.value[i].files| > 0
    ensures r.Ok? ==> NonDecreasing(ActionTimes(r.value))
    ensures r.Ok? ==> forall i :: 0 <= i < |r.value| ==>
              r.value[i].message == Message(r.value[i].files)
              && exists a :: a in sch.authors && a.name == r.value[i].authorName && a.email == r.value[i].authorEmail
    ensures r.Ok? && |sch.authors| == 1 ==> forall i :: 0 <= i < |r.value| ==>
              r.value[i].authorName == sch.authors[0].name && r.value[i].authorEmail == sch.authors[0].email
    ensures (|files| > 0 && RequestedCount(|files|, sch.totalCommits) > 0
             && |sch.authors| > 1 && !AuthorsUsable(sch.authors)) ==> r == Err(ValueError)
    ensures r.Ok? <==> |files| == 0 || (RequestedCount(|files|, sch.totalCommits) > 0 && AuthorsUsable(sch.authors))
    ensures r.Ok? && |files| > 0 ==>
              var c := Chunker.ChunkFiles(files, RequestedCount(|files|, sch.totalCommits), d.shuffled);
              && c.Ok? && 0 < |c.value| <= |d.timeUnits|
              && ActionFiles(r.value) == c.value
              && ActionTimes(r.value) == Timestamps(sch.mode, sch.durationSeconds, |c.value|, d.timeUnits)
  {
    if |files| == 0 then Ok([])
    else
      var requested := RequestedCount(|files|, sch.totalCommits);
      if requested == 0 then Ok([])
      else
        match Chunker.ChunkFiles(files, requested, d.shuffled)
        case Err(e) => Err(e)
        case Ok(chunks) => Actions(chunks, sch, d)
  }

  /** Steps 4 and 5 of `plan`: a timestamp per chunk, then one action per chunk
      with the chunk's files, its timestamp, an author and the message. */
  function Actions(chunks: seq<seq<string>>, sch: Schedule, d: Draws): (r: Result<seq<CommitAction>, PyError>)
    requires 0 < |chunks| <= |d.timeUnits| && |chunks| <= |d.authorUnits|
    ensures r.Ok? <==> AuthorsUsable(sch.authors)
    ensures r.Err? ==> r.error == if |sch.authors| == 0 then IndexError else ValueError
    ensures r.Ok? ==> ActionFiles(r.value) == chunks
    ensures r.Ok? ==> ActionTimes(r.value) == Timestamps(sch.mode, sch.durationSeconds, |chunks|, d.timeUnits)
    ensures r.Ok? ==> forall i :: 0 <= i < |r.value| ==>
              r.value[i].message == Message(r.value[i].files)
              && exists a :: a in sch.authors && a.name == r.value[i].authorName && a.email == r.value[i].authorEmail
    ensures r.Ok? && |sch.authors| == 1 ==> forall i :: 0 <= i < |r.value| ==>
              r.value[i].authorName == sch.authors[0].name && r.value[i].authorEmail == sch.authors[0].email
  {
    var ts := Timestamps(sch.mode, sch.durationSeconds, |chunks|, d.timeUnits);
    PlanFacts(chunks, ts, sch.authors, d.authorUnits);
    AssignFrom(chunks, ts, sch.authors, d.authorUnits, 0)
  }

  /** What a successful assignment inherits from its chunks, timestamps and authors. */
  lemma PlanFacts(chunks: seq<seq<string>>, ts: seq<real>, authors: seq<AuthorDTO>, units: seq<real>)
    requires |chunks| == |ts| <= |units|
    ensures var r := AssignFrom(chunks, ts, authors, units, 0);
            r.Ok? ==> ActionFiles(r.value) == chunks && ActionTimes(r.value) == ts
    ensures var r := AssignFrom(chunks, ts, authors, units, 0);
            r.Ok? ==> forall i :: 0 <= i < |r.value| ==>
              r.value[i].message == Message(r.value[i].files)
              && exists a :: a in authors && a.name == r.value[i].authorName && a.email == r.value[i].authorEmail
    ensures var r := AssignFrom(chunks, ts, authors, units, 0);
            r.Ok? && |authors| == 1 ==> forall i :: 0 <= i < |r.value| ==>
              r.value[i].authorName == authors[0].name && r.value[i].authorEmail == authors[0].email
  {
    var r := AssignFrom(chunks, ts, authors, units, 0);
    if r.Ok? {
      var m := r.value;
      forall i | 0 <= i < |m|
        ensures m[i].files == chunks[i] && m[i].timestamp == ts[i]
        ensures m[i].message == Message(m[i].files)
        ensures exists a :: a in authors && a.name == m[i].authorName && a.email == m[i].authorEmail
        ensures |authors| == 1 ==> m[i].authorName == authors[0].name && m[i].authorEmail == authors[0].email
      {
        assert MakeAction(chunks[i], ts[i], authors, units[i]) == Ok(m[i]);
        var a := ChooseAuthor(authors, units[i]).value;
        assert a in authors && a.name == m[i].authorName && a.email == m[i].authorEmail;
      }
    }
  }
}

=== FILE: text.dfy ===
/** ASCII text helpers with Python's semantics: `str.isdigit`, `str.isspace`,
    `str.lower`, `str.strip`, `str.startswith`, `str.join`, `str.splitlines`,
    and decimal rendering of integers (`str(n)` / `int(s)`). Only the ASCII
    range is modelled. */
module Text {

  predicate IsDigit(c: char) { '0' <= c <= '9' }

  /** Python's whitespace in the ASCII range (`str.isspace`, `str.strip()`, regex `\s`). */
  predicate IsSpace(c: char)
  {
    c == ' ' || c == '\t' || c == '\n' || c == '\r' || c == '\U{000B}' || c == '\U{000C}'
    || c == '\U{001C}' || c == '\U{001D}' || c == '\U{001E}' || c == '\U{001F}'
  }

  /** Line boundaries of `str.splitlines` in the ASCII range (`\r\n` is one boundary). */
  predicate IsLineBreak(c: char)
  {
    c == '\n' || c == '\r' || c == '\U{000B}' || c == '\U{000C}'
    || c == '\U{001C}' || c == '\U{001D}' || c == '\U{001E}'
  }

  predicate AllDigits(s: string) { forall i :: 0 <= i < |s| ==> IsDigit(s[i]) }

  /** Python's `str.isdigit()`: non-empty and every character a digit. */
  predicate IsDigitString(s: string) { |s| > 0 && AllDigits(s) }

  function LowerChar(c: char): (d: char)
    ensures !('A' <= d <= 'Z')
    ensures IsDigit(d) <==> IsDigit(c)
    ensures IsSpace(d) <==> IsSpace(c)
  {
    if 'A' <= c <= 'Z' then (c as int + 32) as char else c
  }

  /** Python's `str.lower()` restricted to ASCII. */
  function Lower(s: string): (r: string)
    ensures |r| == |s|
    ensures forall i :: 0 <= i < |s| ==> r[i] == LowerChar(s[i])
  {
    seq(|s|, i requires 0 <= i < |s| => LowerChar(s[i]))
  }

  lemma LowerIdempotent(s: string)
    ensures Lower(Lower(s)) == Lower(s)
  {
  }

  /** The first position at or after `from` that does not hold whitespace (or |s|). */
  function SkipSpaces(s: string, from: nat): (i: nat)
    requires from <= |s|
    ensures from <= i <= |s|
    ensures forall k :: from <= k < i ==> IsSpace(s[k])
    ensures i < |s| ==> !IsSpace(s[i])
    decreases |s| - from
  {
    if from == |s| || !IsSpace(s[from]) then from else SkipSpaces(s, from + 1)
  }

  /** The position just after the last non-whitespace character before `end` (or 0). */
  function SkipSpacesBack(s: string, end: nat): (j: nat)
    requires end <= |s|
    ensures j <= end
    ensures forall k :: j <= k < end ==> IsSpace(s[k])
    ensures j > 0 ==> !IsSpace(s[j - 1])
    decreases end
  {
    if end == 0 || !IsSpace(s[end - 1]) then end else SkipSpacesBack(s, end - 1)
  }

  /** `str.lstrip()`: drops leading whitespace. */
  function LStrip(s: string): (r: string)
    ensures |r| <= |s| && r == s[|s| - |r|..]
    ensures |r| > 0 ==> !IsSpace(r[0])
    ensures forall i :: 0 <= i < |s| - |r| ==> IsSpace(s[i])
  {
    s[SkipSpaces(s, 0)..]
  }

  /** `str.rstrip()`: drops trailing whitespace. */
  function RStrip(s: string): (r: string)
    ensures |r| <= |s| && r == s[..|r|]
    ensures |r| > 0 ==> !IsSpace(r[|r| - 1])
    ensures forall i :: |r| <= i < |s| ==> IsSpace(s[i])
  {
    s[..SkipSpacesBack(s, |s|)]
  }

  /** `lstrip` drops exactly the run of whitespace before position i when s[i]
      is the first non-whitespace character (or i == |s| and all of s is whitespace). */
  lemma LStripAt(s: string, i: nat)
    requires i <= |s| && forall k :: 0 <= k < i ==> IsSpace(s[k])
    requires i < |s| ==> !IsSpace(s[i])
    ensures LStrip(s) == s[i..]
  {
    var d := SkipSpaces(s, 0);
    assert d < |s| ==> !IsSpace(s[d]);
    assert d == i;
  }

  /** `rstrip` keeps exactly s[..j] when s[j - 1] is the last non-whitespace
      character (or j == 0 and all of s is whitespace). */
  lemma RStripAt(s: string, j: nat)
    requires j <= |s| && forall k :: j <= k < |s| ==> IsSpace(s[k])
    requires j > 0 ==> !IsSpace(s[j - 1])
    ensures RStrip(s) == s[..j]
  {
    var d := SkipSpacesBack(s, |s|);
    assert d > 0 ==> !IsSpace(s[d - 1]);
    assert d == j;
  }

  /** A string holding some non-whitespace character. */
  predicate Visible(s: string) { exists i :: 0 <= i < |s| && !IsSpace(s[i]) }

  /** Leading whitespace of a visible prefix is all that `lstrip` removes. */
  lemma LStripConcat(a: string, b: string)
    requires Visible(a)
    ensures LStrip(a + b) == LStrip(a) + b
  {
    var r := LStrip(a);
    var i := |a| - |r|;
    LStripStops(a);
    LStripAt(a + b, i);
    assert (a + b)[i..] == a[i..] + b;
  }

  /** Trailing whitespace of a visible suffix is all that `rstrip` removes. */
  lemma RStripConcat(a: string, b: string)
    requires Visible(b)
    ensures RStrip(a + b) == a + RStrip(b)
  {
    var r := RStrip(b);
    var j := |r|;
    RStripStops(b);
    RStripAt(a + b, |a| + j);
    assert (a + b)[..|a| + j] == a + b[..j];
  }

  /** In a visible string, `lstrip` stops at a non-whitespace character. */
  lemma LStripStops(s: string)
    requires Visible(s)
    ensures |LStrip(s)| > 0 && !IsSpace(s[|s| - |LStrip(s)|])
  {
    var i := |s| - |LStrip(s)|;
    var w :| 0 <= w < |s| && !IsSpace(s[w]);
    assert !(w < i);
    assert LStrip(s)[0] == s[i];
  }

  /** In a visible string, `rstrip` stops at a non-whitespace character. */
  lemma RStripStops(s: string)
    requires Visible(s)
    ensures |RStrip(s)| > 0 && !IsSpace(s[|RStrip(s)| - 1])
  {
    var j := |RStrip(s)|;
    var w :| 0 <= w < |s| && !IsSpace(s[w]);
    assert !(j <= w);
    assert RStrip(s)[j - 1] == s[j - 1];
  }

  /** For a visible string, `lstrip` drops fewer characters than `rstrip` keeps. */
  lemma StripBounds(s: string)
    requires Visible(s)
    ensures |s| - |LStrip(s)| < |RStrip(s)|
    ensures !IsSpace(s[|s| - |LStrip(s)|]) && !IsSpace(s[|RStrip(s)| - 1])
  {
    LStripStops(s);
    RStripStops(s);
    var i, j := |s| - |LStrip(s)|, |RStrip(s)|;
    var w :| 0 <= w < |s| && !IsSpace(s[w]);
    assert i <= w < j;
  }

  /** The span of a visible string between its first and last non-whitespace
      characters is what `strip` keeps, whichever end is stripped first. */
  lemma StripSpan(s: string)
    requires Visible(s)
    ensures |s| - |LStrip(s)| < |RStrip(s)|
    ensures Strip(s) == s[|s| - |LStrip(s)|..|RStrip(s)|]
    ensures LStrip(RStrip(s)) == s[|s| - |LStrip(s)|..|RStrip(s)|]
    ensures RStrip(s[|s| - |LStrip(s)|..|RStrip(s)|]) == s[|s| - |LStrip(s)|..|RStrip(s)|]
    ensures LStrip(s[|s| - |LStrip(s)|..|RStrip(s)|]) == s[|s| - |LStrip(s)|..|RStrip(s)|]
  {
    StripBounds(s);
    var i, j := |s| - |LStrip(s)|, |RStrip(s)|;
    StripThenRStrip(s, i, j);
    StripThenLStrip(s, i, j);
    var t := s[i..j];
    assert t[0] == s[i] && t[|t| - 1] == s[j - 1];
    SpanFixed(t);
  }

  lemma StripThenRStrip(s: string, i: nat, j: nat)
    requires i == |s| - |LStrip(s)| && j == |RStrip(s)| && i < j
    ensures Strip(s) == s[i..j]
  {
    var t := s[i..];
    assert LStrip(s) == t;
    forall k | j - i <= k < |t|
      ensures IsSpace(t[k])
    {
      assert t[k] == s[k + i];
    }
    assert t[j - i - 1] == s[j - 1];
    RStripAt(t, j - i);
    assert t[..j - i] == s[i..j];
  }

  lemma StripThenLStrip(s: string, i: nat, j: nat)
    requires i == |s| - |LStrip(s)| && j == |RStrip(s)| && i < j
    ensures LStrip(RStrip(s)) == s[i..j]
  {
    var u := s[..j];
    assert RStrip(s) == u;
    assert forall k :: 0 <= k < i ==> u[k] == s[k];
    assert u[i] == s[i];
    LStripAt(u, i);
    assert u[i..] == s[i..j];
  }

  /** A string with visible characters at both ends strips to itself. */
  lemma SpanFixed(t: string)
    requires |t| > 0 && !IsSpace(t[0]) && !IsSpace(t[|t| - 1])
    ensures RStrip(t) == t && LStrip(t) == t
  {
    RStripAt(t, |t|);
    LStripAt(t, 0);
  }

  /** Stripping a string that has already lost either end changes nothing more. */
  lemma StripAfterPartialStrip(s: string)
    requires Visible(s)
    ensures Strip(LStrip(s)) == Strip(s)
    ensures Strip(RStrip(s)) == Strip(s)
    ensures Strip(Strip(s)) == Strip(s)
  {
    StripSpan(s);
    var i, j := |s| - |LStrip(s)|, |RStrip(s)|;
    LStripAt(s[i..], 0);
    LStripAt(s[i..j], 0);
  }

  /** `str.strip()`. */
  function Strip(s: string): string { RStrip(LStrip(s)) }

  predicate StartsWith(s: string, prefix: string)
  {
    |prefix| <= |s| && s[..|prefix|] == prefix
  }

  /** `sep.join(parts)`. */
  function Join(parts: seq<string>, sep: string): string
  {
    if |parts| == 0 then ""
    else if |parts| == 1 then parts[0]
    else parts[0] + sep + Join(parts[1..], sep)
  }

  /** Joining with the first part split off. */
  lemma JoinFirst(parts: seq<string>, sep: string)
    requires |parts| > 1
    ensures Join(parts, sep) == parts[0] + (sep + Join(parts[1..], sep))
  {
  }

  /** Joining with the last part split off. */
  lemma {:induction false} JoinLast(parts: seq<string>, sep: string)
    requires |parts| >= 2
    ensures Join(parts, sep) == Join(parts[..|parts| - 1], sep) + sep + parts[|parts| - 1]
    decreases |parts|
  {
    var n := |parts|;
    if n == 2 {
      assert parts[..1] == [parts[0]];
      assert parts[1..] == [parts[1]];
    } else {
      JoinLast(parts[1..], sep);
      assert parts[1..][..n - 2] == parts[..n - 1][1..];
    }
  }

  /** Number of occurrences of `c` in `s`. */
  function Count(s: string, c: char): nat
  {
    if |s| == 0 then 0 else (if s[0] == c then 1 else 0) + Count(s[1..], c)
  }

  lemma {:induction false} CountConcat(a: string, b: string, c: char)
    ensures Count(a + b, c) == Count(a, c) + Count(b, c)
    decreases |a|
  {
    if |a| == 0 {
      assert a + b == b;
    } else {
      assert (a + b)[1..] == a[1..] + b;
      CountConcat(a[1..], b, c);
    }
  }

  /** Joining n parts adds n - 1 separators to the count of `c`. */
  lemma {:induction false} CountJoin(parts: seq<string>, sep: string, c: char)
    requires |parts| > 0
    ensures Count(Join(parts, sep), c) == SumCounts(parts, c) + (|parts| - 1) * Count(sep, c)
    decreases |parts|
  {
    if |parts| > 1 {
      CountJoin(parts[1..], sep, c);
      CountConcat(parts[0] + sep, Join(parts[1..], sep), c);
      CountConcat(parts[0], sep, c);
      assert SumCounts(parts, c) == Count(parts[0], c) + SumCounts(parts[1..], c);
    } else {
      assert SumCounts(parts, c) == Count(parts[0], c) + SumCounts(parts[1..], c);
    }
  }

  function SumCounts(parts: seq<string>, c: char): nat
  {
    if |parts| == 0 then 0 else Count(parts[0], c) + SumCounts(parts[1..], c)
  }

  lemma {:induction false} SumCountsZero(parts: seq<string>, c: char)
    requires forall i :: 0 <= i < |parts| ==> c !in parts[i]
    ensures SumCounts(parts, c) == 0
    decreases |parts|
  {
    if |parts| > 0 {
      CountAbsent(parts[0], c);
      SumCountsZero(parts[1..], c);
    }
  }

  lemma {:induction false} CountAbsent(s: string, c: char)
    requires c !in s
    ensures Count(s, c) == 0
    decreases |s|
  {
    if |s| > 0 {
      assert s[0] in s;
      CountAbsent(s[1..], c);
    }
  }

  function DigitChar(d: nat): (c: char)
    requires d < 10
    ensures IsDigit(c)
  {
    ('0' as int + d) as char
  }

  function DigitValue(c: char): (d: nat)
    requires IsDigit(c)
    ensures d < 10 && DigitChar(d) == c
  {
    c as int - '0' as int
  }

  /** Python's `int(s)` for a string of ASCII digits (the empty string gives 0). */
  function DigitsValue(s: string): nat
    requires AllDigits(s)
  {
    if |s| == 0 then 0 else 10 * DigitsValue(s[..|s| - 1]) + DigitValue(s[|s| - 1])
  }

  /** Python's `str(n)` for a natural number: decimal digits, no leading zeros. */
  function NatToString(n: nat): (s: string)
    ensures IsDigitString(s)
    ensures |s| > 1 ==> s[0] != '0'
  {
    if n < 10 then [DigitChar(n)] else NatToString(n / 10) + [DigitChar(n % 10)]
  }

  /** Rendering a number and reading it back gives the same number. */
  lemma {:induction false} NatToStringRoundTrip(n: nat)
    ensures DigitsValue(NatToString(n)) == n
  {
    if n >= 10 {
      var s := NatToString(n);
      NatToStringRoundTrip(n / 10);
      assert s[..|s| - 1] == NatToString(n / 10);
    }
  }

  /** `NatToString` is injective: distinct counts render differently. */
  lemma NatToStringInjective(m: nat, n: nat)
    requires NatToString(m) == NatToString(n)
    ensures m == n
  {
    NatToStringRoundTrip(m);
    NatToStringRoundTrip(n);
  }

  /** Python's `str.splitlines()` (ASCII line boundaries, `\r\n` counted once, no trailing empty line). */
  function SplitLines(s: string): seq<string>
    decreases |s|
  {
    if |s| == 0 then []
    else
      var i := FirstBreak(s, 0);
      if i == |s| then [s]
      else if s[i] == '\r' && i + 1 < |s| && s[i + 1] == '\n' then [s[..i]] + SplitLines(s[i + 2..])
      else [s[..i]] + SplitLines(s[i + 1..])
  }

  /** Index of the first line boundary at or after `from`, or `|s|`. */
  function FirstBreak(s: string, from: nat): (i: nat)
    requires from <= |s|
    ensures from <= i <= |s|
    ensures i < |s| ==> IsLineBreak(s[i])
    ensures forall j :: from <= j < i ==> !IsLineBreak(s[j])
    decreases |s| - from
  {
    if from == |s| || IsLineBreak(s[from]) then from else FirstBreak(s, from + 1)
  }

  predicate NoLineBreak(s: string) { forall i :: 0 <= i < |s| ==> !IsLineBreak(s[i]) }

  /** Splitting non-empty lines joined with "\n" gives the lines back, provided no
      line contains a line boundary itself. */
  lemma {:induction false} SplitJoinedLines(lines: seq<string>)
    requires forall k :: 0 <= k < |lines| ==> NoLineBreak(lines[k]) && |lines[k]| > 0
    ensures SplitLines(Join(lines, "\n")) == lines
    decreases |lines|
  {
    if |lines| == 1 {
      assert FirstBreak(lines[0], 0) == |lines[0]|;
    } else if |lines| > 1 {
      var s := Join(lines, "\n");
      var l := lines[0];
      assert s == l + "\n" + Join(lines[1..], "\n");
      assert FirstBreak(s, 0) == |l| by {
        assert forall j :: 0 <= j < |l| ==> s[j] == l[j];
        assert s[|l|] == '\n';
        FirstBreakAt(s, 0, |l|);
      }
      assert s[..|l|] == l;
      assert s[|l| + 1..] == Join(lines[1..], "\n");
      SplitJoinedLines(lines[1..]);
    }
  }

  lemma {:induction false} FirstBreakAt(s: string, from: nat, i: nat)
    requires from <= i < |s| && IsLineBreak(s[i])
    requires forall j :: from <= j < i ==> !IsLineBreak(s[j])
    ensures FirstBreak(s, from) == i
    decreases i - from
  {
    if from < i {
      FirstBreakAt(s, from + 1, i);
    }
  }

  // Stripping text made of lines

  /** An entry with its leading whitespace dropped when it comes first and its
      trailing whitespace when it comes last. */
  function StripEnd(e: string, first: bool, last: bool): string
  {
    if first && last then Strip(e)
    else if first then LStrip(e)
    else if last then RStrip(e)
    else e
  }

  /** The entries as stripping the whole output leaves them. */
  function StripEnds(entries: seq<string>): (r: seq<string>)
    ensures |r| == |entries|
  {
    seq(|entries|, k requires 0 <= k < |entries| => StripEnd(entries[k], k == 0, k == |entries| - 1))
  }

  /** Stripping the joined output only strips the outer ends of the first and
      last entries. */
  lemma StripJoin(entries: seq<string>)
    requires |entries| > 0
    requires forall k :: 0 <= k < |entries| ==> Visible(entries[k])
    ensures Strip(Join(entries, "\n")) == Join(StripEnds(entries), "\n")
  {
    var n := |entries|;
    if n == 1 {
      var r := StripEnds(entries);
      assert r[0] == Strip(entries[0]);
      assert Join(r, "\n") == r[0];
    } else {
      assert Visible(entries[0]) && Visible(entries[n - 1]);
      StripJoinMany(entries);
    }
  }

  lemma StripJoinMany(entries: seq<string>)
    requires |entries| > 1 && Visible(entries[0]) && Visible(entries[|entries| - 1])
    ensures Strip(Join(entries, "\n")) == Join(StripEnds(entries), "\n")
  {
    var n := |entries|;
    var m := [LStrip(entries[0])] + entries[1..];
    var stripped := m[..n - 1] + [RStrip(m[n - 1])];
    LStripJoin(entries);
    assert m[n - 1] == entries[n - 1];
    RStripJoin(m);
    StripEndsShape(entries);
    calc {
      Strip(Join(entries, "\n"));
      RStrip(LStrip(Join(entries, "\n")));
      RStrip(Join(m, "\n"));
      Join(stripped, "\n");
      Join(StripEnds(entries), "\n");
    }
  }

  lemma StripEndsShape(entries: seq<string>)
    requires |entries| > 1
    ensures var m := [LStrip(entries[0])] + entries[1..];
            StripEnds(entries) == m[..|m| - 1] + [RStrip(m[|m| - 1])]
  {
    var n := |entries|;
    var m := [LStrip(entries[0])] + entries[1..];
    var m' := m[..n - 1] + [RStrip(m[n - 1])];
    var r := StripEnds(entries);
    forall k | 0 <= k < n
      ensures m'[k] == r[k]
    {
      if k == 0 {
        assert m'[k] == LStrip(entries[0]);
      } else if k == n - 1 {
        assert m'[k] == RStrip(entries[k]);
      } else {
        assert m'[k] == entries[k];
      }
    }
    assert m' == r;
  }

  lemma LStripJoin(entries: seq<string>)
    requires |entries| > 1 && Visible(entries[0])
    ensures LStrip(Join(entries, "\n")) == Join([LStrip(entries[0])] + entries[1..], "\n")
  {
    var m := [LStrip(entries[0])] + entries[1..];
    var rest := Join(entries[1..], "\n");
    JoinFirst(entries, "\n");
    LStripConcat(entries[0], "\n" + rest);
    JoinFirst(m, "\n");
    assert m[1..] == entries[1..];
  }

  lemma RStripJoin(m: seq<string>)
    requires |m| > 1 && Visible(m[|m| - 1])
    ensures RStrip(Join(m, "\n")) == Join(m[..|m| - 1] + [RStrip(m[|m| - 1])], "\n")
  {
    var n := |m|;
    var m' := m[..n - 1] + [RStrip(m[n - 1])];
    JoinLast(m, "\n");
    RStripConcat(Join(m[..n - 1], "\n") + "\n", m[n - 1]);
    JoinLast(m', "\n");
    assert m'[..n - 1] == m[..n - 1];
  }

  /** Each entry after the outer strip still strips to the same text, and is a
      non-empty line without breaks. */
  lemma StripEndsEntries(entries: seq<string>, k: nat)
    requires k < |entries|
    requires NoLineBreak(entries[k]) && Visible(entries[k])
    ensures var e := StripEnds(entries)[k];
            Strip(e) == Strip(entries[k]) && NoLineBreak(e) && |e| > 0
  {
    StripEndFacts(entries[k], k == 0, k == |entries| - 1);
  }

  lemma StripEndFacts(e: string, first: bool, last: bool)
    requires NoLineBreak(e) && Visible(e)
    ensures Strip(StripEnd(e, first, last)) == Strip(e)
    ensures NoLineBreak(StripEnd(e, first, last)) && |StripEnd(e, first, last)| > 0
  {
    if first && last {
      StripEntry(e);
    } else if first {
      LStripEntry(e);
    } else if last {
      RStripEntry(e);
    }
  }

  lemma StripEntry(e: string)
    requires NoLineBreak(e) && Visible(e)
    ensures Strip(Strip(e)) == Strip(e) && NoLineBreak(Strip(e)) && |Strip(e)| > 0
  {
    StripAfterPartialStrip(e);
    StripKeepsLine(e);
  }

  lemma StripKeepsLine(e: string)
    requires NoLineBreak(e) && Visible(e)
    ensures NoLineBreak(Strip(e)) && |Strip(e)| > 0
  {
    StripSpan(e);
    var i, j := |e| - |LStrip(e)|, |RStrip(e)|;
    var t := Strip(e);
    assert t == e[i..j] && i < j;
    SliceKeepsNoLineBreak(e, i, j);
  }

  lemma SliceKeepsNoLineBreak(e: string, i: nat, j: nat)
    requires i <= j <= |e| && NoLineBreak(e)
    ensures NoLineBreak(e[i..j])
  {
    forall k | 0 <= k < j - i
      ensures !IsLineBreak(e[i..j][k])
    {
      assert e[i..j][k] == e[i + k];
    }
  }

  lemma LStripEntry(e: string)
    requires NoLineBreak(e) && Visible(e)
    ensures Strip(LStrip(e)) == Strip(e) && NoLineBreak(LStrip(e)) && |LStrip(e)| > 0
  {
    StripAfterPartialStrip(e);
    LStripStops(e);
  }

  lemma RStripEntry(e: string)
    requires NoLineBreak(e) && Visible(e)
    ensures Strip(RStrip(e)) == Strip(e) && NoLineBreak(RStrip(e)) && |RStrip(e)| > 0
  {
    StripAfterPartialStrip(e);
    RStripStops(e);
  }

  lemma JoinStartsWithFirst(parts: seq<string>, sep: string)
    requires |parts| > 0
    ensures |Join(parts, sep)| >= |parts[0]| && Join(parts, sep)[..|parts[0]|] == parts[0]
  {
    if |parts| > 1 {
      assert Join(parts, sep) == parts[0] + (sep + Join(parts[1..], sep));
    }
  }
}

=== FILE: timeutils.dfy ===
/** `TimeUtils.parse_duration`: "2h", "1d 30m", "500s" and the like, to seconds.

    The input is lower-cased and stripped, then `re.findall(r'(\d+)\s*([wdhms])', ...)`
    collects every (digits, unit) pair; the result is the sum of value times
    the unit's length. Without any pair, a string of digits is that many days,
    and anything else is a ValueError. The result is the number of seconds of
    the returned `timedelta`. Only ASCII is modelled. */
module TimeUtils {
  import opened Common
  import opened Text

  predicate IsUnit(c: char) { c == 'w' || c == 'd' || c == 'h' || c == 'm' || c == 's' }

  /** Seconds per unit: weeks, days, hours, minutes, seconds. */
  function UnitSeconds(u: char): (n: nat)
    requires IsUnit(u)
    ensures n > 0
  {
    match u
    case 'w' => 604800
    case 'd' => 86400
    case 'h' => 3600
    case 'm' => 60
    case _ => 1
  }


  /** One match of the pattern: the digit group and the unit group. */
  datatype Pair = Pair(digits: string, unit: char)

  predicate ValidPair(p: Pair) { IsDigitString(p.digits) && IsUnit(p.unit) }

  /** The end of the run of digits starting at `from`. */
  function DigitRunEnd(s: string, from: nat): (i: nat)
    requires from <= |s|
    ensures from <= i <= |s|
    ensures forall k :: from <= k < i ==> IsDigit(s[k])
    ensures i < |s| ==> !IsDigit(s[i])
    decreases |s| - from
  {
    if from == |s| || !IsDigit(s[from]) then from else DigitRunEnd(s, from + 1)
  }

  /** The match of the pattern at the front of s, with its length. Matching
      greedily is enough: giving back a digit leaves a digit next, and giving
      back whitespace leaves whitespace next, neither of which is a unit. */
  function MatchFront(s: string): (r: Option<(Pair, nat)>)
    ensures r.Some? ==> 0 < r.value.1 <= |s| && ValidPair(r.value.0)
  {
    if |s| > 0 && IsDigit(s[0]) then
      var e := DigitRunEnd(s, 0);
      var u := SkipSpaces(s, e);
      if u < |s| && IsUnit(s[u]) then Some((Pair(s[..e], s[u]), u + 1)) else None
    else None
  }

  /** `re.findall`: the leftmost match, then the matches in the text after it;
      where no match starts, the search moves on by one character. */
  function FindAll(s: string): (ms: seq<Pair>)
    ensures forall i :: 0 <= i < |ms| ==> ValidPair(ms[i])
    decreases |s|
  {
    if |s| == 0 then []
    else
      match MatchFront(s)
      case Some((pair, end)) => [pair] + FindAll(s[end..])
      case None => FindAll(s[1..])
  }

  /** The length of `value` units. */
  function Seconds(value: nat, unit: char): nat
    requires IsUnit(unit)
  {
    value * UnitSeconds(unit)
  }

  /** Sum of value times unit length over the pairs. */
  function Total(ms: seq<Pair>): nat
    requires forall i :: 0 <= i < |ms| ==> ValidPair(ms[i])
  {
    if |ms| == 0 then 0
    else
      var p := ms[0];
      assert ValidPair(p);
      Seconds(DigitsValue(p.digits), p.unit) + Total(ms[1..])
  }

  /** `parse_duration(duration_str)`, in seconds. */
  function ParseDuration(input: string): (r: Result<nat, PyError>)
    ensures r.Err? ==> r.error == ValueError
    ensures r.Err? <==> FindAll(Strip(Lower(input))) == [] && !IsDigitString(Strip(Lower(input)))
  {
    var s := Strip(Lower(input));
    var ms := FindAll(s);
    if ms == [] then
      if IsDigitString(s) then Ok(DigitsValue(s) * SecondsPerDay) else Err(ValueError)
    else Ok(Total(ms))
  }

  // ---------------------------------------------------------------------------
  // Properties

  /** Upper and lower case spell the same duration: "2H" is "2h". */
  lemma CaseInsensitive(input: string)
    ensures ParseDuration(Lower(input)) == ParseDuration(input)
  {
    LowerIdempotent(input);
  }

  /** A prefix without digits holds no match and leaves the matches after it alone:
      characters outside the pairs are ignored. */
  lemma {:induction false} DigitFreePrefixIgnored(junk: string, s: string)
    requires forall k :: 0 <= k < |junk| ==> !IsDigit(junk[k])
    ensures FindAll(junk + s) == FindAll(s)
    decreases |junk|
  {
    if |junk| > 0 {
      assert (junk + s)[0] == junk[0];
      assert (junk + s)[1..] == junk[1..] + s;
      DigitFreePrefixIgnored(junk[1..], s);
    } else {
      assert junk + s == s;
    }
  }

  /** The text of one pair: a number, optional whitespace, a unit letter. */
  function Token(value: nat, gap: string, unit: char): string
  {
    NatToString(value) + gap + [unit]
  }

  /** A token at the front is matched as a whole, and matching goes on after it. */
  lemma TokenFirst(value: nat, gap: string, unit: char, rest: string)
    requires IsUnit(unit) && forall k :: 0 <= k < |gap| ==> IsSpace(gap[k])
    ensures FindAll(Token(value, gap, unit) + rest)
         == [Pair(NatToString(value), unit)] + FindAll(rest)
  {
    var digits := NatToString(value);
    var t := Token(value, gap, unit);
    var s := t + rest;
    var e := |digits|;
    assert s[..e] == digits;
    DigitRunEndAt(s, 0, e);
    SkipSpacesAt(s, e, e + |gap|);
    assert s[e + |gap|] == unit;
    assert MatchFront(s) == Some((Pair(digits, unit), |t|));
    assert s[|t|..] == rest;
  }

  lemma DigitRunEndAt(s: string, from: nat, i: nat)
    requires from <= i < |s| && (forall k :: from <= k < i ==> IsDigit(s[k])) && !IsDigit(s[i])
    ensures DigitRunEnd(s, from) == i
  {
    var d := DigitRunEnd(s, from);
    assert d < |s| ==> !IsDigit(s[d]);
    assert d == i;
  }

  lemma SkipSpacesAt(s: string, from: nat, i: nat)
    requires from <= i < |s| && (forall k :: from <= k < i ==> IsSpace(s[k])) && !IsSpace(s[i])
    ensures SkipSpaces(s, from) == i
  {
    var d := SkipSpaces(s, from);
    assert d < |s| ==> !IsSpace(s[d]);
    assert d == i;
  }

  lemma {:induction false} TotalConcat(a: seq<Pair>, b: seq<Pair>)
    requires forall i :: 0 <= i < |a| ==> ValidPair(a[i])
    requires forall i :: 0 <= i < |b| ==> ValidPair(b[i])
    ensures Total(a + b) == Total(a) + Total(b)
    decreases |a|
  {
    if |a| > 0 {
      assert (a + b)[1..] == a[1..] + b;
      assert (a + b)[0] == a[0];
      TotalConcat(a[1..], b);
      assert ValidPair(a[0]);
      var head := Seconds(DigitsValue(a[0].digits), a[0].unit);
      assert Total(a) == head + Total(a[1..]);
      assert Total(a + b) == head + Total(a[1..] + b);
    } else {
      assert a + b == b;
    }
  }

  /** Pairs may be adjacent or separated by characters other than digits: two
      tokens in a row add up, so "1d2h" and "1d 2h" are both 93600 seconds. */
  lemma TwoTokens(v1: nat, g1: string, u1: char, sep: string, v2: nat, g2: string, u2: char)
    requires IsUnit(u1) && IsUnit(u2)
    requires forall k :: 0 <= k < |g1| ==> IsSpace(g1[k])
    requires forall k :: 0 <= k < |g2| ==> IsSpace(g2[k])
    requires forall k :: 0 <= k < |sep| ==> !IsDigit(sep[k])
    ensures FindAll(Token(v1, g1, u1) + (sep + Token(v2, g2, u2)))
         == [Pair(NatToString(v1), u1), Pair(NatToString(v2), u2)]
    ensures Total(FindAll(Token(v1, g1, u1) + (sep + Token(v2, g2, u2))))
         == Seconds(v1, u1) + Seconds(v2, u2)
  {
    var ms := FindAll(Token(v1, g1, u1) + (sep + Token(v2, g2, u2)));
    assert ms == [Pair(NatToString(v1), u1), Pair(NatToString(v2), u2)] by {
      TokenFirst(v1, g1, u1, sep + Token(v2, g2, u2));
      SeparatedToken(sep, v2, g2, u2);
    }
    PairsTotal(v1, u1, v2, u2);
  }

  /** A token followed by the text up to the next token: the shape of every
      duration text, e.g. "1d 30m" is [Tok(1, "", 'd', " "), Tok(30, "", 'm', "")]. */
  datatype Tok = Tok(value: nat, gap: string, unit: char, sep: string)

  /** Whitespace between number and unit, and no digit before the next token. */
  predicate WellFormedTok(t: Tok)
  {
    && IsUnit(t.unit)
    && (forall k :: 0 <= k < |t.gap| ==> IsSpace(t.gap[k]))
    && (forall k :: 0 <= k < |t.sep| ==> !IsDigit(t.sep[k]))
  }

  predicate WellFormedToks(ts: seq<Tok>)
  {
    forall i :: 0 <= i < |ts| ==> WellFormedTok(ts[i])
  }

  /** The text the tokens spell. */
  function Render(ts: seq<Tok>): string
  {
    if |ts| == 0 then []
    else Token(ts[0].value, ts[0].gap, ts[0].unit) + (ts[0].sep + Render(ts[1..]))
  }

  /** The pairs the pattern should find in `Render(ts)`: one per token. */
  function TokPairs(ts: seq<Tok>): (ms: seq<Pair>)
    ensures |ms| == |ts|
    ensures forall i :: 0 <= i < |ts| ==> ms[i] == Pair(NatToString(ts[i].value), ts[i].unit)
  {
    seq(|ts|, i requires 0 <= i < |ts| => Pair(NatToString(ts[i].value), ts[i].unit))
  }

  /** The duration the tokens denote: the sum of value times unit length. */
  function TokSeconds(ts: seq<Tok>): nat
    requires WellFormedToks(ts)
  {
    if |ts| == 0 then 0
    else
      assert WellFormedTok(ts[0]);
      Seconds(ts[0].value, ts[0].unit) + TokSeconds(ts[1..])
  }

  /** Any number of tokens, separated by text without digits, are found one pair
      each, in order, and add up to their total. */
  lemma {:induction false} ManyTokens(ts: seq<Tok>)
    requires WellFormedToks(ts)
    ensures FindAll(Render(ts)) == TokPairs(ts)
    ensures Total(FindAll(Render(ts))) == TokSeconds(ts)
    decreases |ts|
  {
    if |ts| > 0 {
      var t, rest := ts[0], ts[1..];
      var p := Pair(NatToString(t.value), t.unit);
      FoundFirst(ts);
      ManyTokens(rest);
      TokPairsCons(ts);
      TotalCons(p, TokPairs(rest));
      NatToStringRoundTrip(t.value);
    }
  }

  /** The first token is the first pair; the rest of the text holds the rest. */
  lemma FoundFirst(ts: seq<Tok>)
    requires |ts| > 0 && WellFormedToks(ts)
    ensures WellFormedTok(ts[0]) && WellFormedToks(ts[1..])
    ensures FindAll(Render(ts)) == [Pair(NatToString(ts[0].value), ts[0].unit)] + FindAll(Render(ts[1..]))
  {
    var t, rest := ts[0], ts[1..];
    assert WellFormedTok(t);
    forall i | 0 <= i < |rest| ensures WellFormedTok(rest[i]) {
      assert rest[i] == ts[i + 1];
    }
    TokenFirst(t.value, t.gap, t.unit, t.sep + Render(rest));
    DigitFreePrefixIgnored(t.sep, Render(rest));
  }

  lemma TokPairsCons(ts: seq<Tok>)
    requires |ts| > 0
    ensures TokPairs(ts) == [Pair(NatToString(ts[0].value), ts[0].unit)] + TokPairs(ts[1..])
  {
  }

  lemma TotalCons(p: Pair, ms: seq<Pair>)
    requires ValidPair(p) && forall i :: 0 <= i < |ms| ==> ValidPair(ms[i])
    ensures Total([p] + ms) == Seconds(DigitsValue(p.digits), p.unit) + Total(ms)
  {
    var all := [p] + ms;
    assert all[0] == p && all[1..] == ms;
  }

  /** `parse_duration` on any text whose lowered, stripped form is one or more
      tokens returns their total: "1d 30m" is 88200 seconds, "2H, 5 m" is 7500. */
  lemma ParseTokens(input: string, ts: seq<Tok>)
    ensures WellFormedToks(ts) && |ts| > 0 && Strip(Lower(input)) == Render(ts)
            ==> ParseDuration(input) == Ok(TokSeconds(ts))
  {
    if WellFormedToks(ts) && |ts| > 0 && Strip(Lower(input)) == Render(ts) {
      ManyTokens(ts);
      ParsedAs(input);
    }
  }

  /** A token after text without digits is the only pair. */
  lemma SeparatedToken(sep: string, value: nat, gap: string, unit: char)
    requires IsUnit(unit) && forall k :: 0 <= k < |gap| ==> IsSpace(gap[k])
    requires forall k :: 0 <= k < |sep| ==> !IsDigit(sep[k])
    ensures FindAll(sep + Token(value, gap, unit)) == [Pair(NatToString(value), unit)]
  {
    DigitFreePrefixIgnored(sep, Token(value, gap, unit));
    LoneToken(value, gap, unit);
  }

  /** A token alone is one pair. */
  lemma LoneToken(value: nat, gap: string, unit: char)
    requires IsUnit(unit) && forall k :: 0 <= k < |gap| ==> IsSpace(gap[k])
    ensures FindAll(Token(value, gap, unit)) == [Pair(NatToString(value), unit)]
  {
    var t := Token(value, gap, unit);
    assert t == t + [];
    TokenFirst(value, gap, unit, []);
    assert FindAll([]) == [];
  }

  lemma PairsTotal(v1: nat, u1: char, v2: nat, u2: char)
    requires IsUnit(u1) && IsUnit(u2)
    ensures Total([Pair(NatToString(v1), u1), Pair(NatToString(v2), u2)])
         == Seconds(v1, u1) + Seconds(v2, u2)
  {
    NatToStringRoundTrip(v1);
    NatToStringRoundTrip(v2);
    var ms := [Pair(NatToString(v1), u1), Pair(NatToString(v2), u2)];
    assert ms[1..] == [Pair(NatToString(v2), u2)];
    assert ms[1..][1..] == [];
    assert Total(ms[1..][1..]) == 0;
    assert Total(ms[1..]) == Seconds(v2, u2);
  }

  /** With one token the result is its value times the unit length; e.g. "90m"
      is 5400 seconds. */
  lemma SingleToken(value: nat, unit: char)
    requires IsUnit(unit)
    ensures ParseDuration(NatToString(value) + [unit]) == Ok(value * UnitSeconds(unit))
  {
    var s := NatToString(value) + [unit];
    var ms := [Pair(NatToString(value), unit)];
    assert FindAll(Strip(Lower(s))) == ms by {
      LowerDurationText(value, unit);
      StripDurationText(s);
      assert Token(value, "", unit) == s;
      LoneToken(value, "", unit);
    }
    ParsedAs(s);
    OnePairTotal(value, unit);
  }

  /** Input with pairs parses to their total. */
  lemma ParsedAs(input: string)
    ensures var ms := FindAll(Strip(Lower(input)));
            ms != [] ==> ParseDuration(input) == Ok(Total(ms))
  {
  }

  lemma OnePairTotal(value: nat, unit: char)
    requires IsUnit(unit)
    ensures Total([Pair(NatToString(value), unit)]) == value * UnitSeconds(unit)
  {
    NatToStringRoundTrip(value);
    var ms := [Pair(NatToString(value), unit)];
    assert ms[1..] == [];
  }

  lemma LowerDurationText(value: nat, unit: char)
    requires IsUnit(unit)
    ensures Lower(NatToString(value) + [unit]) == NatToString(value) + [unit]
  {
  }

  /** A string that starts and ends with a character other than whitespace is
      left alone by `strip`. */
  lemma StripDurationText(s: string)
    requires |s| > 0 && !IsSpace(s[0]) && !IsSpace(s[|s| - 1])
    ensures Strip(s) == s
  {
    LStripAt(s, 0);
    RStripAt(s, |s|);
  }

  /** A string of digits has no pair. */
  lemma {:induction false} DigitsHaveNoPair(s: string)
    requires AllDigits(s)
    ensures FindAll(s) == []
    decreases |s|
  {
    if |s| > 0 {
      assert DigitRunEnd(s, 0) == |s|;
      assert AllDigits(s[1..]) by {
        forall k | 0 <= k < |s[1..]| ensures IsDigit(s[1..][k]) {
          assert s[1..][k] == s[k + 1];
        }
      }
      DigitsHaveNoPair(s[1..]);
    }
  }

  /** A plain number is that many days. */
  lemma DigitsAreDays(s: string)
    requires IsDigitString(s)
    ensures ParseDuration(s) == Ok(DigitsValue(s) * SecondsPerDay)
  {
    assert Lower(s) == s;
    StripDurationText(s);
    DigitsHaveNoPair(s);
  }

  /** The empty string, and any string of whitespace, is a ValueError. */
  lemma BlankIsError(s: string)
    requires forall k :: 0 <= k < |s| ==> IsSpace(s[k])
    ensures ParseDuration(s) == Err(ValueError)
  {
    LStripAt(Lower(s), |s|);
    assert Strip(Lower(s)) == "";
  }

  /** Text without digits never parses. */
  lemma NoDigitsIsError(s: string)
    requires forall k :: 0 <= k < |s| ==> !IsDigit(s[k])
    ensures ParseDuration(s) == Err(ValueError)
  {
    var t := Strip(Lower(s));
    assert forall k :: 0 <= k < |t| ==> !IsDigit(t[k]);
    DigitFreePrefixIgnored(t, []);
    assert t + [] == t;
  }
}
